=== FILE: README.md ===
# Taxi booking app: access control, session and ride lifecycle in Dafny

This project models the core of a taxi booking application. The front end is
built with Next.js and the back end is a Django REST API. Each part is a pure
Dafny function over immutable data, with contracts and lemmas that state what
the code promises.

Front end:

- **Route guard** (`middleware.ts`). Public pages send a signed-in user to
  their role's home. Protected prefixes (`/admin`, `/driver`, `/user`) need
  a token and a matching role cookie. A mismatch redirects to the role's
  home or to `/login`. Module `RouteGuard`.
- **Session store** (`AuthContext.tsx`):
  - restoring the session from `localStorage` on mount;
  - login and registration, which set token and user together, persist
    both and navigate to the role's home;
  - logout;
  - the derived display name;
  - the `useAuth` guard.

  Module `Session`, over the browser state in `Client`.
- **HTTP client** (`api.ts`):
  - the request interceptor that attaches `Bearer <token>`;
  - the response interceptor that forgets the session on a 401 and
    rethrows every error;
  - the admin driver filters and the dashboard statistics.

  Module `ApiClient`.
- **Root page** (`app/page.tsx`): where `/` sends a visitor. Module
  `HomePage`.

Back end:

- **Accounts** (`accounts/models.py`, `accounts/views.py`):
  - the user model: roles, bounds, defaults and the string form;
  - login by username first, then phone;
  - registration, with its checks in their order.

  Module `Accounts`. Passwords are kept as written: `Some(raw)` stands for
  the hash of `raw` and `None` for an unusable password. Tokens come from
  an opaque `mint` parameter.
- **User endpoints** (`api/views.py` `UserViewSet`, `api/serializers.py`):
  - who sees which accounts;
  - the writable fields of the user serializer and of the driver's
    car-details serializer;
  - `create_driver`, `update_car_details` and generic updates.

  Module `Users`. Field validation follows the serializer rules in module
  `Fields`: text stripped, blank and null rules, maximum lengths,
  fixed-point decimals. `Users` adds the email shape Django's
  `EmailValidator` accepts and the spellings DRF's `BooleanField` reads.
- **Rides** (`api/models.py`, `api/views.py` `RideViewSet`,
  `RideLocationViewSet`, `PaymentViewSet`, `api/serializers.py`):
  - the status enumerations;
  - the four lifecycle actions and the invariant they keep;
  - visibility of rides and payments;
  - ride creation and update through the serializer's writable fields;
  - location and payment rows with their decimal bounds;
  - orderings: newest ride first, locations by time.

  Module `Rides`. The clock is a parameter.

`CrossChecks` relates the parts:

- the three role-to-page mappings agree on known roles and differ on
  unknown ones;
- the dashboard's `activeRides` count is always zero over rides the back
  end serves.

`Common`, `Text` and `Ordering` hold the shared building blocks:

- `Option` and `Result`;
- an order-preserving filter;
- JavaScript `trim`, Python `strip` and `split`;
- an insertion sort by key.

## Model

| member | source | states |
|---|---|---|
| RouteGuard.HomeOf | frontend/src/middleware.ts:26-37 | a role has a home exactly when it is `admin`, `driver` or `user`; the homes are `/admin`, `/driver`, `/user/book`, each for exactly its role |
| RouteGuard.FirstMatch | frontend/src/middleware.ts:44-45 | the rule found is one whose prefix the path starts with; none is found exactly when no prefix matches |
| RouteGuard.AtMostOneRule | frontend/src/middleware.ts:5-9 | no path starts with two of the protected prefixes, so the order the rules are tried in does not matter |
| RouteGuard.CheckProtectedIsOneRule | frontend/src/middleware.ts:44-71 | the loop over protected routes decides as the single matching rule does, and lets the request through when none matches |
| RouteGuard.MiddlewareOnProtected | frontend/src/middleware.ts:21-71 | a path under a protected prefix is not public, and the guard's answer is that rule's answer |
| RouteGuard.UnmatchedProceeds | frontend/src/middleware.ts:73 | a path that is neither public nor under a protected prefix is let through |
| RouteGuard.PublicWithoutToken | frontend/src/middleware.ts:21-40 | `/login` and `/register` are let through when no token cookie is set |
| RouteGuard.PublicWithToken | frontend/src/middleware.ts:23-40 | with a token, a public page redirects `admin` to `/admin`, `driver` to `/driver`, `user` to `/user/book`, and lets any other or missing role through |
| RouteGuard.TrailingSlashIsNotPublic | frontend/src/middleware.ts:12-21 | the public check is an exact match: `/login/` is not public and is let through |
| RouteGuard.ProtectedWithoutToken | frontend/src/middleware.ts:48-51 | a protected path without a token redirects to `/login` |
| RouteGuard.ProtectedWithToken | frontend/src/middleware.ts:53-69 | with a token, a protected path proceeds exactly when the role is allowed there; a known role that is not allowed goes to its home, and a missing or unknown role goes to `/login` |
| RouteGuard.NoRedirectLoop | frontend/src/middleware.ts:14-74 | following any redirect of the guard once, with the same cookies, lands on a page the guard lets through |
| HomePage.HomeFor | frontend/src/app/page.tsx:17-23 | `/admin` exactly for `admin`, `/driver` exactly for `driver`, `/user/book` for every other role |
| HomePage.Redirect | frontend/src/app/page.tsx:11-26 | without both a token and a stored user the page goes to `/login`; a stored JSON `null` user makes the role lookup throw; otherwise it goes to the stored role's home |
| ApiClient.AttachToken | frontend/src/utils/api.ts:44-51 | with a stored token and a headers object, the request gets `Authorization: Bearer <token>` and nothing else changes; otherwise the request is unchanged |
| ApiClient.ParseBearer | frontend/src/utils/api.ts:48 | a credential read back from an `Authorization` header is a `b64token` (section 2.1 of RFC 6750) |
| ApiClient.BearerRoundTrip | frontend/src/utils/api.ts:48 | reading back the header the interceptor writes yields the token exactly when the token is a valid `b64token` |
| ApiClient.OnResponseError | frontend/src/utils/api.ts:58-67 | every error is passed on unchanged; a 401 removes both storage keys and navigates to `/login`; any other error leaves the browser state alone |
| ApiClient.OnResponseErrorIdempotent | frontend/src/utils/api.ts:61-65 | handling the same error twice is the same as handling it once |
| ApiClient.NoTokenAfterUnauthorized | frontend/src/utils/api.ts:44-65 | after a 401, no later request carries an `Authorization` header |
| ApiClient.DriversOf | frontend/src/utils/api.ts:183-191 | the driver list keeps exactly the entries with role `driver`, in their order, and counts them |
| ApiClient.CountRolesDisjoint | frontend/src/utils/api.ts:224-225 | the counts of two different roles in one list add up to at most its length |
| ApiClient.CountStatusesDisjoint | frontend/src/utils/api.ts:227-228 | the counts of two different statuses in one list add up to at most its length |
| ApiClient.CountRole | frontend/src/utils/api.ts:224-225 | the count is the number of entries with that role |
| ApiClient.CountStatus | frontend/src/utils/api.ts:227-228 | the count is the number of entries with that status |
| ApiClient.Stats | frontend/src/utils/api.ts:217-230 | the user total counts role `user` in the user list; the driver total is the length of the filtered driver list, which counts role `driver`; the active and completed totals count those statuses; active plus completed rides are at most the ride total, which is the list length; over one user list, users plus drivers are at most its length |
| Session.DerivedName | frontend/src/contexts/AuthContext.tsx:77 | the derived name has no surrounding whitespace and is a contiguous cut of `first + ' ' + last` that drops only JavaScript whitespace |
| Session.WithDisplayName | frontend/src/contexts/AuthContext.tsx:76-78 | only `name` changes; a truthy name is kept, and a missing or empty one is replaced by the derived name |
| Session.WithDisplayNameIdempotent | frontend/src/contexts/AuthContext.tsx:91-93 | filling in the display name twice is filling it in once |
| Session.DerivedNameOfParts | frontend/src/contexts/AuthContext.tsx:77 | for trimmed parts, the name is `first last`, or just the part that is non-empty, or empty |
| Session.Restore | frontend/src/contexts/AuthContext.tsx:68-83 | with both keys stored, adopt the stored token and the stored user, with a display name filled in; otherwise keep the session; loading ends either way and storage is untouched |
| Session.HomeAfterAuth | frontend/src/contexts/AuthContext.tsx:102-108 | `/admin` exactly for `admin`, `/driver` exactly for `driver`, `/user/book` otherwise |
| Session.Adopt | frontend/src/contexts/AuthContext.tsx:89-108 | a successful response leaves the loading flag as it was |
| Session.Fail | frontend/src/contexts/AuthContext.tsx:109-112 | a failure rethrows the error and leaves user, token and loading unchanged |
| Session.Login | frontend/src/contexts/AuthContext.tsx:85-113 | success adopts the response and throws nothing; failure is the shared failure path |
| Session.Register | frontend/src/contexts/AuthContext.tsx:115-151 | the same as login: success adopts the response, failure is the shared failure path |
| Session.Logout | frontend/src/contexts/AuthContext.tsx:153-159 | user, token and both storage keys are cleared and the browser goes to `/login` |
| Session.AuthSuccess | frontend/src/contexts/AuthContext.tsx:95-108 | after success, token and user come from the response and are set together; memory and storage agree; navigation is to the role's home; register behaves the same |
| Session.AuthFailure | frontend/src/contexts/AuthContext.tsx:109-112 | after failure the error is rethrown and the session in memory is kept; a non-401 changes nothing; a 401 leaves empty storage and `/login` |
| Session.LogoutIdempotent | frontend/src/contexts/AuthContext.tsx:153-159 | logging out twice is logging out once |
| Session.RestoreOnMount | frontend/src/contexts/AuthContext.tsx:68-83 | on mount, a session is restored only from both keys; it is consistent and persisted for a stored user object; a stored `null` user yields a token without a user |
| Session.ReloadKeepsSession | frontend/src/contexts/AuthContext.tsx:98-99 | a reload after login restores the same user and token, provided the access token is non-empty |
| Session.NoResidueFromRestore | frontend/src/contexts/AuthContext.tsx:62-83 | a restored session does not affect a later login or logout beyond `loading` |
| Session.Provide | frontend/src/contexts/AuthContext.tsx:161-169 | `isLoading` equals `loading`; user and token are exposed as held |
| Session.UseAuth | frontend/src/contexts/AuthContext.tsx:38-44 | outside a provider the hook fails with its message; inside one it returns the provider's value |
| Accounts.RoleName | backend/accounts/models.py:6-12 | every role name fits the 10-character column |
| Accounts.ParseRole | backend/accounts/models.py:6-12 | a string parses to a role only if it is that role's name |
| Accounts.RoleNameRoundTrip | backend/accounts/models.py:6-12 | every role name parses back to its role |
| Accounts.NewAccount | backend/accounts/models.py:12-20 | a new row has role `user`, is available and active, and has no phone and no usable password |
| Accounts.Describe | backend/accounts/models.py:30-31 | the string form is the username followed by ` (`, the role and `)` |
| Accounts.DescribeDistinguishes | backend/accounts/models.py:30-31 | two accounts with the same role and different usernames have different string forms |
| Accounts.FindByUsername | backend/accounts/views.py:21 | the row found has the username; none is found exactly when no row has it |
| Accounts.LookupPhone | backend/accounts/views.py:25-33 | the lookup finds no row exactly when no row has the phone, and a single row found has it |
| Accounts.PhoneLookupUnique | backend/accounts/models.py:13 | with unique phone numbers, a phone lookup never finds several rows |
| Accounts.PayloadOf | backend/accounts/views.py:40-48 | the payload carries the row's id, username, first and last name, email, role and phone number |
| Accounts.Identifier | backend/accounts/views.py:14 | the identifier is the username when it is truthy, otherwise the phone number |
| Accounts.AuthenticateUsername | backend/accounts/views.py:21 | a username match succeeds only for an active row with that username whose password matches |
| Accounts.Login | backend/accounts/views.py:13-51 | 400 exactly when the identifier or the password is missing or empty; a 200 carries the minted tokens and the payload of a row the credentials match |
| Accounts.LoginUsernameFirst | backend/accounts/views.py:14-21 | valid username credentials log that row in, and a phone sent with them changes nothing |
| Accounts.LoginByPhone | backend/accounts/views.py:23-33 | when the username check fails, the row holding that phone logs in with its password and is refused with 401 otherwise |
| Accounts.LoginRejects | backend/accounts/views.py:50-51 | when no row matches the identifier with that password, login answers 401 `Invalid credentials` |
| Accounts.NormalizeEmail | backend/accounts/views.py:79 | a missing email is empty; a value with no `@` once stripped is kept as sent; otherwise the result is the stripped value with the part after its last `@` lowercased |
| Accounts.NormalizeEmailIgnoresDomainCase | backend/accounts/views.py:79 | two addresses with the same local part and domains equal up to case normalise to the same email |
| Accounts.Created | backend/accounts/views.py:76-84 | the new row has the next key, the username, the password, the normalised email, the sent first and last name, the sent phone, the sent role or `user`, and is active and available |
| Accounts.Register | backend/accounts/views.py:56-99 | 400 for a missing username or password, then for a taken username, then for a taken truthy phone, each creating nothing; an empty phone another row already holds ends in a server error; a request passing the checks is answered 201, which appends exactly the created row and returns its payload and tokens |
| Accounts.RegisterPreservesValid | backend/accounts/views.py:68-84 | registration keeps keys, usernames and non-null phone numbers unique |
| Accounts.AppendFreshKeepsValid | backend/accounts/views.py:68-84 | appending a row under the next key, with a username and a phone number no row holds, keeps the registry valid |
| Accounts.RegisterTakesRoleAsSent | backend/accounts/views.py:63 | a caller who sends role `admin` is registered as an administrator |
| Accounts.RegisterThenLogin | backend/accounts/views.py:39-48 | after registering, a username login is answered 200 with the registration's seven-field payload and the tokens that login mints for the new row |
| Users.AdminIsDriverOrAdmin | backend/api/views.py:19-25 | the driver-or-admin permission admits exactly drivers and administrators, and every administrator |
| Users.VisibleAccounts | backend/api/views.py:32-36 | an administrator sees every account; anyone else sees exactly their own |
| Users.AvailableDrivers | backend/api/views.py:43-47 | the listing holds exactly the available drivers; the source sets no order, and the model keeps table order |
| Users.GetObject | backend/api/views.py:32-36 | a non-administrator can only reach their own row |
| Users.GetObjectFinds | backend/api/views.py:32-36 | with unique keys, an administrator reaches every row by its key and anyone else reaches their own row |
| Users.EmailOfParts | backend/api/serializers.py:10 | a dot-atom, `@` and a host name or `localhost`, within 320 characters, make a valid email address |
| Users.NoAtNoEmail | backend/api/serializers.py:10 | a value without `@` is never a valid email address |
| Users.ParseBool | backend/accounts/models.py:20 | a JSON boolean reads as itself; a string reads as true exactly when it is one of the true spellings and as false exactly when it is one of the false ones; the integers 1 and 0, and no others, read as true and false; `null` and JSON objects are refused |
| Users.ParseBoolSpellings | backend/accounts/models.py:20 | no spelling reads both ways; `True`/`False`, `1`/`0` and `1.0`/`0.0` read as their booleans |
| Users.Clean | backend/api/serializers.py:7-13 | an accepted value has its column's shape; a username must not be taken by another row; an email is accepted exactly when it is a string that, stripped, is within 254 characters, holds no NUL character and is empty or a valid address, and is stored stripped; a role must be a role name; availability is accepted exactly when it reads as a boolean, and is stored as that boolean, with `null` refused; a location is accepted as sent |
| Users.EmailNeedsAt | backend/api/serializers.py:10 | a non-blank email with no `@` is refused |
| Users.ColumnsDetermineRow | backend/api/serializers.py:7-13 | two rows with the same key, password, active flag and serializer columns are the same row |
| Users.Write | backend/api/serializers.py:7-13 | a value of the column's shape is what the column then holds; every other column, the key, the password and the active flag are unchanged |
| Users.SetField | backend/api/serializers.py:7-13 | succeeds exactly when the value is valid; then the column holds the cleaned value and no other column changes; a role written is a role name and the one that was sent |
| Users.ApplyFields | backend/api/serializers.py:24-28 | writing through car-detail fields changes nothing but those fields; a body naming no field leaves the row as it was |
| Users.ApplyFieldsWrites | backend/api/serializers.py:7-28 | a body passes exactly when every serializer field it carries is valid; then each of those columns holds its cleaned value and every other column is as before |
| Users.RoleAsSent | backend/api/serializers.py:10-13 | a body with a role, written through fields that include role, yields that role |
| Users.SerializerFields | backend/api/views.py:38-41 | a driver's generic update uses the car-details fields; everyone else's uses the user serializer's fields |
| Users.SerializerCreate | backend/api/serializers.py:16-22 | a password is set only when a truthy one is supplied; nothing else changes |
| Users.UpdateUser | backend/api/views.py:27-41 | 404 outside the requester's listing; a 200 rewrites only that row, keeps its key, password and active flag, changes only car fields when the requester is a driver, and clashes with no other row |
| Users.CreateDriver | backend/api/views.py:49-64 | non-administrators get 403; a 201 appends one row under the next key with role `driver` whatever role was sent, and with the password only when a truthy one was sent |
| Users.UpdateCarDetails | backend/api/views.py:66-82 | non-drivers get 403; a 200 is for the requester's own row and changes only its car fields |
| Users.UpdateUserWrites | backend/api/views.py:27-41 | after a 200, each field the body carries among the serializer's holds its cleaned value, and the row's other columns are as before |
| Users.UpdateUserRefuses | backend/api/views.py:27-41 | a body with an invalid serializer field is answered 400 |
| Users.CreateDriverWrites | backend/api/views.py:49-64 | the new driver row holds the cleaned value of every field the body carries, with role `driver`, and the column defaults elsewhere; a body with an invalid field is answered 400 |
| Users.UpdateCarDetailsWrites | backend/api/views.py:78-82 | after a 200, each car-details field the body carries holds its cleaned value, and the driver's other columns are as before |
| Users.UpdateCarDetailsRefuses | backend/api/views.py:78-82 | a driver's body with an invalid car-details field is answered 400 |
| Users.CarDetailsOfOthers | backend/api/views.py:69-76 | a driver naming another account gets 404 and never the ownership 403; a non-driver always gets 403 |
| Users.UpdateUserPreservesValid | backend/accounts/models.py:13 | a generic update keeps keys, usernames and phone numbers unique |
| Users.CreateDriverPreservesValid | backend/api/views.py:55-57 | creating a driver keeps keys, usernames and phone numbers unique |
| Users.UpdateCarDetailsPreservesValid | backend/api/views.py:78-80 | a car-details update keeps keys, usernames and phone numbers unique |
| Users.OnlyRoleWritten | backend/api/serializers.py:10-13 | a body with only a valid role changes only the role |
| Users.RiderCanPromoteSelf | backend/api/serializers.py:13 | because `role` is writable, a rider can update their own record to role `admin` |
| Rides.StatusName | backend/api/models.py:5-11 | every status name fits the 20-character column |
| Rides.ParseStatus | backend/api/models.py:5-11 | a string parses to a status only if it is that status's name |
| Rides.StatusNameRoundTrip | backend/api/models.py:5-11 | every status name parses back to its status |
| Rides.PaymentStatusName | backend/api/models.py:13-18 | every payment-status name fits its 20-character column |
| Rides.ParsePaymentStatus | backend/api/models.py:13-18 | a string parses to a payment status only if it is that status's name |
| Rides.PaymentStatusNameRoundTrip | backend/api/models.py:13-18 | every payment-status name parses back to its status |
| Rides.Apply | backend/api/views.py:106-160 | a refused action returns its own error text; a successful one moves to its target status and changes only the lifecycle columns; accept sets the requester as driver, start and complete stamp the time, cancel stores the reason or `''` |
| Rides.ApplySucceedsIff | backend/api/views.py:109-151 | an action succeeds exactly when the status graph has its move: requested to accepted to started to completed, and any non-final status to cancelled |
| Rides.TerminalRefusesAll | backend/api/views.py:109-155 | completed and cancelled rides refuse all four actions |
| Rides.ApplyPreservesLifecycle | backend/api/views.py:115-157 | every successful action keeps the lifecycle invariant |
| Rides.ApplyKeepsTimesOrdered | backend/api/views.py:130-144 | with a clock that does not run backwards, request time, start and completion stay in order |
| Rides.Run | backend/api/views.py:106-160 | any sequence of actions changes only the lifecycle columns |
| Rides.RunPreservesLifecycle | backend/api/views.py:115-144 | from a ride that keeps the invariant, every reachable accepted, started or completed ride has a driver, and every completed one has a start time |
| Rides.RunKeepsTimesOrdered | backend/api/views.py:130-144 | requests in time order keep the stamps in order |
| Rides.VisibleRides | backend/api/views.py:95-101 | administrators see every ride, drivers the rides they drive, anyone else the rides they requested, in table order |
| Rides.ListRides | backend/api/models.py:48-49 | the listing is the visible rides, each once, newest request first |
| Rides.GetRide | backend/api/views.py:95-101 | a ride is reachable only if the requester's listing holds it |
| Rides.GetRideFinds | backend/api/views.py:95-101 | in a well-formed table, every ride the requester's listing holds is reached by its key |
| Rides.ActOn | backend/api/views.py:106-160 | 404 exactly when there is no row; a 200 replaces only that row, with the action's result |
| Rides.RideAction | backend/api/views.py:106-160 | a ride outside the listing is 404 and changes nothing; otherwise the answer is 200 or 400 |
| Rides.GetRideToAccept | backend/api/views.py:107-118 | the corrected lookup also reaches open rides for drivers, and agrees with the listing wherever the listing finds a ride |
| Rides.RideActionIntended | backend/api/views.py:106-160 | the corrected actions differ from the written ones only for a driver's accept |
| Rides.DriverNeverAccepts | backend/api/views.py:99-118 | as written, no driver ever gets a 200 from accept: the answer is 400 or 404 |
| Rides.DriverAcceptsOpenRide | backend/api/views.py:107-118 | with the corrected lookup, a driver accepts any requested ride and becomes its driver |
| Rides.ActOnPreservesTable | backend/api/views.py:106-160 | lifecycle actions keep keys unique and every row within its invariant and bounds |
| Rides.RideActionPreservesTable | backend/api/views.py:106-160 | both the written and the corrected actions keep the table well formed |
| Rides.RiderCompletesOwnRide | backend/api/views.py:120-146 | no role check guards start and complete: a rider can start and then complete their own accepted ride |
| Rides.SetRideField | backend/api/serializers.py:40-51 | a field write succeeds exactly when the field's value is valid; it then stores the cleaned value in that column, leaves every other writable and read-only column, and keeps the column bounds |
| Rides.CleanRideField | backend/api/models.py:23-46 | the locations take any JSON but `null`; fare and distance take ten-digit decimals as hundredths; duration takes a whole number; rating a whole number or `null`; text columns take the stripped string, non-blank where the column is not `blank=True`, and the payment method at most 50 characters |
| Rides.WriteRide | backend/api/models.py:23-46 | storing a value puts exactly that value in the column and leaves every other column and the bounds as they were |
| Rides.WriteRideKeeps | backend/api/models.py:23-46 | storing into one column leaves every other writable column as it was |
| Rides.RideColumnsDetermineRow | backend/api/serializers.py:46-51 | the writable and the read-only columns together determine a ride, so the frame statements leave nothing unsaid |
| Rides.DecodeInteger | backend/api/models.py:39 | an integer column takes an integer or a float with a whole value, and that whole value; `null` is refused |
| Rides.DecodeJson | backend/api/models.py:23-24 | a JSON column takes any value but `null`, unchanged |
| Rides.ApplyRideFields | backend/api/serializers.py:49-51 | a body never changes a read-only column; a body naming no writable field leaves the ride as it was |
| Rides.ApplyRideFieldsWrites | backend/api/serializers.py:40-51 | a body passes exactly when every writable field it carries is valid; then each carried field holds its cleaned value and every other column is as before |
| Rides.NewRide | backend/api/models.py:21-33 | a new ride is requested, payment pending, with no driver and no stamps |
| Rides.CreateRide | backend/api/views.py:103-104 | a body missing a required field is refused; a 201 appends one ride under the next key whose user is the requester, with default statuses, no driver, the request time, and every bound kept |
| Rides.CreateRideWrites | backend/api/views.py:103-104 | a create is answered 201 exactly when the body carries every required field and every carried field is valid; the new ride holds each carried field's cleaned value and the default in every other writable column |
| Rides.UpdateRide | backend/api/serializers.py:40-51 | 404 outside the listing; a 200 replaces only that row, changes no read-only column, and keeps its bounds |
| Rides.UpdateRideWrites | backend/api/serializers.py:40-51 | an update of a reachable ride is answered 200 exactly when the body is partial or complete and every carried field is valid; the row then holds each carried field's cleaned value and keeps every other column |
| Rides.StatusPatchIgnored | backend/api/serializers.py:49-51 | a PATCH of only `status` succeeds and changes nothing |
| Rides.SameReadOnlyKeepsLifecycle | backend/api/serializers.py:49-51 | a write that keeps the read-only columns keeps the lifecycle invariant and the time order |
| Rides.CreateRidePreservesTable | backend/api/views.py:103-104 | creating a ride keeps the table well formed |
| Rides.UpdateRidePreservesTable | backend/api/serializers.py:49-51 | updating a ride keeps the table well formed |
| Rides.VisiblePayments | backend/api/views.py:175-181 | administrators see every payment, drivers the payments of rides they drive, anyone else those of rides they requested |
| Rides.PaymentsFollowRides | backend/api/views.py:175-181 | a payment is visible exactly when its ride is |
| Rides.DecodeMoney | backend/api/models.py:35-38 | an amount is accepted exactly when the ten-digit, two-place column represents it; the result is that amount in hundredths (an integer `n` gives `100·n`), and `null` is refused |
| Rides.MoneyRoundTrip | backend/api/models.py:35-38 | hundredths that fit the column, sent as a two-place decimal, decode to themselves |
| Rides.FloatFormsAccepted | backend/api/models.py:35-39 | a whole float such as `30.0` is a valid duration and `1.230` a valid fare of 1.23, while `1.235` is refused |
| Rides.DecodeCoordinate | backend/api/models.py:56-57 | a coordinate is accepted exactly when the nine-digit, six-place column represents it; the result is that coordinate in millionths of a degree |
| Rides.CoordinateRoundTrip | backend/api/models.py:56-57 | millionths that fit the column, sent as a six-place decimal, decode to themselves |
| Rides.CreateLocation | backend/api/models.py:54-58 | a location is created exactly when the body carries a valid ride key and two valid coordinates; it then holds that ride key, the coordinates sent (in millionths), the server's time and the new id |
| Rides.LocationRoundTrip | backend/api/models.py:54-58 | a created location, sent back with its own ride key and coordinates, creates the same row |
| Rides.CreatePayment | backend/api/models.py:66-72 | a created payment holds the decoded ride key, amount and texts of its body, within bounds, with the server's time and an existing ride |
| Rides.CreatePaymentAccepts | backend/api/models.py:66-72 | a body whose five fields all decode creates the payment holding exactly the decoded values |
| Rides.PaymentHoldsSent | backend/api/models.py:66-72 | a created payment holds the ride key sent, the amount sent in hundredths and the three texts sent, stripped |
| Rides.LocationsOf | backend/api/models.py:60-61 | exactly the ride's locations, earliest first |
| Rides.LocationRouteKwargs | backend/api/urls.py:8 | the top-level route never supplies `ride_pk` |
| Rides.LocationQueryAsWritten | backend/api/views.py:167-168 | the query fails exactly when `ride_pk` is absent, and otherwise yields that ride's locations |
| Rides.LocationQueryAlwaysFails | backend/api/views.py:167-168 | as routed, every list or detail request on locations fails |
| Rides.LocationQuery | backend/api/models.py:60-61 | the corrected query yields exactly that ride's locations, earliest first |
| Text.JsTrim | frontend/src/contexts/AuthContext.tsx:77 | the result has no JavaScript whitespace at either end and is a contiguous cut of the input that drops only whitespace |
| Text.PyStrip | backend/api/serializers.py:7-13 | the result has no Python whitespace at either end and is a contiguous cut of the input that drops only whitespace |
| Text.Split | backend/api/serializers.py:10 | splitting an address part at dots yields at least one piece, none containing a dot |
| Text.JoinSplit | backend/api/serializers.py:10 | joining the pieces of a split with the separator gives the string back |
| Text.SplitJoin | backend/api/serializers.py:10 | splitting separator-free pieces joined by the separator gives the pieces back |
| Ordering.SortBy | backend/api/models.py:48-49 | the result is sorted by the key, is a permutation of the input, and has its length |
| Users.CleanOptional | backend/accounts/models.py:16-18 | an optional car field takes `null`, kept as `null`, or a string whose stripped form fits the column and holds no NUL character, stored stripped |
| Accounts.CountPhoneAtMostOne | backend/accounts/models.py:13 | in a registry with unique phones, at most one row holds a given phone |
| Rides.DecodeText | backend/api/models.py:39-46 | a text is accepted exactly when it is a string whose stripped form is non-blank (unless blank is allowed), fits the column and holds no NUL character; the result is the stripped string |
| Rides.DecodeRideKey | backend/api/models.py:55 | a ride key is accepted exactly when it is a non-negative integer naming an existing ride, and the result is that key |
| Fields.ToFixed | backend/api/models.py:35-38 | an integer, or a float whose shortest form has no more places than the column, is accepted when it fits the digits, as the same value in the column's units; any other number is refused |
| Fields.FixedUnitsUnique | backend/api/models.py:35-38 | the count of units a decimal stands for is unique |
| Fields.ToInteger | backend/api/models.py:39 | an integer field takes an integer, or a float with a whole value, as that whole number |
| Fields.CleanText | backend/api/serializers.py:7-13 | `null` is accepted exactly where the column allows it; a string is stripped, non-blank unless blank is allowed, within the length bound and free of NUL characters; a non-blank string that fits and has no NUL is accepted, and one holding NUL is refused |
| CrossChecks.StoreAndPageAgree | frontend/src/app/page.tsx:17-23 | the session store and the root page send every role to the same page |
| CrossChecks.GuardAndStoreAgreeOnKnownRoles | frontend/src/middleware.ts:26-37 | the guard's home equals the store's exactly for known roles; for any other role the guard has none and the store picks `/user/book` |
| CrossChecks.LandingAfterLogin | frontend/src/middleware.ts:53-69 | assuming cookies that mirror the session, the guard lets through the page login lands on for a known role; an unknown role is bounced to `/login`, which then lets it stay |
| CrossChecks.LandingWithoutCookies | frontend/src/middleware.ts:48-51 | without the cookies, the page login lands on is turned back to `/login` for every role |
| CrossChecks.RowOf | frontend/src/utils/api.ts:226-228 | a served ride's status string parses back to its status |
| CrossChecks.NoActiveStatus | backend/api/models.py:5-11 | rows whose statuses are status names count zero `active` |
| CrossChecks.ActiveRidesAlwaysZero | frontend/src/utils/api.ts:227 | over rides the back end serves, the dashboard's active count is zero and its ride total is their number |

## Left out

- Logging and rendering: console logging, React rendering, toasts and the page components.
- The middleware matcher configuration (`middleware.ts:76-87`). The guard is modelled as if it ran on every path.
- Calls into other code:
  - Real HTTP, axios promises, `socket.ts` and the payment modal are not modelled.
  - Each request wrapper in `api.ts` besides the interceptors, the driver filters and the dashboard statistics only forwards an HTTP call.
- Session.Restore: a malformed stored user, on which `JSON.parse` throws, is not modelled. A stored user is either JSON `null` or a user object.
- Passwords and tokens: hashing and JWT minting are opaque. `authenticate` is modelled as the username backend: an active row, matching username and password.
- Accounts.RegisterThenLogin: `mint` is a function of the account id, standing for the pair one call mints. The source mints a fresh pair on every call, so no statement compares the tokens of two calls; the login in this lemma gets a `mint` of its own.
- Accounts.Created: stores the username as sent. Django's `create_user` NFKC-normalises it, so registering `ﬁ` when `fi` exists passes the view's check, then fails at the unique constraint with a server error; here it is answered 201. NormalizeEmail lowercases ASCII letters only.
- Accounts.Register: stores a missing or `null` `first_name` or `last_name` as absent. The view reads both with `request.data.get`, which gives `None` for a missing key, and the real columns are NOT NULL, so such a request ends in a server error there while the model answers 201. A `null` role is not modelled either.
- Users.Clean: refuses email addresses with a quoted local part, an address literal such as `[192.0.2.1]`, or an internationalised domain, all of which Django's validator accepts. Letters are ASCII only. Numbers are exact decimals, so a float that only rounds to 1.0 does not read as true.
- Fields.CleanText: rejects numbers sent for text fields, which the framework would convert to text. It also does not apply the username character validator.
- Rides.SetRideField: accepts only JSON numbers for decimal and integer fields, not numeric strings. It applies no range bounds to the integer columns.
- Fields.ToFixed: takes a JSON float as the exact decimal written in the body, with trailing zeros dropped as Python's shortest form drops them. Floats with more than 15 significant digits, which the parser may round (`1.0000000000000001` reads as `1.0`), and floats Python writes in exponent form (`1e+16`, `1e-05`) are not modelled.
- Rides.DecodeRideKey: accepts only a JSON integer. A numeric string such as `"3"`, which the related field would also resolve, is refused.
- Rides.Apply: takes the cancellation reason as a string or absent. A `null` or non-string reason is not modelled.
- Account extras: profile pictures, car images, the `me` endpoint and `/users/me/` are not modelled. The last two only serialize the requester.
- Deletion: `destroy` endpoints, cascades and `SET_NULL` on a deleted driver are not modelled. A driver deleted after accepting would leave an accepted ride without a driver, outside `Rides.LifecycleOk`.
- Other ride endpoints: updates and deletes of payments and locations are not modelled. Neither are payment visibility on detail routes or pagination.
- Anonymous requests: the requester is always an account. `login` and `register` allow anyone and take no requester. The other endpoints need an authenticated user, except `create_driver`. Its `IsAdmin` permission replaces `IsAuthenticated`, so for an anonymous caller it reads `role` from Django's anonymous user, which has none, and fails with a server error.
- CrossChecks.LandingAfterLogin: takes the `token` and `userRole` cookies as given. The guard reads them, but no modelled front-end file sets them; the session store keeps its token in local storage. Without them, every protected page redirects to `/login` (CrossChecks.LandingWithoutCookies).
- Rides.RideFits: the `rating` column has no bound in the source and none is stated.
- Error texts: framework validation messages are represented by fixed strings. The view messages are exact.

## Findings

| source | as written | input that shows it | evidently intended | confidence | as-written member | corrected member |
|---|---|---|---|---|---|---|
| backend/api/views.py:99-118 | a driver's ride lookup finds only rides already assigned to them, so `accept_ride` cannot reach a requested ride | a driver POSTs `accept_ride` for a ride in status `requested` with no driver; the lookup misses and the answer is 404 | a driver can accept an open ride and becomes its driver | high, not executed | Rides.DriverNeverAccepts | Rides.DriverAcceptsOpenRide |
| backend/api/views.py:167-168 | the location query reads `ride_pk` from the URL, but the route is registered at the top level (`urls.py:8`) and never supplies it | `GET /ride-locations/` or `GET /ride-locations/1/`; the lookup of `ride_pk` fails with a server error | the locations of the ride named by a nested route, earliest first | high, not executed | Rides.LocationQueryAlwaysFails | Rides.LocationQuery |

=== FILE: accounts.dfy ===
/** The account registry of the back end: the custom user model, and the
    login and registration endpoints. Password hashing is modelled by keeping
    the password itself (`Some(raw)` stands for the hash of `raw`, `None` for
    an unusable password); tokens come from a `mint` function that stands for
    the pair one call mints for an account id. */
module Accounts {
  import opened Common
  import opened Fields
  import Text

  datatype Role = UserRole | DriverRole | AdminRole

  function RoleName(r: Role): (name: string)
    ensures |name| <= RoleMaxLength
  {
    match r
    case UserRole => "user"
    case DriverRole => "driver"
    case AdminRole => "admin"
  }

  function ParseRole(s: string): (r: Option<Role>)
    ensures r.Some? ==> RoleName(r.value) == s
  {
    if s == "user" then Some(UserRole)
    else if s == "driver" then Some(DriverRole)
    else if s == "admin" then Some(AdminRole)
    else None
  }

  /** The role choices are read back exactly: a role name parses to its role. */
  lemma RoleNameRoundTrip(r: Role)
    ensures ParseRole(RoleName(r)) == Some(r)
  {
  }

  const DefaultRole: string := "user"

  // Column bounds of the user model.
  const RoleMaxLength: nat := 10
  const PhoneMaxLength: nat := 15
  const CarTypeMaxLength: nat := 50
  const CarColorMaxLength: nat := 50
  const LicensePlateMaxLength: nat := 20
  // Inherited from the framework's abstract user.
  const UsernameMaxLength: nat := 150
  const NameMaxLength: nat := 150
  const EmailMaxLength: nat := 254

  /** A row of the user table. Role and phone are kept as raw strings: the
      registration endpoint stores whatever role it is sent. */
  datatype Account = Account(
    id: nat,
    username: string,
    password: Option<string>,
    email: string,
    firstName: Option<string>,
    lastName: Option<string>,
    role: string,
    phoneNumber: Option<string>,
    carType: Option<string>,
    carColor: Option<string>,
    licensePlate: Option<string>,
    isAvailable: bool,
    currentLocation: Value,
    address: Option<string>,
    isActive: bool)

  /** A new row with every column at its default: role `user`, available,
      active, no phone, no car, no usable password. */
  function NewAccount(id: nat, username: string): (a: Account)
    ensures a.role == DefaultRole && a.isAvailable && a.isActive
    ensures a.phoneNumber.None? && a.password.None?
  {
    Account(id, username, None, "", Some(""), Some(""), DefaultRole, None,
      None, None, None, true, Null, None, true)
  }

  /** The string form `"<username> (<role>)"`. */
  function Describe(a: Account): (s: string)
    ensures a.username <= s
    ensures |s| == |a.username| + |a.role| + 3
    ensures s[|a.username|..] == " (" + a.role + ")"
  {
    a.username + " (" + a.role + ")"
  }

  /** Two accounts with the same role and different usernames print differently. */
  lemma DescribeDistinguishes(a: Account, b: Account)
    requires a.role == b.role && a.username != b.username
    ensures Describe(a) != Describe(b)
  {
    var tail := " (" + a.role + ")";
    assert Describe(a) == a.username + tail;
    assert Describe(b) == b.username + tail;
  }

  /** `check_password`: only a usable password equal to the one given matches. */
  predicate PasswordMatches(a: Account, raw: string) {
    a.password == Some(raw)
  }

  /** The user table, and the next primary key the database will hand out. */
  datatype Registry = Registry(accounts: seq<Account>, nextId: nat)

  /** Keys are below `nextId` and unique; usernames are unique; a phone
      number, when present, is unique (any number of rows may have none). */
  predicate Valid(reg: Registry) {
    && (forall i :: 0 <= i < |reg.accounts| ==> reg.accounts[i].id < reg.nextId)
    && (forall i, j :: 0 <= i < j < |reg.accounts| ==>
          && reg.accounts[i].id != reg.accounts[j].id
          && reg.accounts[i].username != reg.accounts[j].username
          && (reg.accounts[i].phoneNumber.Some? ==> reg.accounts[i].phoneNumber != reg.accounts[j].phoneNumber))
  }

  predicate UsernameTaken(reg: Registry, username: string) {
    exists i :: 0 <= i < |reg.accounts| && reg.accounts[i].username == username
  }

  predicate PhoneTaken(reg: Registry, phone: string) {
    exists i :: 0 <= i < |reg.accounts| && reg.accounts[i].phoneNumber == Some(phone)
  }

  /** Look a user up by username (`get_by_natural_key`). */
  function FindByUsername(accounts: seq<Account>, username: string): (r: Option<nat>)
    ensures r.Some? ==> r.value < |accounts| && accounts[r.value].username == username
    ensures r.None? <==> forall i :: 0 <= i < |accounts| ==> accounts[i].username != username
  {
    if accounts == [] then None
    else if accounts[0].username == username then Some(0)
    else match FindByUsername(accounts[1..], username)
      case None => None
      case Some(k) => Some(k + 1)
  }

  /** `User.objects.get(phone_number=...)`: no row, exactly one row, or more than one. */
  datatype Lookup = NoMatch | One(index: nat) | Many

  function CountPhone(accounts: seq<Account>, phone: string): (n: nat)
    ensures n <= |accounts|
    ensures n == 0 <==> forall i :: 0 <= i < |accounts| ==> accounts[i].phoneNumber != Some(phone)
  {
    if accounts == [] then 0
    else (if accounts[0].phoneNumber == Some(phone) then 1 else 0) + CountPhone(accounts[1..], phone)
  }

  function FirstWithPhone(accounts: seq<Account>, phone: string): (r: nat)
    requires exists i :: 0 <= i < |accounts| && accounts[i].phoneNumber == Some(phone)
    ensures r < |accounts| && accounts[r].phoneNumber == Some(phone)
  {
    if accounts[0].phoneNumber == Some(phone) then 0
    else
      var i :| 0 <= i < |accounts| && accounts[i].phoneNumber == Some(phone);
      assert accounts[1..][i - 1] == accounts[i];
      1 + FirstWithPhone(accounts[1..], phone)
  }

  function LookupPhone(accounts: seq<Account>, phone: string): (r: Lookup)
    ensures r == NoMatch <==> forall i :: 0 <= i < |accounts| ==> accounts[i].phoneNumber != Some(phone)
    ensures r.One? ==> r.index < |accounts| && accounts[r.index].phoneNumber == Some(phone)
  {
    var n := CountPhone(accounts, phone);
    if n == 0 then NoMatch
    else if n == 1 then One(FirstWithPhone(accounts, phone))
    else Many
  }

  /** At most one row carries a given phone number in a valid registry. */
  lemma {:induction false} CountPhoneAtMostOne(accounts: seq<Account>, phone: string)
    requires forall i, j :: 0 <= i < j < |accounts| ==>
      (accounts[i].phoneNumber.Some? ==> accounts[i].phoneNumber != accounts[j].phoneNumber)
    ensures CountPhone(accounts, phone) <= 1
  {
    if accounts != [] {
      CountPhoneAtMostOne(accounts[1..], phone);
      if accounts[0].phoneNumber == Some(phone) {
        forall i | 0 <= i < |accounts[1..]|
          ensures accounts[1..][i].phoneNumber != Some(phone)
        {
          assert accounts[1..][i] == accounts[i + 1];
        }
      }
    }
  }

  /** Phone uniqueness means the phone lookup never finds two rows. */
  lemma PhoneLookupUnique(reg: Registry, phone: string)
    requires Valid(reg)
    ensures LookupPhone(reg.accounts, phone) != Many
  {
    CountPhoneAtMostOne(reg.accounts, phone);
  }

  /** The seven user fields both endpoints return. */
  datatype Payload = Payload(
    id: nat, username: string, firstName: Option<string>, lastName: Option<string>,
    email: string, role: string, phoneNumber: Option<string>)

  function PayloadOf(a: Account): (p: Payload)
    ensures p.id == a.id && p.username == a.username && p.role == a.role && p.phoneNumber == a.phoneNumber
    ensures p.firstName == a.firstName && p.lastName == a.lastName && p.email == a.email
  {
    Payload(a.id, a.username, a.firstName, a.lastName, a.email, a.role, a.phoneNumber)
  }

  datatype TokenPair = TokenPair(access: string, refresh: string)

  /** An endpoint's answer: tokens and a user, or an error message, with a status code. */
  datatype Reply = Issued(code: int, tokens: TokenPair, user: Payload) | Refused(code: int, error: string)

  // ---------------------------------------------------------------------------
  // Login
  // ---------------------------------------------------------------------------

  /** The login body; `None` for a missing key or a JSON `null`. */
  datatype LoginRequest = LoginRequest(username: Option<string>, phoneNumber: Option<string>, password: Option<string>)

  /** `username or phone_number`: the username when it is truthy, else the
      phone number, whatever it is. */
  function Identifier(req: LoginRequest): (r: Option<string>)
    ensures Truthy(req.username) ==> r == req.username
    ensures !Truthy(req.username) ==> r == req.phoneNumber
  {
    if Truthy(req.username) then req.username else req.phoneNumber
  }

  /** The framework's username authentication: an active account with this
      username and this password. */
  function AuthenticateUsername(reg: Registry, username: string, password: string): (r: Option<nat>)
    ensures r.Some? ==>
      && r.value < |reg.accounts| && reg.accounts[r.value].username == username
      && reg.accounts[r.value].isActive && PasswordMatches(reg.accounts[r.value], password)
  {
    match FindByUsername(reg.accounts, username)
    case None => None
    case Some(k) =>
      if reg.accounts[k].isActive && PasswordMatches(reg.accounts[k], password) then Some(k) else None
  }

  const RequiredCredentials: string := "Username/phone number and password are required"
  const InvalidCredentials: string := "Invalid credentials"
  const ServerError: string := "Internal server error"

  /** The reply carries the payload of, and the tokens minted for, an account
      of the registry that the credentials match: its username is the
      identifier and it is active, or its phone number is the identifier; and
      the password is its password. */
  predicate IssuedFor(reg: Registry, req: LoginRequest, r: Reply, mint: nat -> TokenPair)
    requires r.Issued?
  {
    exists i :: 0 <= i < |reg.accounts| && r.user == PayloadOf(reg.accounts[i]) && r.tokens == mint(reg.accounts[i].id)
      && Matches(reg.accounts[i], req)
  }

  /** The login credentials belong to `a`. */
  predicate Matches(a: Account, req: LoginRequest) {
    && Identifier(req).Some? && req.password.Some?
    && ((a.username == Identifier(req).value && a.isActive) || a.phoneNumber == Identifier(req))
    && PasswordMatches(a, req.password.value)
  }

  function Login(reg: Registry, req: LoginRequest, mint: nat -> TokenPair): (r: Reply)
    ensures !Truthy(Identifier(req)) || !Truthy(req.password) <==> r == Refused(400, RequiredCredentials)
    ensures r.Issued? ==> r.code == 200 && IssuedFor(reg, req, r, mint)
  {
    var ident := Identifier(req);
    if !Truthy(ident) || !Truthy(req.password) then Refused(400, RequiredCredentials)
    else
      var pw := req.password.value;
      match AuthenticateUsername(reg, ident.value, pw)
      case Some(k) => Issued(200, mint(reg.accounts[k].id), PayloadOf(reg.accounts[k]))
      case None =>
        match LookupPhone(reg.accounts, ident.value)
        case NoMatch => Refused(401, InvalidCredentials)
        case Many => Refused(500, ServerError)
        case One(k) =>
          if PasswordMatches(reg.accounts[k], pw) then Issued(200, mint(reg.accounts[k].id), PayloadOf(reg.accounts[k]))
          else Refused(401, InvalidCredentials)
  }

  /** Username authentication comes first: an active account whose username is
      the identifier and whose password matches is the one signed in, even if
      another account has that identifier as its phone number. A phone number
      sent alongside a username is ignored. */
  lemma LoginUsernameFirst(reg: Registry, req: LoginRequest, mint: nat -> TokenPair, k: nat)
    requires Truthy(req.username) && Truthy(req.password)
    requires k < |reg.accounts| && reg.accounts[k].username == req.username.value
    requires reg.accounts[k].isActive && PasswordMatches(reg.accounts[k], req.password.value)
    requires Valid(reg)
    ensures Login(reg, req, mint) == Issued(200, mint(reg.accounts[k].id), PayloadOf(reg.accounts[k]))
    ensures Login(reg, req, mint) == Login(reg, req.(phoneNumber := None), mint)
  {
    var j := FindByUsername(reg.accounts, req.username.value).value;
    assert j == k;
  }

  /** Otherwise the identifier is tried as a phone number, with the password
      checked directly; that path does not look at whether the account is active. */
  lemma LoginByPhone(reg: Registry, req: LoginRequest, mint: nat -> TokenPair, k: nat)
    requires Valid(reg)
    requires Truthy(Identifier(req)) && Truthy(req.password)
    requires AuthenticateUsername(reg, Identifier(req).value, req.password.value).None?
    requires k < |reg.accounts| && reg.accounts[k].phoneNumber == Identifier(req)
    ensures PasswordMatches(reg.accounts[k], req.password.value) ==>
      Login(reg, req, mint) == Issued(200, mint(reg.accounts[k].id), PayloadOf(reg.accounts[k]))
    ensures !PasswordMatches(reg.accounts[k], req.password.value) ==>
      Login(reg, req, mint) == Refused(401, InvalidCredentials)
  {
    PhoneLookupUnique(reg, Identifier(req).value);
    var l := LookupPhone(reg.accounts, Identifier(req).value);
    assert l.One?;
    assert l.index == k;
  }

  /** An identifier that is neither a matching username nor any account's
      phone number, or a wrong password on both paths, is answered 401. */
  lemma LoginRejects(reg: Registry, req: LoginRequest, mint: nat -> TokenPair)
    requires Valid(reg)
    requires Truthy(Identifier(req)) && Truthy(req.password)
    requires forall i :: 0 <= i < |reg.accounts| ==>
      !(reg.accounts[i].username == Identifier(req).value && reg.accounts[i].isActive && PasswordMatches(reg.accounts[i], req.password.value))
      && !(reg.accounts[i].phoneNumber == Identifier(req) && PasswordMatches(reg.accounts[i], req.password.value))
    ensures Login(reg, req, mint) == Refused(401, InvalidCredentials)
  {
    PhoneLookupUnique(reg, Identifier(req).value);
  }

  // ---------------------------------------------------------------------------
  // Registration
  // ---------------------------------------------------------------------------

  /** The registration body; `None` for a missing key (for `role`: a missing
      key, which selects the default). */
  datatype RegisterRequest = RegisterRequest(
    username: Option<string>, password: Option<string>, email: Option<string>,
    firstName: Option<string>, lastName: Option<string>, phoneNumber: Option<string>,
    role: Option<string>)

  datatype Registered = Registered(registry: Registry, reply: Reply)

  const RequiredUsernamePassword: string := "Username and password are required"
  const UsernameExists: string := "Username already exists"
  const PhoneExists: string := "Phone number already exists"

  // ---------------------------------------------------------------------------
  // Email normalisation
  // ---------------------------------------------------------------------------

  /** ASCII upper-case letters become lower case; every other character is kept. */
  function LowerChar(c: char): char {
    if 'A' <= c <= 'Z' then (c as int + 32) as char else c
  }

  predicate NoUpper(s: string) {
    forall i :: 0 <= i < |s| ==> !('A' <= s[i] <= 'Z')
  }

  /** `s.lower()`, on ASCII letters. */
  function Lower(s: string): (r: string)
    ensures |r| == |s|
    ensures forall i :: 0 <= i < |s| ==> r[i] == LowerChar(s[i])
    ensures NoUpper(r)
    decreases |s|
  {
    if s == [] then [] else [LowerChar(s[0])] + Lower(s[1..])
  }

  /** The position of the last `c` in `s`. */
  function LastIndexOf(s: string, c: char): (r: Option<nat>)
    ensures r.Some? ==> r.value < |s| && s[r.value] == c && c !in s[r.value + 1..]
    ensures r.None? <==> c !in s
    decreases |s|
  {
    if s == [] then None
    else if s[|s| - 1] == c then Some(|s| - 1)
    else
      var r := LastIndexOf(s[..|s| - 1], c);
      assert s == s[..|s| - 1] + [s[|s| - 1]];
      if r.Some? then
        assert s[r.value + 1..] == s[..|s| - 1][r.value + 1..] + [s[|s| - 1]];
        r
      else r
  }

  /** `t` splits at its last `@` at position `k`. */
  predicate AtLastAt(t: string, k: nat) {
    k < |t| && t[k] == '@' && '@' !in t[k + 1..]
  }

  /** `t` with the part after position `k` lower-cased. */
  function LowerAfter(t: string, k: nat): (r: string)
    requires k < |t|
    ensures |r| == |t|
    ensures forall i :: 0 <= i <= k ==> r[i] == t[i]
    ensures forall i :: k < i < |t| ==> r[i] == LowerChar(t[i])
  {
    var d := Lower(t[k + 1..]);
    assert forall i :: k < i < |t| ==> d[i - k - 1] == LowerChar(t[i]);
    t[..k + 1] + d
  }

  /** `normalize_email`: a missing address is the empty string; an address
      whose stripped form has an `@` is split at the last one, the part before
      it kept and the domain lower-cased; any other address is kept as given. */
  function NormalizeEmail(e: Option<string>): (r: string)
    ensures '@' !in Text.PyStrip(OrEmpty(e)) ==> r == OrEmpty(e)
    ensures '@' in Text.PyStrip(OrEmpty(e)) ==>
      exists k :: AtLastAt(Text.PyStrip(OrEmpty(e)), k) && r == LowerAfter(Text.PyStrip(OrEmpty(e)), k)
  {
    SplitDomain(OrEmpty(e), Text.PyStrip(OrEmpty(e)))
  }

  /** The address `raw`, whose stripped form is `t`, with the domain of `t`
      lower-cased when `t` has an `@`. */
  function SplitDomain(raw: string, t: string): (r: string)
    ensures '@' !in t ==> r == raw
    ensures '@' in t ==> exists k :: AtLastAt(t, k) && r == LowerAfter(t, k)
  {
    var l := LastIndexOf(t, '@');
    if l.None? then raw
    else
      assert AtLastAt(t, l.value);
      LowerAfter(t, l.value)
  }

  /** A string has one last `@`. */
  lemma LastAtUnique(t: string, j: nat, k: nat)
    requires AtLastAt(t, j) && AtLastAt(t, k)
    ensures j == k
  {
  }

  lemma SplitAt(raw: string, t: string, k: nat)
    requires AtLastAt(t, k)
    ensures SplitDomain(raw, t) == LowerAfter(t, k)
  {
    var l := LastIndexOf(t, '@');
    assert t[k] == '@';
    LastAtUnique(t, l.value, k);
  }

  /** Two addresses that agree up to their last `@` and whose domains differ
      only in letter case are stored alike. */
  lemma NormalizeEmailIgnoresDomainCase(a: string, b: string, k: nat)
    requires AtLastAt(Text.PyStrip(a), k) && AtLastAt(Text.PyStrip(b), k)
    requires Text.PyStrip(a)[..k + 1] == Text.PyStrip(b)[..k + 1]
    requires Lower(Text.PyStrip(a)[k + 1..]) == Lower(Text.PyStrip(b)[k + 1..])
    ensures NormalizeEmail(Some(a)) == NormalizeEmail(Some(b))
  {
    var ta := Text.PyStrip(a);
    var tb := Text.PyStrip(b);
    assert OrEmpty(Some(a)) == a && OrEmpty(Some(b)) == b;
    SplitAt(a, ta, k);
    SplitAt(b, tb, k);
    var ra := LowerAfter(ta, k);
    var rb := LowerAfter(tb, k);
    forall i | 0 <= i < |ra|
      ensures ra[i] == rb[i]
    {
      if i <= k {
        assert ta[..k + 1][i] == tb[..k + 1][i];
      } else {
        assert Lower(ta[k + 1..])[i - k - 1] == Lower(tb[k + 1..])[i - k - 1];
      }
    }
  }

  /** The row `create_user` inserts for a request that passed the checks. */
  function Created(reg: Registry, req: RegisterRequest): (a: Account)
    requires Truthy(req.username) && Truthy(req.password)
    ensures a.id == reg.nextId && a.username == req.username.value && PasswordMatches(a, req.password.value)
    ensures a.role == req.role.GetOr(DefaultRole) && a.phoneNumber == req.phoneNumber
    ensures a.email == NormalizeEmail(req.email)
    ensures a.firstName == req.firstName && a.lastName == req.lastName
    ensures a.isActive && a.isAvailable
  {
    Account(reg.nextId, req.username.value, req.password, NormalizeEmail(req.email),
      req.firstName, req.lastName, req.role.GetOr(DefaultRole), req.phoneNumber,
      None, None, None, true, Null, None, true)
  }

  function Register(reg: Registry, req: RegisterRequest, mint: nat -> TokenPair): (r: Registered)
    ensures !Truthy(req.username) || !Truthy(req.password) ==> r == Registered(reg, Refused(400, RequiredUsernamePassword))
    ensures Truthy(req.username) && Truthy(req.password) && UsernameTaken(reg, req.username.value) ==>
      r == Registered(reg, Refused(400, UsernameExists))
    ensures (Truthy(req.username) && Truthy(req.password) && !UsernameTaken(reg, req.username.value)
      && Truthy(req.phoneNumber) && PhoneTaken(reg, req.phoneNumber.value)) ==>
      r == Registered(reg, Refused(400, PhoneExists))
    ensures (Truthy(req.username) && Truthy(req.password) && !UsernameTaken(reg, req.username.value)
      && req.phoneNumber == Some("") && PhoneTaken(reg, "")) ==>
      r == Registered(reg, Refused(500, ServerError))
    ensures (Truthy(req.username) && Truthy(req.password) && !UsernameTaken(reg, req.username.value)
      && (req.phoneNumber.None? || !PhoneTaken(reg, req.phoneNumber.value))) ==>
      r.reply.Issued?
    ensures r.reply.Refused? ==> r.registry == reg
    ensures r.reply.Issued? ==>
      && r.reply.code == 201
      && var a := Created(reg, req);
         r.registry == Registry(reg.accounts + [a], reg.nextId + 1)
         && r.reply.user == PayloadOf(a) && r.reply.tokens == mint(a.id)
  {
    if !Truthy(req.username) || !Truthy(req.password) then Registered(reg, Refused(400, RequiredUsernamePassword))
    else if UsernameTaken(reg, req.username.value) then Registered(reg, Refused(400, UsernameExists))
    else if Truthy(req.phoneNumber) && PhoneTaken(reg, req.phoneNumber.value) then Registered(reg, Refused(400, PhoneExists))
    else if req.phoneNumber.Some? && PhoneTaken(reg, req.phoneNumber.value) then
      // an empty phone number skips the view's check and hits the unique constraint
      Registered(reg, Refused(500, ServerError))
    else
      var a := Created(reg, req);
      Registered(Registry(reg.accounts + [a], reg.nextId + 1), Issued(201, mint(a.id), PayloadOf(a)))
  }

  /** Registration keeps the registry valid, whatever it answers. */
  lemma RegisterPreservesValid(reg: Registry, req: RegisterRequest, mint: nat -> TokenPair)
    requires Valid(reg)
    ensures Valid(Register(reg, req, mint).registry)
  {
    var r := Register(reg, req, mint);
    if r.reply.Issued? {
      var a := Created(reg, req);
      assert !UsernameTaken(reg, a.username);
      assert a.phoneNumber.None? || !PhoneTaken(reg, a.phoneNumber.value);
      AppendFreshKeepsValid(reg, a);
    }
  }

  /** Appending a row with the next key, a username no row has and a phone
      number no row has keeps the registry valid. */
  lemma AppendFreshKeepsValid(reg: Registry, a: Account)
    requires Valid(reg) && a.id == reg.nextId && !UsernameTaken(reg, a.username)
    requires a.phoneNumber.None? || !PhoneTaken(reg, a.phoneNumber.value)
    ensures Valid(Registry(reg.accounts + [a], reg.nextId + 1))
  {
    var accs := reg.accounts + [a];
    forall i, j | 0 <= i < j < |accs|
      ensures accs[i].id != accs[j].id && accs[i].username != accs[j].username
      ensures accs[i].phoneNumber.Some? ==> accs[i].phoneNumber != accs[j].phoneNumber
    {
      if j == |reg.accounts| {
        assert accs[i] == reg.accounts[i];
      }
    }
  }

  /** The role is stored as sent, so any caller can register as an administrator. */
  lemma RegisterTakesRoleAsSent(reg: Registry, req: RegisterRequest, mint: nat -> TokenPair)
    requires Truthy(req.username) && Truthy(req.password) && req.phoneNumber.None?
    requires !UsernameTaken(reg, req.username.value)
    requires req.role == Some("admin")
    ensures Register(reg, req, mint).reply.Issued?
    ensures Register(reg, req, mint).reply.user.role == "admin"
  {
  }

  /** Login and registration describe a user with the same seven fields: a
      user who has just registered and then logs in by username gets the same
      payload back. Each call mints its own pair, so the login is given a
      `mint` of its own and its tokens are those minted for the new row. */
  lemma RegisterThenLogin(reg: Registry, req: RegisterRequest, mint: nat -> TokenPair, mintAgain: nat -> TokenPair)
    requires Valid(reg)
    requires Register(reg, req, mint).reply.Issued?
    ensures var r := Register(reg, req, mint);
      var l := Login(r.registry, LoginRequest(req.username, None, req.password), mintAgain);
      && l.Issued? && l.code == 200 && l.user == r.reply.user
      && l.tokens == mintAgain(r.reply.user.id)
  {
    RegisterPreservesValid(reg, req, mint);
    var r := Register(reg, req, mint);
    var k := |reg.accounts|;
    LoginUsernameFirst(r.registry, LoginRequest(req.username, None, req.password), mintAgain, k);
  }
}

=== FILE: api_client.dfy ===
/** The HTTP client of the front end: the request interceptor that attaches
    the stored token, the response interceptor that turns a 401 into a forced
    sign-out, and the list helpers behind the admin dashboard. */
module ApiClient {
  import opened Common
  import opened Client
  import Text

  // ---------------------------------------------------------------------------
  // Request interceptor
  // ---------------------------------------------------------------------------

  const AuthorizationHeader: string := "Authorization"

  /** An outgoing request as the interceptor sees it: `config.headers` may be
      missing. */
  datatype Request = Request(verb: string, url: string, headers: Option<map<string, string>>)

  /** The Authorization request-header value the client writes: the scheme
      `Bearer`, one space, then the token. */
  function BearerCredentials(token: string): string {
    "Bearer " + token
  }

  /** Attach `Authorization: Bearer <token>` when a non-empty token is stored and
      the request has a header map; otherwise leave the request alone. */
  function AttachToken(storage: Storage, req: Request): (r: Request)
    ensures r.verb == req.verb && r.url == req.url
    ensures Truthy(storage.token) && req.headers.Some? ==>
      && r.headers.Some?
      && r.headers.value.Keys == req.headers.value.Keys + {AuthorizationHeader}
      && r.headers.value[AuthorizationHeader] == BearerCredentials(storage.token.value)
      && (forall k :: k in req.headers.value && k != AuthorizationHeader ==> r.headers.value[k] == req.headers.value[k])
    ensures !(Truthy(storage.token) && req.headers.Some?) ==> r == req
  {
    if Truthy(storage.token) && req.headers.Some? then
      req.(headers := Some(req.headers.value[AuthorizationHeader := BearerCredentials(storage.token.value)]))
    else req
  }

  /** A character of the `b64token` rule of section 2.1 of RFC 6750:
      ALPHA / DIGIT / "-" / "." / "_" / "~" / "+" / "/". */
  predicate IsB64Char(c: char) {
    ('A' <= c <= 'Z') || ('a' <= c <= 'z') || ('0' <= c <= '9')
    || c == '-' || c == '.' || c == '_' || c == '~' || c == '+' || c == '/'
  }

  /** Length of the longest prefix of `t` made of `b64token` characters. */
  function B64Run(t: string): (n: nat)
    ensures n <= |t|
    ensures forall i :: 0 <= i < n ==> IsB64Char(t[i])
    ensures n < |t| ==> !IsB64Char(t[n])
  {
    if t != [] && IsB64Char(t[0]) then 1 + B64Run(t[1..]) else 0
  }

  /** `b64token = 1*( ALPHA / DIGIT / "-" / "." / "_" / "~" / "+" / "/" ) *"="`. */
  predicate IsB64Token(t: string) {
    B64Run(t) >= 1 && forall i :: B64Run(t) <= i < |t| ==> t[i] == '='
  }

  predicate IsSp(c: char) { c == ' ' }

  /** A reader for the header form `credentials = "Bearer" 1*SP b64token` of
      section 2.1 of RFC 6750 (scheme spelled as the client spells it). */
  function ParseBearer(h: string): (r: Option<string>)
    ensures r.Some? ==> IsB64Token(r.value)
  {
    if |h| > 6 && h[..6] == "Bearer" && h[6] == ' ' then
      var t := Text.TrimStart(h[6..], IsSp);
      if IsB64Token(t) then Some(t) else None
    else None
  }

  /** The header the client writes is a well-formed bearer credential carrying
      exactly the stored token if and only if the token is a `b64token`; a
      token with, say, a space in it yields a header no conforming server reads
      back as that token. */
  lemma BearerRoundTrip(token: string)
    ensures ParseBearer(BearerCredentials(token)) == Some(token) <==> IsB64Token(token)
  {
    var h := BearerCredentials(token);
    assert h[..6] == "Bearer" && h[6] == ' ';
    assert h[6..] == [' '] + token;
    var t := Text.TrimStart(h[6..], IsSp);
    if IsB64Token(token) {
      assert !IsSp(token[0]);
      assert Text.TrimStart(h[6..], IsSp) == Text.TrimStart(token, IsSp);
      assert Text.TrimStart(token, IsSp) == token;
    }
  }

  // ---------------------------------------------------------------------------
  // Response interceptor
  // ---------------------------------------------------------------------------

  /** A failed request: `error.response?.status`, `None` when no response came. */
  datatype HttpError = HttpError(status: Option<int>)

  /** The interceptor always rejects; this is the error passed on and the
      browser state it leaves behind. */
  datatype Rejection = Rejection(browser: Browser, error: HttpError)

  const Unauthorized: int := 401

  /** On a 401 both storage keys are removed and the page is sent to the
      login page; every error, 401 or not, is rejected to the caller as it came. */
  function OnResponseError(b: Browser, e: HttpError): (r: Rejection)
    ensures r.error == e
    ensures e.status == Some(Unauthorized) ==>
      r.browser.storage.token.None? && r.browser.storage.user.None? && r.browser.navigation == Some("/login")
    ensures e.status != Some(Unauthorized) ==> r.browser == b
  {
    if e.status == Some(Unauthorized) then Rejection(Browser(EmptyStorage, Some("/login")), e)
    else Rejection(b, e)
  }

  /** Concurrent 401s each run the handler; running it twice is running it once. */
  lemma OnResponseErrorIdempotent(b: Browser, e: HttpError)
    ensures OnResponseError(OnResponseError(b, e).browser, e) == OnResponseError(b, e)
  {
  }

  /** After a 401 the next request goes out without credentials. */
  lemma NoTokenAfterUnauthorized(b: Browser, req: Request)
    ensures AttachToken(OnResponseError(b, HttpError(Some(Unauthorized))).browser.storage, req) == req
  {
  }

  // ---------------------------------------------------------------------------
  // Admin list helpers
  // ---------------------------------------------------------------------------

  /** Entries of the `/users/` and `/rides/` listings, as far as the helpers read them. */
  datatype UserRow = UserRow(id: int, role: string)
  datatype RideRow = RideRow(id: int, status: string)

  /** The entries of a listing with the given role. */
  function CountRole(users: seq<UserRow>, role: string): (n: nat)
    ensures n == |Filter(users, (u: UserRow) => u.role == role)|
  {
    Count(users, (u: UserRow) => u.role == role)
  }

  /** The entries of a listing with the given status. */
  function CountStatus(rides: seq<RideRow>, status: string): (n: nat)
    ensures n == |Filter(rides, (r: RideRow) => r.status == status)|
  {
    Count(rides, (r: RideRow) => r.status == status)
  }

  /** `getDrivers` and `getAllDrivers`: the entries with role `driver`, all of
      them, in their original order. */
  function DriversOf(users: seq<UserRow>): (r: seq<UserRow>)
    ensures IsSubsequence(r, users)
    ensures forall i :: 0 <= i < |r| ==> r[i].role == "driver"
    ensures |r| == CountRole(users, "driver")
  {
    if users == [] then []
    else if users[0].role == "driver" then [users[0]] + DriversOf(users[1..])
    else DriversOf(users[1..])
  }

  /** Two different roles are counted on disjoint sets of entries. */
  lemma CountRolesDisjoint(users: seq<UserRow>, r1: string, r2: string)
    requires r1 != r2
    ensures CountRole(users, r1) + CountRole(users, r2) <= |users|
  {
    CountDisjoint(users, (u: UserRow) => u.role == r1, (u: UserRow) => u.role == r2);
  }

  lemma CountStatusesDisjoint(rides: seq<RideRow>, s1: string, s2: string)
    requires s1 != s2
    ensures CountStatus(rides, s1) + CountStatus(rides, s2) <= |rides|
  {
    CountDisjoint(rides, (r: RideRow) => r.status == s1, (r: RideRow) => r.status == s2);
  }

  datatype DashboardStats = DashboardStats(
    totalUsers: nat, totalDrivers: nat, totalRides: nat, activeRides: nat, completedRides: nat)

  /** `getDashboardStats`: the user count and the driver count come from two
      separate fetches of `/users/`, the ride counts from one fetch of `/rides/`. */
  function Stats(users: seq<UserRow>, drivers: seq<UserRow>, rides: seq<RideRow>): (st: DashboardStats)
    ensures st.totalUsers == CountRole(users, "user")
    ensures st.totalDrivers == |DriversOf(drivers)| == CountRole(drivers, "driver")
    ensures st.activeRides == CountStatus(rides, "active")
    ensures st.completedRides == CountStatus(rides, "completed")
    ensures st.activeRides + st.completedRides <= st.totalRides == |rides|
    ensures users == drivers ==> st.totalUsers + st.totalDrivers <= |users|
  {
    CountStatusesDisjoint(rides, "active", "completed");
    CountRolesDisjoint(users, "user", "driver");
    DashboardStats(
      CountRole(users, "user"),
      CountRole(drivers, "driver"),
      |rides|,
      CountStatus(rides, "active"),
      CountStatus(rides, "completed"))
  }
}

=== FILE: client.dfy ===
/** What the browser holds for the front end: the user record the back end
    sends, and the two `localStorage` keys (`token`, `user`) that survive a
    page reload. */
module Client {
  import opened Common

  /** The user record of the front end: the seven fields the back end returns
      at login and registration, plus the display `name` the front end adds. */
  datatype User = User(
    id: int,
    username: string,
    firstName: Option<string>,
    lastName: Option<string>,
    email: string,
    role: string,
    phoneNumber: Option<string>,
    name: Option<string>)

  /** The `user` key holds JSON text; decoded, it is either the literal `null`
      or a user object. */
  datatype StoredUser = JsonNull | JsonUser(user: User)

  /** The two `localStorage` keys; `None` is a missing key. */
  datatype Storage = Storage(token: Option<string>, user: Option<StoredUser>)

  const EmptyStorage: Storage := Storage(None, None)

  /** Durable storage plus the last navigation requested (by `router.push` or
      by assigning `window.location.href`); `None` when none was requested. */
  datatype Browser = Browser(storage: Storage, navigation: Option<string>)
}

=== FILE: common.dfy ===
/** Small shared vocabulary: optional values, results, and the truthiness test
    that both the TypeScript front end (`if (token)`) and the Python back end
    (`if not username`) apply to optional strings. */
module Common {

  datatype Option<+T> = None | Some(value: T) {
    function GetOr(default: T): T {
      match this
      case Some(v) => v
      case None => default
    }
  }

  datatype Result<+T, +E> = Ok(value: T) | Err(error: E)

  /** An optional string is truthy when it is present and not empty: `null`,
      `undefined`, `None` and `""` are all falsy, in JavaScript and in Python. */
  predicate Truthy(s: Option<string>) {
    s.Some? && s.value != ""
  }

  /** `s.startsWith(prefix)`: a raw character prefix, with no notion of path segments. */
  predicate StartsWith(s: string, prefix: string) {
    prefix <= s
  }

  /** `x || ''` for an optional string. */
  function OrEmpty(s: Option<string>): (r: string)
    ensures Truthy(s) ==> r == s.value
    ensures !Truthy(s) ==> r == ""
  {
    match s
    case Some(v) => v
    case None => ""
  }

  /** `a` is `b` with some elements removed, the rest in their original order. */
  predicate IsSubsequence<T(==)>(a: seq<T>, b: seq<T>)
    decreases |b|
  {
    if b == [] then a == []
    else (a != [] && a[0] == b[0] && IsSubsequence(a[1..], b[1..])) || IsSubsequence(a, b[1..])
  }

  /** The elements of `s` that satisfy `p`, in their original order: a query
      set's `filter`. */
  function Filter<T(==)>(s: seq<T>, p: T -> bool): (r: seq<T>)
    ensures IsSubsequence(r, s)
    ensures forall i :: 0 <= i < |r| ==> p(r[i])
    ensures forall x :: x in s && p(x) ==> x in r
    ensures forall x :: x in r ==> x in s
  {
    if s == [] then []
    else if p(s[0]) then [s[0]] + Filter(s[1..], p)
    else Filter(s[1..], p)
  }

  /** How many elements of `s` satisfy `p`: the length of `Filter(s, p)`. */
  function Count<T(==)>(s: seq<T>, p: T -> bool): (n: nat)
    ensures n <= |s|
    ensures n == |Filter(s, p)|
    ensures n == 0 <==> forall i :: 0 <= i < |s| ==> !p(s[i])
  {
    if s == [] then 0
    else (if p(s[0]) then 1 else 0) + Count(s[1..], p)
  }

  /** Two tests that no element passes together count disjoint elements. */
  lemma {:induction false} CountDisjoint<T>(s: seq<T>, p: T -> bool, q: T -> bool)
    requires forall i :: 0 <= i < |s| ==> !(p(s[i]) && q(s[i]))
    ensures Count(s, p) + Count(s, q) <= |s|
  {
    if s != [] {
      CountDisjoint(s[1..], p, q);
    }
  }

  /** The position of the first element of `s` that satisfies `p`, if any. */
  function IndexOf<T>(s: seq<T>, p: T -> bool): (r: Option<nat>)
    ensures r.Some? ==> r.value < |s| && p(s[r.value]) && forall j :: 0 <= j < r.value ==> !p(s[j])
    ensures r.None? <==> forall i :: 0 <= i < |s| ==> !p(s[i])
  {
    if s == [] then None
    else if p(s[0]) then Some(0)
    else
      var r := IndexOf(s[1..], p);
      if r.None? then None else Some(r.value + 1)
  }
}

=== FILE: cross_checks.dfy ===
/** How the parts relate. The three role-to-page mappings of the front end
    (the edge guard's, the session store's after login and registration, and
    the root page's) agree on the three known roles and part ways on any
    other; and the dashboard's statistics over ride rows served by the back
    end. */
module CrossChecks {
  import opened Common
  import opened Client
  import RouteGuard
  import Session
  import HomePage
  import ApiClient
  import Rides

  /** The session store and the root page send every role to the same place. */
  lemma StoreAndPageAgree(role: string)
    ensures Session.HomeAfterAuth(role) == HomePage.HomeFor(role)
  {
  }

  /** The guard agrees with the session store exactly on the known roles; for
      any other role the guard has no home (it answers with the login page
      under a protected prefix) while the store sends the user to `/user/book`. */
  lemma GuardAndStoreAgreeOnKnownRoles(role: string)
    ensures RouteGuard.HomeOf(Some(role)) == Some(Session.HomeAfterAuth(role)) <==> RouteGuard.KnownRole(role)
    ensures !RouteGuard.KnownRole(role) ==> RouteGuard.HomeOf(Some(role)).None? && Session.HomeAfterAuth(role) == "/user/book"
  {
  }

  /** If the cookies mirror the session just signed in, the page the store
      navigates to is let through by the guard for a known role; a user with an
      unknown role is bounced from `/user/book` to the login page, and the
      login page then lets them stay. The premise is an assumption: the guard
      reads the `token` and `userRole` cookies, but none of the modelled
      front-end files sets them (the session store keeps its tokens in local
      storage), so without them every protected page redirects to the login
      page. */
  lemma LandingAfterLogin(token: string, role: string)
    requires token != "" && role != ""
    ensures RouteGuard.KnownRole(role) ==>
      RouteGuard.Middleware(Session.HomeAfterAuth(role), Some(token), Some(role)) == RouteGuard.Proceed
    ensures !RouteGuard.KnownRole(role) ==>
      && RouteGuard.Middleware(Session.HomeAfterAuth(role), Some(token), Some(role)) == RouteGuard.Redirect("/login")
      && RouteGuard.Middleware("/login", Some(token), Some(role)) == RouteGuard.Proceed
  {
    var path := Session.HomeAfterAuth(role);
    var i := if role == "admin" then 0 else if role == "driver" then 1 else 2;
    assert StartsWith(path, RouteGuard.ProtectedRoutes[i].prefix);
    RouteGuard.ProtectedWithToken(path, RouteGuard.ProtectedRoutes[i], Some(token), Some(role));
  }

  /** Without the cookies, the page the store navigates to after signing in
      is turned back to the login page, whatever the role. */
  lemma LandingWithoutCookies(role: string)
    ensures RouteGuard.Middleware(Session.HomeAfterAuth(role), None, None) == RouteGuard.Redirect("/login")
  {
    var path := Session.HomeAfterAuth(role);
    var i := if role == "admin" then 0 else if role == "driver" then 1 else 2;
    assert StartsWith(path, RouteGuard.ProtectedRoutes[i].prefix);
  }

  /** A ride as the dashboard reads it from the ride listing. */
  function RowOf(r: Rides.Ride): (row: ApiClient.RideRow)
    ensures Rides.ParseStatus(row.status) == Some(r.status)
  {
    Rides.StatusNameRoundTrip(r.status);
    ApiClient.RideRow(r.id, Rides.StatusName(r.status))
  }

  function RowsOf(rides: seq<Rides.Ride>): (rows: seq<ApiClient.RideRow>)
    ensures |rows| == |rides|
    ensures forall i :: 0 <= i < |rides| ==> rows[i] == RowOf(rides[i])
  {
    if rides == [] then [] else [RowOf(rides[0])] + RowsOf(rides[1..])
  }

  /** No row whose status is a status name counts as `active`. */
  lemma {:induction false} NoActiveStatus(rows: seq<ApiClient.RideRow>)
    requires forall i :: 0 <= i < |rows| ==> Rides.ParseStatus(rows[i].status).Some?
    ensures ApiClient.CountStatus(rows, "active") == 0
  {
    if rows != [] {
      assert Rides.ParseStatus(rows[0].status).Some?;
      NoActiveStatus(rows[1..]);
    }
  }

  /** The dashboard's active-ride count is always zero over rides the back
      end serves: its status enumeration has no `active`. */
  lemma ActiveRidesAlwaysZero(users: seq<ApiClient.UserRow>, drivers: seq<ApiClient.UserRow>, rides: seq<Rides.Ride>)
    ensures ApiClient.Stats(users, drivers, RowsOf(rides)).activeRides == 0
    ensures ApiClient.Stats(users, drivers, RowsOf(rides)).totalRides == |rides|
  {
    NoActiveStatus(RowsOf(rides));
  }
}

=== FILE: fields.dfy ===
/** Values in request bodies and the field rules the back end's serializers
    apply to them: text fields (whitespace stripped, blank and null rules,
    maximum length) and fixed-point decimal columns. */
module Fields {
  import opened Common
  import Text

  /** A JSON value as the serializers distinguish it. `Number(digits, scale)`
      is the decimal `digits × 10^-scale`, as written (so `12.50` has scale 2). */
  datatype Value = Null | Str(s: string) | Int(i: int) | Bool(b: bool) | Number(digits: int, scale: nat) | Json(text: string)

  /** A request body or patch: field name to value. */
  type Patch = map<string, Value>

  function Pow10(n: nat): (r: nat)
    ensures r >= 1
  {
    if n == 0 then 1 else 10 * Pow10(n - 1)
  }

  /** A fixed-point column with `maxDigits` digits in all, stored as an integer
      count of its smallest unit: it holds at most `maxDigits` digits. */
  predicate FitsDigits(units: int, maxDigits: nat) {
    -(Pow10(maxDigits) as int) < units < Pow10(maxDigits)
  }

  lemma Pow10Add(a: nat, b: nat)
    ensures Pow10(a + b) == Pow10(a) * Pow10(b)
  {
    if a > 0 { Pow10Add(a - 1, b); }
  }

  /** The JSON parser hands a serializer a float, which reaches a decimal
      field in its shortest decimal form: trailing zeros after the point are
      gone, but at least one decimal remains (`30.0`). So the number
      `digits × 10^-scale` has at most `places` decimals there exactly when it
      is written with no more, or when `places` is positive and the extra
      decimals are zeros. */
  predicate ExactIn(digits: int, scale: nat, places: nat) {
    scale <= places || (1 <= places && digits % Pow10(scale - places) == 0)
  }

  lemma MulCancel(a: int, b: int, c: int)
    requires c > 0 && a * c == b * c
    ensures a == b
  {
  }

  /** A decimal field with `maxDigits` digits of which `places` after the
      point: accepts an integer, or a number with no more than `places`
      decimals in the sense of `ExactIn`, that has no more than
      `maxDigits - places` digits before the point, and yields it as a count
      of `10^-places` units, the same value. */
  function ToFixed(v: Value, maxDigits: nat, places: nat): (r: Option<int>)
    requires places <= maxDigits
    ensures r.Some? ==> FitsDigits(r.value, maxDigits)
    ensures r.Some? && v.Number? ==> r.value * Pow10(v.scale) == v.digits * Pow10(places)
    ensures v.Number? && !ExactIn(v.digits, v.scale, places) ==> r.None?
    ensures v.Number? && ExactIn(v.digits, v.scale, places) ==>
      (r.Some? <==> exists u :: u * Pow10(v.scale) == v.digits * Pow10(places) && FitsDigits(u, maxDigits))
    ensures r.Some? && v.Int? ==> r.value == v.i * Pow10(places)
    ensures v.Int? ==> (r.Some? <==> FitsDigits(v.i * Pow10(places), maxDigits))
    ensures r.Some? ==> v.Number? || v.Int?
  {
    match v
    case Int(i) =>
      var units := i * Pow10(places);
      if FitsDigits(units, maxDigits) then Some(units) else None
    case Number(digits, scale) =>
      if !ExactIn(digits, scale, places) then None
      else
        FixedUnitsUnique(digits, scale, places);
        var units := FixedUnits(digits, scale, places);
        if FitsDigits(units, maxDigits) then Some(units) else None
    case _ => None
  }

  /** The count of `10^-places` units a number exact in `places` decimals
      stands for. */
  function FixedUnits(digits: int, scale: nat, places: nat): (units: int)
    requires ExactIn(digits, scale, places)
    ensures units * Pow10(scale) == digits * Pow10(places)
  {
    if scale <= places then
      Pow10Add(places - scale, scale);
      MulAssoc(digits, Pow10(places - scale), Pow10(scale));
      digits * Pow10(places - scale)
    else
      Pow10Add(scale - places, places);
      var units := digits / Pow10(scale - places);
      assert units * Pow10(scale - places) == digits;
      MulAssoc(units, Pow10(scale - places), Pow10(places));
      units
  }

  /** Regrouping a product, spelled out for the solver. */
  lemma MulAssoc(a: int, b: int, c: int)
    ensures a * b * c == a * (b * c)
  {
  }

  /** No other count stands for the same number. */
  lemma FixedUnitsUnique(digits: int, scale: nat, places: nat)
    requires ExactIn(digits, scale, places)
    ensures forall u :: u * Pow10(scale) == digits * Pow10(places) ==> u == FixedUnits(digits, scale, places)
  {
    forall u | u * Pow10(scale) == digits * Pow10(places) {
      MulCancel(u, FixedUnits(digits, scale, places), Pow10(scale));
    }
  }

  /** `v` is the number `units × 10^-places`. */
  predicate Denotes(v: Value, units: int, places: nat) {
    (v.Int? && units == v.i * Pow10(places)) || (v.Number? && units * Pow10(v.scale) == v.digits * Pow10(places))
  }

  /** An integer field: accepts an integer, or a float whose value is whole
      (`30.0`), and yields that whole number. */
  function ToInteger(v: Value): (r: Option<int>)
    ensures v.Int? ==> r == Some(v.i)
    ensures v.Number? ==> (r.Some? <==> v.digits % Pow10(v.scale) == 0)
    ensures r.Some? && v.Number? ==> r.value * Pow10(v.scale) == v.digits
    ensures r.Some? ==> v.Number? || v.Int?
  {
    match v
    case Int(i) => Some(i)
    case Number(digits, scale) =>
      if digits % Pow10(scale) == 0 then Some(digits / Pow10(scale)) else None
    case _ => None
  }

  /** How a text column is exposed by a serializer. */
  datatype TextRule = TextRule(maxLength: Option<nat>, allowBlank: bool, allowNull: bool)

  const BlankError: string := "This field may not be blank."
  const NullError: string := "This field may not be null."
  const TypeError: string := "Not a valid string."
  const LengthError: string := "Ensure this field has no more characters than allowed."
  const NulError: string := "Null characters are not allowed."

  /** A serializer text field: `null` only where the column is nullable; a
      string is stripped of surrounding whitespace, then must be non-empty
      unless blank is allowed, no longer than the column, and free of the
      NUL character, which every text field of the framework refuses. */
  function CleanText(v: Value, rule: TextRule): (r: Result<Option<string>, string>)
    ensures r.Ok? && r.value.None? <==> v.Null? && rule.allowNull
    ensures r.Ok? && r.value.Some? ==>
      && v.Str?
      && r.value.value == Text.PyStrip(v.s)
      && (rule.allowBlank || r.value.value != "")
      && (rule.maxLength.Some? ==> |r.value.value| <= rule.maxLength.value)
      && '\0' !in r.value.value
    ensures v.Str? && Text.PyStrip(v.s) != "" && (rule.maxLength.None? || |Text.PyStrip(v.s)| <= rule.maxLength.value)
      && '\0' !in Text.PyStrip(v.s)
      ==> r == Ok(Some(Text.PyStrip(v.s)))
    ensures v.Str? && '\0' in v.s ==> r == Err(BlankError) || r == Err(LengthError) || r == Err(NulError)
  {
    match v
    case Null => if rule.allowNull then Ok(None) else Err(NullError)
    case Str(s) =>
      Text.PyStripKeepsNul(s);
      var t := Text.PyStrip(s);
      if t == "" then (if rule.allowBlank then Ok(Some("")) else Err(BlankError))
      else if rule.maxLength.Some? && |t| > rule.maxLength.value then Err(LengthError)
      else if '\0' in t then Err(NulError)
      else Ok(Some(t))
    case _ => Err(TypeError)
  }

  /** A non-nullable text field's value. */
  function CleanString(v: Value, rule: TextRule): (r: Result<string, string>)
    requires !rule.allowNull
    ensures r.Ok? ==> CleanText(v, rule) == Ok(Some(r.value))
    ensures r.Err? ==> CleanText(v, rule).Err?
  {
    match CleanText(v, rule)
    case Ok(Some(t)) => Ok(t)
    case Ok(None) => Err(NullError)
    case Err(e) => Err(e)
  }
}

=== FILE: home_page.dfy ===
/** The root page: on mount it sends a visitor with a stored token and user to
    their role's page, and anyone else to the login page. */
module HomePage {
  import opened Common
  import opened Client

  /** The page's own role mapping: `admin` to `/admin`, `driver` to `/driver`,
      every other role, recognised or not, to `/user/book`. */
  function HomeFor(role: string): (path: string)
    ensures path == "/admin" <==> role == "admin"
    ensures path == "/driver" <==> role == "driver"
    ensures path != "/admin" && path != "/driver" ==> path == "/user/book"
  {
    if role == "admin" then "/admin"
    else if role == "driver" then "/driver"
    else "/user/book"
  }

  /** The page either pushes a route, or throws when the stored user decodes to
      JSON `null` (reading `role` of `null`). */
  datatype Outcome = Push(path: string) | TypeError

  function Redirect(storage: Storage): (r: Outcome)
    ensures !(Truthy(storage.token) && storage.user.Some?) <==> r == Push("/login")
    ensures Truthy(storage.token) && storage.user == Some(JsonNull) <==> r == TypeError
    ensures Truthy(storage.token) && storage.user.Some? && storage.user.value.JsonUser? ==>
      r == Push(HomeFor(storage.user.value.user.role)) && r != Push("/login")
  {
    if Truthy(storage.token) && storage.user.Some? then
      match storage.user.value
      case JsonNull => TypeError
      case JsonUser(u) => Push(HomeFor(u.role))
    else Push("/login")
  }
}

=== FILE: ordering.dfy ===
/** Ordering of query results. Django's `Meta.ordering` sorts by a column,
    ascending, or descending when the name carries a leading `-`; a
    descending order is an ascending one on the negated key. */
module Ordering {

  /** `s` is in non-decreasing order of `key`. */
  predicate SortedBy<T>(s: seq<T>, key: T -> int) {
    forall i, j :: 0 <= i < j < |s| ==> key(s[i]) <= key(s[j])
  }

  /** Insert `x` into the sorted `s` before the first element with a larger key. */
  function InsertBy<T>(x: T, s: seq<T>, key: T -> int): (r: seq<T>)
    requires SortedBy(s, key)
    ensures SortedBy(r, key)
    ensures multiset(r) == multiset(s) + multiset{x}
    decreases |s|
  {
    if s == [] then [x]
    else if key(x) <= key(s[0]) then [x] + s
    else
      var rest := InsertBy(x, s[1..], key);
      assert s == [s[0]] + s[1..];
      assert forall k :: 0 <= k < |rest| ==> key(s[0]) <= key(rest[k]) by {
        forall k | 0 <= k < |rest|
          ensures key(s[0]) <= key(rest[k])
        {
          assert rest[k] in multiset(rest);
          assert rest[k] in multiset(s[1..]) + multiset{x};
        }
      }
      [s[0]] + rest
  }

  /** Insertion sort: the same elements, in non-decreasing order of `key`. */
  function SortBy<T>(s: seq<T>, key: T -> int): (r: seq<T>)
    ensures SortedBy(r, key)
    ensures multiset(r) == multiset(s)
    ensures |r| == |s|
    decreases |s|
  {
    if s == [] then []
    else
      assert s == [s[0]] + s[1..];
      InsertBy(s[0], SortBy(s[1..], key), key)
  }
}

=== FILE: rides.dfy ===
/** The ride side of the back end: the ride, ride-location and payment
    tables, the lifecycle actions on a ride, who sees which rides and
    payments, and ride writes through the ride serializer. The clock is a
    parameter: `now` is what the server would read when the request runs. */
module Rides {
  import opened Common
  import opened Fields
  import Ordering
  import Text
  import opened Accounts

  // ---------------------------------------------------------------------------
  // Status enumerations
  // ---------------------------------------------------------------------------

  datatype RideStatus = Requested | Accepted | Started | Completed | Cancelled

  const StatusMaxLength: nat := 20

  function StatusName(s: RideStatus): (name: string)
    ensures |name| <= StatusMaxLength
  {
    match s
    case Requested => "requested"
    case Accepted => "accepted"
    case Started => "started"
    case Completed => "completed"
    case Cancelled => "cancelled"
  }

  function ParseStatus(t: string): (r: Option<RideStatus>)
    ensures r.Some? ==> StatusName(r.value) == t
  {
    if t == "requested" then Some(Requested)
    else if t == "accepted" then Some(Accepted)
    else if t == "started" then Some(Started)
    else if t == "completed" then Some(Completed)
    else if t == "cancelled" then Some(Cancelled)
    else None
  }

  /** The status choices are read back exactly. */
  lemma StatusNameRoundTrip(s: RideStatus)
    ensures ParseStatus(StatusName(s)) == Some(s)
  {
  }

  const DefaultStatus: RideStatus := Requested

  /** A ride's payment state; `Paid` is the choice stored as `completed`. */
  datatype PaymentStatus = Pending | Paid | Failed | Refunded

  function PaymentStatusName(s: PaymentStatus): (name: string)
    ensures |name| <= StatusMaxLength
  {
    match s
    case Pending => "pending"
    case Paid => "completed"
    case Failed => "failed"
    case Refunded => "refunded"
  }

  function ParsePaymentStatus(t: string): (r: Option<PaymentStatus>)
    ensures r.Some? ==> PaymentStatusName(r.value) == t
  {
    if t == "pending" then Some(Pending)
    else if t == "completed" then Some(Paid)
    else if t == "failed" then Some(Failed)
    else if t == "refunded" then Some(Refunded)
    else None
  }

  lemma PaymentStatusNameRoundTrip(s: PaymentStatus)
    ensures ParsePaymentStatus(PaymentStatusName(s)) == Some(s)
  {
  }

  const DefaultPaymentStatus: PaymentStatus := Pending

  // ---------------------------------------------------------------------------
  // Rows
  // ---------------------------------------------------------------------------

  /** A point on the server's clock. */
  type Time = nat

  // Fixed-point columns: money and distance in hundredths, coordinates in millionths.
  const MoneyDigits: nat := 10
  const MoneyPlaces: nat := 2
  const CoordinateDigits: nat := 9
  const CoordinatePlaces: nat := 6
  const PaymentMethodMaxLength: nat := 50
  const PaymentIdMaxLength: nat := 100
  const TransactionIdMaxLength: nat := 100

  /** A row of the ride table. `user` and `driver` are account keys; fares and
      distance are counts of hundredths. */
  datatype Ride = Ride(
    id: nat,
    user: nat,
    driver: Option<nat>,
    pickupLocation: Value,
    dropoffLocation: Value,
    pickupAddress: string,
    dropoffAddress: string,
    requestedAt: Time,
    startedAt: Option<Time>,
    completedAt: Option<Time>,
    status: RideStatus,
    paymentStatus: PaymentStatus,
    estimatedFare: int,
    finalFare: Option<int>,
    distance: int,
    duration: int,
    paymentMethod: string,
    paymentId: string,
    cancellationReason: string,
    rating: Option<int>,
    review: string)

  /** The column bounds of a ride row. */
  predicate RideFits(r: Ride) {
    && FitsDigits(r.estimatedFare, MoneyDigits)
    && (r.finalFare.Some? ==> FitsDigits(r.finalFare.value, MoneyDigits))
    && FitsDigits(r.distance, MoneyDigits)
    && |r.paymentMethod| <= PaymentMethodMaxLength
    && |r.paymentId| <= PaymentIdMaxLength
  }

  /** A position report for a ride; coordinates are counts of millionths of a degree. */
  datatype RideLocation = RideLocation(id: nat, ride: nat, latitude: int, longitude: int, timestamp: Time)

  predicate LocationFits(l: RideLocation) {
    FitsDigits(l.latitude, CoordinateDigits) && FitsDigits(l.longitude, CoordinateDigits)
  }

  /** A payment row. Its `status` is free text of at most 20 characters, not
      one of the ride's payment-status choices. */
  datatype Payment = Payment(
    id: nat, ride: nat, amount: int, paymentMethod: string, transactionId: string, status: string, timestamp: Time)

  predicate PaymentFits(p: Payment) {
    && FitsDigits(p.amount, MoneyDigits)
    && |p.paymentMethod| <= PaymentMethodMaxLength
    && |p.transactionId| <= TransactionIdMaxLength
    && |p.status| <= StatusMaxLength
  }

  // ---------------------------------------------------------------------------
  // Lifecycle of one ride
  // ---------------------------------------------------------------------------

  /** The four lifecycle actions. `Cancel(None)` is a cancellation whose body
      has no `reason`. */
  datatype Action = Accept | Start | Complete | Cancel(reason: Option<string>)

  datatype Step = Done(ride: Ride) | Rejected(error: string)

  const AcceptError: string := "Ride cannot be accepted"
  const StartError: string := "Ride cannot be started"
  const CompleteError: string := "Ride cannot be completed"
  const CancelError: string := "Ride cannot be cancelled"

  predicate IsTerminal(s: RideStatus) {
    s == Completed || s == Cancelled
  }

  /** The status graph, as a table of allowed moves. */
  predicate Transition(from: RideStatus, to: RideStatus) {
    (from, to) in {
      (Requested, Accepted), (Accepted, Started), (Started, Completed),
      (Requested, Cancelled), (Accepted, Cancelled), (Started, Cancelled)}
  }

  /** The status an action moves a ride to. */
  function Target(a: Action): RideStatus {
    match a
    case Accept => Accepted
    case Start => Started
    case Complete => Completed
    case Cancel(_) => Cancelled
  }

  function ErrorOf(a: Action): string {
    match a
    case Accept => AcceptError
    case Start => StartError
    case Complete => CompleteError
    case Cancel(_) => CancelError
  }

  /** `b` is `a` apart, at most, from the columns the lifecycle actions write. */
  predicate SameOutsideLifecycle(a: Ride, b: Ride) {
    b.(status := a.status, driver := a.driver, startedAt := a.startedAt,
       completedAt := a.completedAt, cancellationReason := a.cancellationReason) == a
  }

  /** One lifecycle action by the account with key `who` on ride `r`:
      accept stamps the requester as driver, start and complete stamp the
      time, cancel stores the reason (empty when none was sent). */
  function Apply(r: Ride, who: nat, action: Action, now: Time): (s: Step)
    ensures s.Rejected? ==> s.error == ErrorOf(action)
    ensures s.Done? ==> s.ride.status == Target(action) && SameOutsideLifecycle(r, s.ride)
    ensures s.Done? && action.Accept? ==> s.ride == r.(driver := Some(who), status := Accepted)
    ensures s.Done? && action.Start? ==> s.ride == r.(status := Started, startedAt := Some(now))
    ensures s.Done? && action.Complete? ==> s.ride == r.(status := Completed, completedAt := Some(now))
    ensures s.Done? && action.Cancel? ==> s.ride == r.(status := Cancelled, cancellationReason := action.reason.GetOr(""))
  {
    match action
    case Accept =>
      if r.status != Requested then Rejected(AcceptError)
      else Done(r.(driver := Some(who), status := Accepted))
    case Start =>
      if r.status != Accepted then Rejected(StartError)
      else Done(r.(status := Started, startedAt := Some(now)))
    case Complete =>
      if r.status != Started then Rejected(CompleteError)
      else Done(r.(status := Completed, completedAt := Some(now)))
    case Cancel(reason) =>
      if r.status == Completed || r.status == Cancelled then Rejected(CancelError)
      else Done(r.(status := Cancelled, cancellationReason := reason.GetOr("")))
  }

  /** An action succeeds exactly when the status graph has the move it makes. */
  lemma ApplySucceedsIff(r: Ride, who: nat, action: Action, now: Time)
    ensures Apply(r, who, action, now).Done? <==> Transition(r.status, Target(action))
  {
    if Transition(r.status, Target(action)) {
      assert (r.status, Target(action)) in {
        (Requested, Accepted), (Accepted, Started), (Started, Completed),
        (Requested, Cancelled), (Accepted, Cancelled), (Started, Cancelled)};
    }
  }

  /** Completed and cancelled rides refuse every action and stay as they are. */
  lemma TerminalRefusesAll(r: Ride, who: nat, action: Action, now: Time)
    requires IsTerminal(r.status)
    ensures Apply(r, who, action, now) == Rejected(ErrorOf(action))
  {
  }

  /** What the lifecycle guarantees about the columns it writes: an open ride
      has no driver and no stamps; accepted and started rides have a driver;
      only started and completed rides (or rides cancelled after starting)
      have a start time, and only completed rides a completion time. */
  predicate LifecycleOk(r: Ride) {
    match r.status
    case Requested => r.driver.None? && r.startedAt.None? && r.completedAt.None?
    case Accepted => r.driver.Some? && r.startedAt.None? && r.completedAt.None?
    case Started => r.driver.Some? && r.startedAt.Some? && r.completedAt.None?
    case Completed => r.driver.Some? && r.startedAt.Some? && r.completedAt.Some?
    case Cancelled => r.completedAt.None? && (r.startedAt.Some? ==> r.driver.Some?)
  }

  /** The stamps follow the request time in order. */
  predicate TimesOrdered(r: Ride) {
    && (r.startedAt.Some? ==> r.requestedAt <= r.startedAt.value)
    && (r.completedAt.Some? ==> r.startedAt.Some? && r.startedAt.value <= r.completedAt.value)
  }

  /** The latest time recorded on a ride. */
  function LatestTime(r: Ride): (t: Time)
    ensures r.requestedAt <= t
    ensures r.startedAt.Some? ==> r.startedAt.value <= t
    ensures r.completedAt.Some? ==> r.completedAt.value <= t
  {
    var t0 := r.requestedAt;
    var t1 := if r.startedAt.Some? && r.startedAt.value > t0 then r.startedAt.value else t0;
    if r.completedAt.Some? && r.completedAt.value > t1 then r.completedAt.value else t1
  }

  lemma ApplyPreservesLifecycle(r: Ride, who: nat, action: Action, now: Time)
    requires LifecycleOk(r)
    ensures Apply(r, who, action, now).Done? ==> LifecycleOk(Apply(r, who, action, now).ride)
  {
  }

  /** With a clock that does not run backwards, the stamps stay in order. */
  lemma ApplyKeepsTimesOrdered(r: Ride, who: nat, action: Action, now: Time)
    requires LifecycleOk(r) && TimesOrdered(r) && LatestTime(r) <= now
    ensures Apply(r, who, action, now).Done? ==> TimesOrdered(Apply(r, who, action, now).ride)
  {
  }

  /** One request against a ride: who sent it, which action, and when. */
  datatype Event = Event(who: nat, action: Action, at: Time)

  /** A sequence of requests against one ride; refused ones leave it unchanged. */
  function Run(r: Ride, events: seq<Event>): (r': Ride)
    ensures SameOutsideLifecycle(r, r')
    decreases |events|
  {
    if events == [] then r
    else
      var s := Apply(r, events[0].who, events[0].action, events[0].at);
      Run(if s.Done? then s.ride else r, events[1..])
  }

  /** Every ride reachable by any requests keeps the lifecycle invariant: in
      particular an accepted, started or completed ride has a driver, and a
      completed ride has a start time. */
  lemma {:induction false} RunPreservesLifecycle(r: Ride, events: seq<Event>)
    requires LifecycleOk(r)
    ensures LifecycleOk(Run(r, events))
    ensures Run(r, events).status in {Accepted, Started, Completed} ==> Run(r, events).driver.Some?
    ensures Run(r, events).status == Completed ==> Run(r, events).startedAt.Some?
    decreases |events|
  {
    if events != [] {
      var s := Apply(r, events[0].who, events[0].action, events[0].at);
      ApplyPreservesLifecycle(r, events[0].who, events[0].action, events[0].at);
      RunPreservesLifecycle(if s.Done? then s.ride else r, events[1..]);
    }
  }

  /** Requests sent at non-decreasing times, none before the ride's last stamp. */
  predicate Chronological(r: Ride, events: seq<Event>) {
    && (forall i :: 0 <= i < |events| ==> LatestTime(r) <= events[i].at)
    && (forall i, j :: 0 <= i < j < |events| ==> events[i].at <= events[j].at)
  }

  lemma {:induction false} RunKeepsTimesOrdered(r: Ride, events: seq<Event>)
    requires LifecycleOk(r) && TimesOrdered(r) && Chronological(r, events)
    ensures TimesOrdered(Run(r, events))
    decreases |events|
  {
    if events != [] {
      var e := events[0];
      var s := Apply(r, e.who, e.action, e.at);
      ApplyPreservesLifecycle(r, e.who, e.action, e.at);
      ApplyKeepsTimesOrdered(r, e.who, e.action, e.at);
      var next := if s.Done? then s.ride else r;
      assert LatestTime(next) <= e.at || next == r;
      RunKeepsTimesOrdered(next, events[1..]);
    }
  }

  // ---------------------------------------------------------------------------
  // The ride table
  // ---------------------------------------------------------------------------

  datatype Table = Table(rows: seq<Ride>, nextId: nat)

  /** Keys are unique and below the counter; every row keeps the lifecycle
      invariant and the column bounds. */
  predicate TableOk(t: Table) {
    && (forall i :: 0 <= i < |t.rows| ==> t.rows[i].id < t.nextId && LifecycleOk(t.rows[i]) && RideFits(t.rows[i]))
    && (forall i, j :: 0 <= i < j < |t.rows| ==> t.rows[i].id != t.rows[j].id)
  }

  /** Ride visibility: administrators see every ride, drivers the rides they
      drive, anyone else the rides they requested. */
  predicate CanSee(who: Account, r: Ride) {
    if who.role == "admin" then true
    else if who.role == "driver" then r.driver == Some(who.id)
    else r.user == who.id
  }

  function VisibleRides(rows: seq<Ride>, who: Account): (r: seq<Ride>)
    ensures IsSubsequence(r, rows)
    ensures forall x :: x in r <==> x in rows && CanSee(who, x)
  {
    Filter(rows, (x: Ride) => CanSee(who, x))
  }

  /** The ride listing: the visible rides, newest request first. */
  function ListRides(t: Table, who: Account): (r: seq<Ride>)
    ensures multiset(r) == multiset(VisibleRides(t.rows, who))
    ensures forall x :: x in r <==> x in t.rows && CanSee(who, x)
    ensures forall i, j :: 0 <= i < j < |r| ==> r[i].requestedAt >= r[j].requestedAt
  {
    var visible := VisibleRides(t.rows, who);
    var r := Ordering.SortBy(visible, (x: Ride) => -(x.requestedAt as int));
    assert forall x :: x in r <==> x in visible by {
      forall x
        ensures x in r <==> x in visible
      {
        assert x in r <==> x in multiset(r);
        assert x in visible <==> x in multiset(visible);
      }
    }
    r
  }

  /** The position of the ride with key `id`. */
  function FindRide(rows: seq<Ride>, id: nat): (r: Option<nat>)
    ensures r.Some? ==> r.value < |rows| && rows[r.value].id == id
    ensures r.None? ==> forall i :: 0 <= i < |rows| ==> rows[i].id != id
  {
    IndexOf(rows, (r: Ride) => r.id == id)
  }

  /** `get_object` on the ride endpoint: the row with key `pk`, if the
      requester's listing holds it. */
  function GetRide(t: Table, who: Account, pk: nat): (r: Option<nat>)
    ensures r.Some? ==> r.value < |t.rows| && t.rows[r.value].id == pk && CanSee(who, t.rows[r.value])
  {
    match FindRide(t.rows, pk)
    case None => None
    case Some(k) => if CanSee(who, t.rows[k]) then Some(k) else None
  }

  /** The converse of `GetRide`'s contract: in a well-formed table, a row the
      requester may see is found by its key. */
  lemma GetRideFinds(t: Table, who: Account, k: nat)
    requires TableOk(t) && k < |t.rows| && CanSee(who, t.rows[k])
    ensures GetRide(t, who, t.rows[k].id) == Some(k)
  {
    var f := FindRide(t.rows, t.rows[k].id);
    if f != Some(k) {
      assert false;
    }
  }

  datatype RideOutcome = RideOutcome(code: int, table: Table)

  /** Run a lifecycle action on the row at `lookup`, or answer 404 when there
      is none. */
  function ActOn(t: Table, lookup: Option<nat>, who: Account, action: Action, now: Time): (r: RideOutcome)
    requires lookup.Some? ==> lookup.value < |t.rows|
    ensures r.code != 200 ==> r.table == t
    ensures lookup.None? <==> r.code == 404
    ensures r.code == 200 ==>
      && r.table.nextId == t.nextId
      && |r.table.rows| == |t.rows|
      && Apply(t.rows[lookup.value], who.id, action, now) == Done(r.table.rows[lookup.value])
      && (forall i :: 0 <= i < |t.rows| && i != lookup.value ==> r.table.rows[i] == t.rows[i])
  {
    match lookup
    case None => RideOutcome(404, t)
    case Some(k) =>
      match Apply(t.rows[k], who.id, action, now)
      case Rejected(_) => RideOutcome(400, t)
      case Done(ride) => RideOutcome(200, t.(rows := t.rows[k := ride]))
  }

  /** `accept_ride`, `start_ride`, `complete_ride` and `cancel_ride` as the
      views have them: the ride is looked up in the requester's listing. */
  function RideAction(t: Table, who: Account, pk: nat, action: Action, now: Time): (r: RideOutcome)
    ensures GetRide(t, who, pk).None? ==> r == RideOutcome(404, t)
    ensures GetRide(t, who, pk).Some? ==> r.code in {200, 400}
  {
    ActOn(t, GetRide(t, who, pk), who, action, now)
  }

  /** A ride open for drivers: requested, nobody assigned. */
  predicate Open(r: Ride) {
    r.status == Requested && r.driver.None?
  }

  /** The lookup `accept_ride` evidently needs: a driver may also reach the
      open rides, which a driver's listing never holds. */
  function GetRideToAccept(t: Table, who: Account, pk: nat): (r: Option<nat>)
    ensures r.Some? ==> r.value < |t.rows| && t.rows[r.value].id == pk
    ensures r.Some? ==> CanSee(who, t.rows[r.value]) || (who.role == "driver" && Open(t.rows[r.value]))
    ensures GetRide(t, who, pk).Some? ==> r == GetRide(t, who, pk)
  {
    match FindRide(t.rows, pk)
    case None => None
    case Some(k) =>
      if CanSee(who, t.rows[k]) || (who.role == "driver" && Open(t.rows[k])) then Some(k) else None
  }

  /** The lifecycle actions with the corrected lookup for acceptance. */
  function RideActionIntended(t: Table, who: Account, pk: nat, action: Action, now: Time): (r: RideOutcome)
    ensures !(action.Accept? && who.role == "driver") ==> r == RideAction(t, who, pk, action, now)
  {
    var lookup := if action.Accept? && who.role == "driver" then GetRideToAccept(t, who, pk) else GetRide(t, who, pk);
    ActOn(t, lookup, who, action, now)
  }

  /** As written, no driver can ever accept a ride: the rides a driver can
      look up are those they already drive, and none of those is still
      requested. */
  lemma DriverNeverAccepts(t: Table, who: Account, pk: nat, now: Time)
    requires TableOk(t) && who.role == "driver"
    ensures RideAction(t, who, pk, Accept, now).code in {400, 404}
  {
    var g := GetRide(t, who, pk);
    if g.Some? {
      assert LifecycleOk(t.rows[g.value]);
    }
  }

  /** With the corrected lookup, a driver accepts any open ride and becomes
      its driver. */
  lemma DriverAcceptsOpenRide(t: Table, who: Account, k: nat, now: Time)
    requires TableOk(t) && who.role == "driver" && k < |t.rows| && t.rows[k].status == Requested
    ensures var r := RideActionIntended(t, who, t.rows[k].id, Accept, now);
      && r.code == 200
      && r.table.rows[k] == t.rows[k].(driver := Some(who.id), status := Accepted)
  {
    assert LifecycleOk(t.rows[k]);
    var f := FindRide(t.rows, t.rows[k].id);
    if f != Some(k) {
      assert false;
    }
  }

  /** Lifecycle actions keep the table well formed, with either lookup. */
  lemma ActOnPreservesTable(t: Table, lookup: Option<nat>, who: Account, action: Action, now: Time)
    requires TableOk(t) && (lookup.Some? ==> lookup.value < |t.rows|)
    ensures TableOk(ActOn(t, lookup, who, action, now).table)
  {
    var r := ActOn(t, lookup, who, action, now);
    if r.code == 200 {
      var k := lookup.value;
      ApplyPreservesLifecycle(t.rows[k], who.id, action, now);
      assert forall i :: 0 <= i < |t.rows| ==> r.table.rows[i].id == t.rows[i].id;
    }
  }

  lemma RideActionPreservesTable(t: Table, who: Account, pk: nat, action: Action, now: Time)
    requires TableOk(t)
    ensures TableOk(RideAction(t, who, pk, action, now).table)
    ensures TableOk(RideActionIntended(t, who, pk, action, now).table)
  {
    ActOnPreservesTable(t, GetRide(t, who, pk), who, action, now);
    ActOnPreservesTable(t, GetRideToAccept(t, who, pk), who, action, now);
  }

  /** No role check guards start and complete: a rider can run their own
      accepted ride to completion. */
  lemma RiderCompletesOwnRide(t: Table, who: Account, k: nat, now: Time)
    requires TableOk(t) && who.role == "user" && k < |t.rows|
    requires t.rows[k].user == who.id && t.rows[k].status == Accepted
    ensures var r1 := RideAction(t, who, t.rows[k].id, Start, now);
      && r1.code == 200
      && RideAction(r1.table, who, t.rows[k].id, Complete, now).code == 200
  {
    var f := FindRide(t.rows, t.rows[k].id);
    if f != Some(k) {
      assert false;
    }
    var r1 := RideAction(t, who, t.rows[k].id, Start, now);
    var t1 := r1.table;
    assert t1.rows[k].id == t.rows[k].id && t1.rows[k].user == who.id;
    var f1 := FindRide(t1.rows, t.rows[k].id);
    if f1 != Some(k) {
      assert false;
    }
  }

  // ---------------------------------------------------------------------------
  // Ride writes through the ride serializer
  // ---------------------------------------------------------------------------

  /** The writable fields of the ride serializer. */
  datatype RideField =
    | PickupLocation | DropoffLocation | PickupAddress | DropoffAddress
    | EstimatedFare | Distance | Duration | PaymentMethod
    | CancellationReason | Rating | Review

  function RideFieldName(f: RideField): string {
    match f
    case PickupLocation => "pickup_location"
    case DropoffLocation => "dropoff_location"
    case PickupAddress => "pickup_address"
    case DropoffAddress => "dropoff_address"
    case EstimatedFare => "estimated_fare"
    case Distance => "distance"
    case Duration => "duration"
    case PaymentMethod => "payment_method"
    case CancellationReason => "cancellation_reason"
    case Rating => "rating"
    case Review => "review"
  }

  const RideFields: seq<RideField> := [
    PickupLocation, DropoffLocation, PickupAddress, DropoffAddress,
    EstimatedFare, Distance, Duration, PaymentMethod, CancellationReason, Rating, Review]

  /** Fields a create or a full update must carry: those without a default
      and not blank-able or nullable. */
  predicate Required(f: RideField) {
    !(f.CancellationReason? || f.Rating? || f.Review?)
  }

  const RequiredError: string := "This field is required."
  const DecimalError: string := "A valid number is required."
  const IntegerError: string := "A valid integer is required."

  /** `b` is `a` apart, at most, from the serializer's writable columns: the
      key, requester, driver, request time, stamps, statuses, final fare and
      payment reference all stay. */
  predicate SameReadOnly(a: Ride, b: Ride) {
    && b.id == a.id && b.user == a.user && b.driver == a.driver
    && b.requestedAt == a.requestedAt && b.startedAt == a.startedAt && b.completedAt == a.completedAt
    && b.status == a.status && b.paymentStatus == a.paymentStatus
    && b.finalFare == a.finalFare && b.paymentId == a.paymentId
  }

  /** A decimal column of the ride and payment tables (ten digits, two
      places), as a count of hundredths. */
  function DecodeMoney(v: Value): (r: Result<int, string>)
    ensures r.Ok? <==> ToFixed(v, MoneyDigits, MoneyPlaces).Some?
    ensures r.Ok? ==> FitsDigits(r.value, MoneyDigits)
    ensures r.Ok? && v.Int? ==> r.value == v.i * Pow10(MoneyPlaces)
    ensures r.Ok? && v.Number? ==> r.value * Pow10(v.scale) == v.digits * Pow10(MoneyPlaces)
    ensures v.Null? ==> r == Err(NullError)
  {
    if v.Null? then Err(NullError)
    else
      match ToFixed(v, MoneyDigits, MoneyPlaces)
      case None => Err(DecimalError)
      case Some(u) => Ok(u)
  }

  /** A non-nullable integer column. */
  function DecodeInteger(v: Value): (r: Result<int, string>)
    ensures r.Ok? <==> ToInteger(v).Some?
    ensures r.Ok? && v.Int? ==> r.value == v.i
    ensures r.Ok? && v.Number? ==> r.value * Pow10(v.scale) == v.digits
    ensures v.Null? ==> r == Err(NullError)
  {
    if v.Null? then Err(NullError)
    else
      match ToInteger(v)
      case None => Err(IntegerError)
      case Some(n) => Ok(n)
  }

  /** A JSON column without `null`. */
  function DecodeJson(v: Value): (r: Result<Value, string>)
    ensures r.Ok? <==> !v.Null?
    ensures r.Ok? ==> r.value == v
  {
    if v.Null? then Err(NullError) else Ok(v)
  }

  /** A non-nullable text column: the stripped string, when it is not blank
      (or blank is allowed) and fits the column. */
  function DecodeText(v: Value, maxLength: Option<nat>, allowBlank: bool): (r: Result<string, string>)
    ensures r.Ok? ==> v.Str? && r.value == Text.PyStrip(v.s)
    ensures r.Ok? <==>
      && v.Str?
      && (allowBlank || Text.PyStrip(v.s) != "")
      && (maxLength.None? || |Text.PyStrip(v.s)| <= maxLength.value)
      && '\0' !in Text.PyStrip(v.s)
    ensures r.Ok? && maxLength.Some? ==> |r.value| <= maxLength.value
  {
    var c := CleanText(v, TextRule(maxLength, allowBlank, false));
    if c.Err? then Err(c.error)
    else if c.value.None? then Err(NullError)
    else Ok(c.value.value)
  }

  /** The text columns among the writable fields. */
  predicate IsTextField(f: RideField) {
    f.PickupAddress? || f.DropoffAddress? || f.PaymentMethod? || f.CancellationReason? || f.Review?
  }

  /** Only the payment method has a length limit; the other text columns are unbounded. */
  function TextLimit(f: RideField): Option<nat> {
    if f.PaymentMethod? then Some(PaymentMethodMaxLength) else None
  }

  /** Cancellation reason and review may be blank. */
  predicate AllowsBlank(f: RideField) {
    f.CancellationReason? || f.Review?
  }

  /** A writable column of a ride, as a value: a decimal column as hundredths
      with two places, a missing rating as `null`. */
  function RideCol(r: Ride, f: RideField): Value {
    match f
    case PickupLocation => r.pickupLocation
    case DropoffLocation => r.dropoffLocation
    case PickupAddress => Str(r.pickupAddress)
    case DropoffAddress => Str(r.dropoffAddress)
    case EstimatedFare => Number(r.estimatedFare, MoneyPlaces)
    case Distance => Number(r.distance, MoneyPlaces)
    case Duration => Int(r.duration)
    case PaymentMethod => Str(r.paymentMethod)
    case CancellationReason => Str(r.cancellationReason)
    case Rating => if r.rating.None? then Null else Int(r.rating.value)
    case Review => Str(r.review)
  }

  /** `c` is a value column `f` can hold. */
  predicate RideStored(f: RideField, c: Value) {
    match f
    case PickupLocation => true
    case DropoffLocation => true
    case EstimatedFare => c.Number? && c.scale == MoneyPlaces && FitsDigits(c.digits, MoneyDigits)
    case Distance => c.Number? && c.scale == MoneyPlaces && FitsDigits(c.digits, MoneyDigits)
    case Duration => c.Int?
    case Rating => c.Null? || c.Int?
    case PaymentMethod => c.Str? && |c.s| <= PaymentMethodMaxLength
    case _ => c.Str?
  }

  /** Store `c` in column `f`. */
  function WriteRide(r: Ride, f: RideField, c: Value): (s: Ride)
    requires RideStored(f, c)
    ensures RideCol(s, f) == c
    ensures SameReadOnly(r, s)
    ensures RideFits(r) ==> RideFits(s)
  {
    match f
    case PickupLocation => r.(pickupLocation := c)
    case DropoffLocation => r.(dropoffLocation := c)
    case PickupAddress => r.(pickupAddress := c.s)
    case DropoffAddress => r.(dropoffAddress := c.s)
    case EstimatedFare => r.(estimatedFare := c.digits)
    case Distance => r.(distance := c.digits)
    case Duration => r.(duration := c.i)
    case PaymentMethod => r.(paymentMethod := c.s)
    case CancellationReason => r.(cancellationReason := c.s)
    case Rating => r.(rating := if c.Null? then None else Some(c.i))
    case Review => r.(review := c.s)
  }

  /** Storing into one column leaves every other column as it was. */
  lemma WriteRideKeeps(r: Ride, f: RideField, c: Value)
    requires RideStored(f, c)
    ensures forall g :: g != f ==> RideCol(WriteRide(r, f, c), g) == RideCol(r, g)
  {
    var s := WriteRide(r, f, c);
    forall g | g != f
      ensures RideCol(s, g) == RideCol(r, g)
    {
      match g
      case PickupLocation =>
      case DropoffLocation =>
      case PickupAddress =>
      case DropoffAddress =>
      case EstimatedFare =>
      case Distance =>
      case Duration =>
      case PaymentMethod =>
      case CancellationReason =>
      case Rating =>
      case Review =>
    }
  }

  /** What the serializer field for column `f` makes of `v`: JSON but `null`
      for the two locations, ten-digit decimals for fare and distance, an
      integer for the duration, an integer or `null` for the rating, and
      stripped text for the rest. */
  predicate Cleaned(f: RideField, v: Value, c: Result<Value, string>) {
    match f
    case PickupLocation => (c.Ok? <==> !v.Null?) && (c.Ok? ==> c.value == v)
    case DropoffLocation => (c.Ok? <==> !v.Null?) && (c.Ok? ==> c.value == v)
    case EstimatedFare => (c.Ok? <==> DecodeMoney(v).Ok?) && (c.Ok? ==> c.value == Number(DecodeMoney(v).value, MoneyPlaces))
    case Distance => (c.Ok? <==> DecodeMoney(v).Ok?) && (c.Ok? ==> c.value == Number(DecodeMoney(v).value, MoneyPlaces))
    case Duration => (c.Ok? <==> ToInteger(v).Some?) && (c.Ok? ==> c.value == Int(ToInteger(v).value))
    case Rating =>
      if v.Null? then c == Ok(Null)
      else (c.Ok? <==> ToInteger(v).Some?) && (c.Ok? ==> c.value == Int(ToInteger(v).value))
    case _ =>
      && (c.Ok? <==> DecodeText(v, TextLimit(f), AllowsBlank(f)).Ok?)
      && (c.Ok? ==> v.Str? && c.value == Str(Text.PyStrip(v.s)))
  }

  /** The serializer field for column `f`. */
  function CleanRideField(f: RideField, v: Value): (c: Result<Value, string>)
    ensures c.Ok? ==> RideStored(f, c.value)
    ensures Cleaned(f, v, c)
  {
    match f
    case PickupLocation => DecodeJson(v)
    case DropoffLocation => DecodeJson(v)
    case EstimatedFare => Money(v)
    case Distance => Money(v)
    case Duration => Whole(v)
    case Rating => if v.Null? then Ok(Null) else Whole(v)
    case PickupAddress => TextCol(f, v)
    case DropoffAddress => TextCol(f, v)
    case PaymentMethod => TextCol(f, v)
    case CancellationReason => TextCol(f, v)
    case Review => TextCol(f, v)
  }

  /** An integer column's value. */
  function Whole(v: Value): (c: Result<Value, string>)
    ensures c.Ok? <==> ToInteger(v).Some?
    ensures c.Ok? ==> c.value == Int(ToInteger(v).value)
  {
    var n := DecodeInteger(v);
    if n.Err? then Err(n.error) else Ok(Int(n.value))
  }

  /** A text column's value. */
  function TextCol(f: RideField, v: Value): (c: Result<Value, string>)
    ensures c.Ok? <==> DecodeText(v, TextLimit(f), AllowsBlank(f)).Ok?
    ensures c.Ok? ==> v.Str? && c.value == Str(Text.PyStrip(v.s))
    ensures c.Ok? && f.PaymentMethod? ==> |c.value.s| <= PaymentMethodMaxLength
  {
    var d := DecodeText(v, TextLimit(f), AllowsBlank(f));
    if d.Err? then Err(d.error) else Ok(Str(d.value))
  }

  /** A decimal column's value as hundredths with two places. */
  function Money(v: Value): (c: Result<Value, string>)
    ensures c.Ok? <==> DecodeMoney(v).Ok?
    ensures c.Ok? ==> c.value == Number(DecodeMoney(v).value, MoneyPlaces)
  {
    var d := DecodeMoney(v);
    if d.Err? then Err(d.error) else Ok(Number(d.value, MoneyPlaces))
  }

  /** Validate one writable field of a body and write it into `r`. */
  function SetRideField(r: Ride, f: RideField, v: Value): (s: Result<Ride, string>)
    ensures s.Ok? <==> CleanRideField(f, v).Ok?
    ensures s.Ok? ==> RideCol(s.value, f) == CleanRideField(f, v).value
    ensures s.Ok? ==> forall g :: g != f ==> RideCol(s.value, g) == RideCol(r, g)
    ensures s.Ok? ==> SameReadOnly(r, s.value)
    ensures s.Ok? && RideFits(r) ==> RideFits(s.value)
  {
    match CleanRideField(f, v)
    case Err(e) => Err(e)
    case Ok(c) => WriteRideKeeps(r, f, c); Ok(WriteRide(r, f, c))
  }

  /** The writable columns and the read-only ones together determine a ride. */
  lemma RideColumnsDetermineRow(a: Ride, b: Ride)
    requires SameReadOnly(a, b) && forall g :: RideCol(a, g) == RideCol(b, g)
    ensures a == b
  {
    assert RideCol(a, PickupLocation) == RideCol(b, PickupLocation) && RideCol(a, DropoffLocation) == RideCol(b, DropoffLocation);
    assert RideCol(a, PickupAddress) == RideCol(b, PickupAddress) && RideCol(a, DropoffAddress) == RideCol(b, DropoffAddress);
    assert RideCol(a, EstimatedFare) == RideCol(b, EstimatedFare) && RideCol(a, Distance) == RideCol(b, Distance);
    assert RideCol(a, Duration) == RideCol(b, Duration) && RideCol(a, PaymentMethod) == RideCol(b, PaymentMethod);
    assert RideCol(a, CancellationReason) == RideCol(b, CancellationReason) && RideCol(a, Review) == RideCol(b, Review);
    assert RideCol(a, Rating) == RideCol(b, Rating);
  }

  /** Validate and write every field of `fields` the body carries; other keys,
      read-only ones included, are ignored. */
  function ApplyRideFields(r: Ride, p: Patch, fields: seq<RideField>): (s: Result<Ride, string>)
    ensures s.Ok? ==> SameReadOnly(r, s.value)
    ensures s.Ok? && RideFits(r) ==> RideFits(s.value)
    ensures (forall i :: 0 <= i < |fields| ==> RideFieldName(fields[i]) !in p) ==> s == Ok(r)
    decreases |fields|
  {
    if fields == [] then Ok(r)
    else
      var name := RideFieldName(fields[0]);
      var next := if name in p then SetRideField(r, fields[0], p[name]) else Ok(r);
      if next.Err? then Err(next.error) else ApplyRideFields(next.value, p, fields[1..])
  }

  /** Every field of `fields` the body carries is valid. */
  predicate RideSent(p: Patch, fields: seq<RideField>) {
    forall g :: g in fields && RideFieldName(g) in p ==> CleanRideField(g, p[RideFieldName(g)]).Ok?
  }

  /** `b` holds, in every field of `fields` that the body carries, that
      field's cleaned value. */
  predicate RideWritten(p: Patch, fields: seq<RideField>, b: Ride) {
    forall g :: g in fields && RideFieldName(g) in p ==> CleanRideField(g, p[RideFieldName(g)]) == Ok(RideCol(b, g))
  }

  /** `b` agrees with `a` in every writable column the body does not write. */
  predicate RideKept(p: Patch, fields: seq<RideField>, a: Ride, b: Ride) {
    forall g :: g !in fields || RideFieldName(g) !in p ==> RideCol(b, g) == RideCol(a, g)
  }

  /** A body passes exactly when every field it carries is valid, and then
      each such field holds its cleaned value and every other column is as
      before. */
  lemma {:induction false} ApplyRideFieldsWrites(r: Ride, p: Patch, fields: seq<RideField>)
    ensures ApplyRideFields(r, p, fields).Ok? <==> RideSent(p, fields)
    ensures ApplyRideFields(r, p, fields).Ok? ==>
      && RideWritten(p, fields, ApplyRideFields(r, p, fields).value)
      && RideKept(p, fields, r, ApplyRideFields(r, p, fields).value)
    decreases |fields|
  {
    if fields != [] {
      var f := fields[0];
      var rest := fields[1..];
      assert forall g :: g in fields <==> g == f || g in rest;
      if RideFieldName(f) in p {
        var next := SetRideField(r, f, p[RideFieldName(f)]);
        if next.Ok? {
          ApplyRideFieldsWrites(next.value, p, rest);
        }
      } else {
        ApplyRideFieldsWrites(r, p, rest);
      }
    }
  }

  /** Every required field is present. */
  predicate HasRequired(p: Patch) {
    forall i :: 0 <= i < |RideFields| && Required(RideFields[i]) ==> RideFieldName(RideFields[i]) in p
  }

  /** The row a new ride starts from before the body is written into it: the
      requester, the request time and every default. */
  function NewRide(id: nat, user: nat, now: Time): (r: Ride)
    ensures LifecycleOk(r) && RideFits(r) && TimesOrdered(r)
    ensures r.status == DefaultStatus && r.paymentStatus == DefaultPaymentStatus && r.driver.None?
  {
    Ride(id, user, None, Null, Null, "", "", now, None, None, DefaultStatus, DefaultPaymentStatus,
      0, None, 0, 0, "", "", "", None, "")
  }

  /** `POST /rides/`: the requester becomes the ride's user. */
  function CreateRide(t: Table, who: Account, p: Patch, now: Time): (r: RideOutcome)
    ensures r.code != 201 ==> r.table == t
    ensures !HasRequired(p) ==> r.code == 400
    ensures r.code == 201 ==>
      && |r.table.rows| == |t.rows| + 1
      && r.table.rows[..|t.rows|] == t.rows
      && r.table.nextId == t.nextId + 1
      && var x := r.table.rows[|t.rows|];
         && x.id == t.nextId && x.user == who.id && x.driver.None? && x.requestedAt == now
         && x.status == DefaultStatus && x.paymentStatus == DefaultPaymentStatus
         && LifecycleOk(x) && RideFits(x) && TimesOrdered(x)
  {
    if !HasRequired(p) then RideOutcome(400, t)
    else
      var s := ApplyRideFields(NewRide(t.nextId, who.id, now), p, RideFields);
      if s.Err? then RideOutcome(400, t)
      else RideOutcome(201, Table(t.rows + [s.value], t.nextId + 1))
  }

  /** `t'` is `t` with row `k` replaced. */
  predicate RowReplaced(t: Table, t': Table, k: nat) {
    k < |t.rows| && |t'.rows| == |t.rows| && t' == t.(rows := t.rows[k := t'.rows[k]])
  }

  /** `PUT` / `PATCH` on `/rides/<pk>/`. */
  function UpdateRide(t: Table, who: Account, pk: nat, p: Patch, partial: bool): (r: RideOutcome)
    ensures r.code != 200 ==> r.table == t
    ensures GetRide(t, who, pk).None? ==> r.code == 404
    ensures r.code == 200 ==>
      && GetRide(t, who, pk).Some?
      && RowReplaced(t, r.table, GetRide(t, who, pk).value)
      && SameReadOnly(t.rows[GetRide(t, who, pk).value], r.table.rows[GetRide(t, who, pk).value])
      && (RideFits(t.rows[GetRide(t, who, pk).value]) ==> RideFits(r.table.rows[GetRide(t, who, pk).value]))
  {
    var g := GetRide(t, who, pk);
    if g.None? then RideOutcome(404, t)
    else if !partial && !HasRequired(p) then RideOutcome(400, t)
    else
      var s := ApplyRideFields(t.rows[g.value], p, RideFields);
      if s.Err? then RideOutcome(400, t)
      else RideOutcome(200, t.(rows := t.rows[g.value := s.value]))
  }

  /** A `PATCH` that carries only `status` (or any other read-only column)
      succeeds and changes nothing. */
  lemma StatusPatchIgnored(t: Table, who: Account, pk: nat, v: Value)
    requires GetRide(t, who, pk).Some?
    ensures UpdateRide(t, who, pk, map["status" := v], true) == RideOutcome(200, t)
  {
    var p := map["status" := v];
    var k := GetRide(t, who, pk).value;
    assert forall i :: 0 <= i < |RideFields| ==> RideFieldName(RideFields[i]) !in p;
    assert t.rows[k := t.rows[k]] == t.rows;
  }

  /** The serializer's columns are none of those the lifecycle invariant reads. */
  lemma SameReadOnlyKeepsLifecycle(a: Ride, b: Ride)
    requires SameReadOnly(a, b)
    ensures LifecycleOk(a) <==> LifecycleOk(b)
    ensures TimesOrdered(a) <==> TimesOrdered(b)
  {
  }

  /** A create is accepted exactly when the body carries every required
      field and every field it carries is valid; the new row then holds each
      carried field's cleaned value and every other writable column keeps its
      default. */
  lemma CreateRideWrites(t: Table, who: Account, p: Patch, now: Time)
    ensures CreateRide(t, who, p, now).code == 201 <==> HasRequired(p) && RideSent(p, RideFields)
    ensures CreateRide(t, who, p, now).code == 201 ==>
      var x := CreateRide(t, who, p, now).table.rows[|t.rows|];
      RideWritten(p, RideFields, x) && RideKept(p, RideFields, NewRide(t.nextId, who.id, now), x)
  {
    if HasRequired(p) {
      var a := NewRide(t.nextId, who.id, now);
      ApplyRideFieldsWrites(a, p, RideFields);
      var c := CreateRide(t, who, p, now);
      if c.code == 201 {
        assert c.table.rows[|t.rows|] == ApplyRideFields(a, p, RideFields).value;
      }
    }
  }

  /** An update of a ride the requester sees is accepted exactly when the
      body is partial or carries every required field, and every field it
      carries is valid; the row then holds each carried field's cleaned value
      and keeps every other column. */
  lemma UpdateRideWrites(t: Table, who: Account, pk: nat, p: Patch, partial: bool)
    requires GetRide(t, who, pk).Some?
    ensures var k := GetRide(t, who, pk).value;
      var u := UpdateRide(t, who, pk, p, partial);
      && (u.code == 200 <==> (partial || HasRequired(p)) && RideSent(p, RideFields))
      && (u.code == 200 ==> RideWritten(p, RideFields, u.table.rows[k]) && RideKept(p, RideFields, t.rows[k], u.table.rows[k]))
  {
    var k := GetRide(t, who, pk).value;
    ApplyRideFieldsWrites(t.rows[k], p, RideFields);
    var u := UpdateRide(t, who, pk, p, partial);
    if u.code == 200 {
      assert u.table.rows[k] == ApplyRideFields(t.rows[k], p, RideFields).value;
    }
  }

  /** Appending a well-formed row with the next key keeps the table well formed. */
  lemma AppendKeepsTable(t: Table, x: Ride)
    requires TableOk(t) && x.id == t.nextId && LifecycleOk(x) && RideFits(x)
    ensures TableOk(Table(t.rows + [x], t.nextId + 1))
  {
    var rows := t.rows + [x];
    forall i, j | 0 <= i < j < |rows|
      ensures rows[i].id != rows[j].id
    {
      assert rows[i] == t.rows[i];
    }
  }

  lemma CreateRidePreservesTable(t: Table, who: Account, p: Patch, now: Time)
    requires TableOk(t)
    ensures TableOk(CreateRide(t, who, p, now).table)
  {
    var c := CreateRide(t, who, p, now);
    if c.code == 201 {
      var x := c.table.rows[|t.rows|];
      assert c.table.rows == c.table.rows[..|t.rows|] + [x];
      AppendKeepsTable(t, x);
    }
  }

  lemma UpdateRidePreservesTable(t: Table, who: Account, pk: nat, p: Patch, partial: bool)
    requires TableOk(t)
    ensures TableOk(UpdateRide(t, who, pk, p, partial).table)
  {
    var u := UpdateRide(t, who, pk, p, partial);
    if u.code == 200 {
      var k := GetRide(t, who, pk).value;
      var x := u.table.rows[k];
      SameReadOnlyKeepsLifecycle(t.rows[k], x);
      ReplaceKeepsTable(t, k, x);
    }
  }

  /** Replacing a row by a well-formed row with the same key keeps the table well formed. */
  lemma ReplaceKeepsTable(t: Table, k: nat, x: Ride)
    requires TableOk(t) && k < |t.rows| && x.id == t.rows[k].id && LifecycleOk(x) && RideFits(x)
    ensures TableOk(t.(rows := t.rows[k := x]))
  {
    var rows := t.rows[k := x];
    assert forall i :: 0 <= i < |rows| ==> rows[i].id == t.rows[i].id;
  }

  // ---------------------------------------------------------------------------
  // Payments and locations
  // ---------------------------------------------------------------------------

  /** Payment visibility follows the payment's ride: administrators see all,
      drivers the payments of rides they drive, anyone else the payments of
      rides they requested. */
  predicate CanSeePayment(who: Account, pay: Payment, rows: seq<Ride>) {
    if who.role == "admin" then true
    else if who.role == "driver" then exists i :: 0 <= i < |rows| && rows[i].id == pay.ride && rows[i].driver == Some(who.id)
    else exists i :: 0 <= i < |rows| && rows[i].id == pay.ride && rows[i].user == who.id
  }

  function VisiblePayments(pays: seq<Payment>, rows: seq<Ride>, who: Account): (r: seq<Payment>)
    ensures IsSubsequence(r, pays)
    ensures forall x :: x in r <==> x in pays && CanSeePayment(who, x, rows)
  {
    Filter(pays, (x: Payment) => CanSeePayment(who, x, rows))
  }

  /** A payment is visible exactly when its ride is. */
  lemma PaymentsFollowRides(pays: seq<Payment>, t: Table, who: Account, pay: Payment, k: nat)
    requires TableOk(t) && k < |t.rows| && pay.ride == t.rows[k].id && pay in pays
    ensures pay in VisiblePayments(pays, t.rows, who) <==> t.rows[k] in VisibleRides(t.rows, who)
  {
    if who.role != "admin" && CanSeePayment(who, pay, t.rows) {
      var i :| 0 <= i < |t.rows| && t.rows[i].id == pay.ride &&
        (if who.role == "driver" then t.rows[i].driver == Some(who.id) else t.rows[i].user == who.id);
      assert i == k;
    }
  }

  const InvalidRideError: string := "Invalid pk - object does not exist."

  /** The `ride` key of a location or payment body: an existing ride's key. */
  function DecodeRideKey(rows: seq<Ride>, v: Value): (r: Result<nat, string>)
    ensures r.Ok? <==> v.Int? && v.i >= 0 && exists i :: 0 <= i < |rows| && rows[i].id == v.i
    ensures r.Ok? ==> r.value == v.i
  {
    if v.Int? && v.i >= 0 && FindRide(rows, v.i).Some? then Ok(v.i) else Err(InvalidRideError)
  }

  /** A coordinate column (nine digits, six places), as millionths of a degree. */
  function DecodeCoordinate(v: Value): (r: Result<int, string>)
    ensures r.Ok? <==> ToFixed(v, CoordinateDigits, CoordinatePlaces).Some?
    ensures r.Ok? ==> FitsDigits(r.value, CoordinateDigits)
    ensures r.Ok? && v.Int? ==> r.value == v.i * Pow10(CoordinatePlaces)
    ensures r.Ok? && v.Number? ==> r.value * Pow10(v.scale) == v.digits * Pow10(CoordinatePlaces)
  {
    match ToFixed(v, CoordinateDigits, CoordinatePlaces)
    case None => Err(DecimalError)
    case Some(u) => Ok(u)
  }

  function Field(p: Patch, name: string): Result<Value, string> {
    if name in p then Ok(p[name]) else Err(RequiredError)
  }

  /** `POST /ride-locations/`: the body names the ride and the coordinates; the
      time is the server's. */
  function CreateLocation(rows: seq<Ride>, id: nat, p: Patch, now: Time): (r: Result<RideLocation, string>)
    ensures r.Ok? ==> LocationFits(r.value) && r.value.timestamp == now && r.value.id == id
    ensures r.Ok? ==> exists i :: 0 <= i < |rows| && rows[i].id == r.value.ride
    ensures r.Ok? <==>
      && "ride" in p && "latitude" in p && "longitude" in p
      && DecodeRideKey(rows, p["ride"]).Ok?
      && DecodeCoordinate(p["latitude"]).Ok? && DecodeCoordinate(p["longitude"]).Ok?
    ensures r.Ok? ==>
      && p["ride"] == Int(r.value.ride)
      && Denotes(p["latitude"], r.value.latitude, CoordinatePlaces)
      && Denotes(p["longitude"], r.value.longitude, CoordinatePlaces)
  {
    var ride := Field(p, "ride");
    var lat := Field(p, "latitude");
    var lon := Field(p, "longitude");
    if ride.Err? || lat.Err? || lon.Err? then Err(RequiredError)
    else
      var key := DecodeRideKey(rows, ride.value);
      var la := DecodeCoordinate(lat.value);
      var lo := DecodeCoordinate(lon.value);
      if key.Err? then Err(key.error)
      else if la.Err? then Err(la.error)
      else if lo.Err? then Err(lo.error)
      else Ok(RideLocation(id, key.value, la.value, lo.value, now))
  }

  /** `POST /payments/`. */
  function CreatePayment(rows: seq<Ride>, id: nat, p: Patch, now: Time): (r: Result<Payment, string>)
    ensures r.Ok? ==> PaymentFits(r.value) && r.value.timestamp == now && r.value.id == id
    ensures r.Ok? ==> exists i :: 0 <= i < |rows| && rows[i].id == r.value.ride
    ensures r.Ok? ==>
      && "ride" in p && "amount" in p && "payment_method" in p && "transaction_id" in p && "status" in p
      && DecodeRideKey(rows, p["ride"]) == Ok(r.value.ride)
      && DecodeMoney(p["amount"]) == Ok(r.value.amount)
      && DecodeText(p["payment_method"], Some(PaymentMethodMaxLength), false) == Ok(r.value.paymentMethod)
      && DecodeText(p["transaction_id"], Some(TransactionIdMaxLength), false) == Ok(r.value.transactionId)
      && DecodeText(p["status"], Some(StatusMaxLength), false) == Ok(r.value.status)
  {
    var ride := Field(p, "ride");
    var amount := Field(p, "amount");
    var payMethod := Field(p, "payment_method");
    var txn := Field(p, "transaction_id");
    var status := Field(p, "status");
    if ride.Err? || amount.Err? || payMethod.Err? || txn.Err? || status.Err? then Err(RequiredError)
    else
      var key := DecodeRideKey(rows, ride.value);
      var a := DecodeMoney(amount.value);
      var m := DecodeText(payMethod.value, Some(PaymentMethodMaxLength), false);
      var x := DecodeText(txn.value, Some(TransactionIdMaxLength), false);
      var s := DecodeText(status.value, Some(StatusMaxLength), false);
      if key.Err? then Err(key.error)
      else if a.Err? then Err(a.error)
      else if m.Err? then Err(m.error)
      else if x.Err? then Err(x.error)
      else if s.Err? then Err(s.error)
      else Ok(Payment(id, key.value, a.value, m.value, x.value, s.value, now))
  }

  /** A location created from a body, sent back with its own key and its
      coordinates written to six places, creates the same row. */
  lemma LocationRoundTrip(rows: seq<Ride>, id: nat, p: Patch, now: Time)
    requires CreateLocation(rows, id, p, now).Ok?
    ensures var l := CreateLocation(rows, id, p, now).value;
      CreateLocation(rows, id, map["ride" := Int(l.ride), "latitude" := Number(l.latitude, CoordinatePlaces),
        "longitude" := Number(l.longitude, CoordinatePlaces)], now) == Ok(l)
  {
    var l := CreateLocation(rows, id, p, now).value;
    CoordinateRoundTrip(l.latitude);
    CoordinateRoundTrip(l.longitude);
  }

  /** Hundredths that fit the column, written to two places, decode to themselves. */
  lemma MoneyRoundTrip(u: int)
    requires FitsDigits(u, MoneyDigits)
    ensures DecodeMoney(Number(u, MoneyPlaces)) == Ok(u)
  {
    FixedUnitsUnique(u, MoneyPlaces, MoneyPlaces);
  }

  /** Millionths of a degree that fit the column, written to six places,
      decode to themselves. */
  lemma CoordinateRoundTrip(u: int)
    requires FitsDigits(u, CoordinateDigits)
    ensures DecodeCoordinate(Number(u, CoordinatePlaces)) == Ok(u)
  {
    FixedUnitsUnique(u, CoordinatePlaces, CoordinatePlaces);
  }

  /** A body whose five fields all decode creates the payment holding the
      decoded values. */
  lemma CreatePaymentAccepts(rows: seq<Ride>, id: nat, p: Patch, now: Time, pay: Payment)
    requires "ride" in p && "amount" in p && "payment_method" in p && "transaction_id" in p && "status" in p
    requires pay.id == id && pay.timestamp == now
    requires DecodeRideKey(rows, p["ride"]) == Ok(pay.ride)
    requires DecodeMoney(p["amount"]) == Ok(pay.amount)
    requires DecodeText(p["payment_method"], Some(PaymentMethodMaxLength), false) == Ok(pay.paymentMethod)
    requires DecodeText(p["transaction_id"], Some(TransactionIdMaxLength), false) == Ok(pay.transactionId)
    requires DecodeText(p["status"], Some(StatusMaxLength), false) == Ok(pay.status)
    ensures CreatePayment(rows, id, p, now) == Ok(pay)
  {
  }

  /** A created payment holds the key sent, the amount sent (as hundredths)
      and the three texts sent, stripped. */
  lemma PaymentHoldsSent(rows: seq<Ride>, id: nat, p: Patch, now: Time)
    requires CreatePayment(rows, id, p, now).Ok?
    ensures var pay := CreatePayment(rows, id, p, now).value;
      && "ride" in p && p["ride"] == Int(pay.ride)
      && "amount" in p && Denotes(p["amount"], pay.amount, MoneyPlaces)
      && "payment_method" in p && p["payment_method"].Str? && pay.paymentMethod == Text.PyStrip(p["payment_method"].s)
      && "transaction_id" in p && p["transaction_id"].Str? && pay.transactionId == Text.PyStrip(p["transaction_id"].s)
      && "status" in p && p["status"].Str? && pay.status == Text.PyStrip(p["status"].s)
  {
  }

  /** A float reaches the serializer without its trailing zeros: a whole
      `30.0` is a valid duration and `1.230` a valid fare. */
  lemma FloatFormsAccepted(r: Ride)
    ensures SetRideField(r, Duration, Number(300, 1)) == Ok(r.(duration := 30))
    ensures SetRideField(r, EstimatedFare, Number(1230, 3)) == Ok(r.(estimatedFare := 123))
    ensures SetRideField(r, EstimatedFare, Number(1235, 3)).Err?
  {
    assert Pow10(1) == 10 && Pow10(2) == 100 && Pow10(3) == 1000;
    FixedUnitsUnique(1230, 3, MoneyPlaces);
  }

  /** The locations of one ride, earliest report first. */
  function LocationsOf(locs: seq<RideLocation>, ride: nat): (r: seq<RideLocation>)
    ensures forall x :: x in r <==> x in locs && x.ride == ride
    ensures forall i, j :: 0 <= i < j < |r| ==> r[i].timestamp <= r[j].timestamp
    ensures |r| == |Filter(locs, (x: RideLocation) => x.ride == ride)|
  {
    var mine := Filter(locs, (x: RideLocation) => x.ride == ride);
    var r := Ordering.SortBy(mine, (x: RideLocation) => x.timestamp as int);
    assert forall x :: x in r <==> x in mine by {
      forall x
        ensures x in r <==> x in mine
      {
        assert x in r <==> x in multiset(r);
        assert x in mine <==> x in multiset(mine);
      }
    }
    r
  }

  /** The keyword arguments the router passes for the location endpoint,
      which is registered at the top level: `pk` on detail routes, nothing on
      the list route. */
  function LocationRouteKwargs(pk: Option<nat>): (kw: map<string, nat>)
    ensures "ride_pk" !in kw
  {
    if pk.Some? then map["pk" := pk.value] else map[]
  }

  const MissingKwargError: string := "KeyError: ride_pk"

  /** The location query set as written: it reads `ride_pk` from the URL
      keyword arguments. */
  function LocationQueryAsWritten(locs: seq<RideLocation>, kwargs: map<string, nat>): (r: Result<seq<RideLocation>, string>)
    ensures "ride_pk" in kwargs ==> r == Ok(LocationsOf(locs, kwargs["ride_pk"]))
    ensures "ride_pk" !in kwargs ==> r == Err(MissingKwargError)
  {
    if "ride_pk" in kwargs then Ok(LocationsOf(locs, kwargs["ride_pk"])) else Err(MissingKwargError)
  }

  /** No request the router can route reaches a location listing or a
      location lookup: the query set always fails. */
  lemma LocationQueryAlwaysFails(locs: seq<RideLocation>, pk: Option<nat>)
    ensures LocationQueryAsWritten(locs, LocationRouteKwargs(pk)).Err?
  {
  }

  /** The location query set as evidently intended, with the ride key supplied
      by the route: exactly that ride's reports, in time order, every one of
      them. */
  function LocationQuery(locs: seq<RideLocation>, ride: nat): (r: Result<seq<RideLocation>, string>)
    ensures r.Ok?
    ensures forall x :: x in r.value <==> x in locs && x.ride == ride
    ensures forall i, j :: 0 <= i < j < |r.value| ==> r.value[i].timestamp <= r.value[j].timestamp
  {
    Ok(LocationsOf(locs, ride))
  }
}

=== FILE: route_guard.dfy ===
/** The edge route guard of the front end: a pure decision from the requested
    path and two cookies (`token` and `userRole`) to "let the request through"
    or "redirect to another path". The guard runs before any page code, so it
    sees only cookies, never the in-memory session. */
module RouteGuard {
  import opened Common

  datatype Decision = Proceed | Redirect(target: string)

  /** A protected path prefix and the roles allowed under it. */
  datatype Rule = Rule(prefix: string, allowed: seq<string>)

  const LoginPath: string := "/login"
  const RegisterPath: string := "/register"

  /** Public pages, matched by exact equality with the path. */
  const PublicRoutes: seq<string> := [LoginPath, RegisterPath]

  /** Protected prefixes in the order the guard tries them. */
  const ProtectedRoutes: seq<Rule> := [
    Rule("/admin", ["admin"]),
    Rule("/driver", ["driver"]),
    Rule("/user", ["user"])
  ]

  /** The roles the guard knows a home page for. */
  predicate KnownRole(role: string) {
    role == "admin" || role == "driver" || role == "user"
  }

  /** The guard's `switch (role)`: the dashboard of a known role, nothing otherwise. */
  function HomeOf(role: Option<string>): (r: Option<string>)
    ensures r.Some? <==> role.Some? && KnownRole(role.value)
    ensures r == Some("/admin") <==> role == Some("admin")
    ensures r == Some("/driver") <==> role == Some("driver")
    ensures r == Some("/user/book") <==> role == Some("user")
  {
    match role
    case Some("admin") => Some("/admin")
    case Some("driver") => Some("/driver")
    case Some("user") => Some("/user/book")
    case _ => None
  }

  /** What one matching protected rule says: no token sends the visitor to the
      login page; a missing or disallowed role sends them to their own home, or
      to the login page when the role has none. `Proceed` means "this rule has
      no objection", not yet "let through". */
  function Admits(rule: Rule, token: Option<string>, role: Option<string>): Decision {
    if !Truthy(token) then Redirect(LoginPath)
    else if !Truthy(role) || role.value !in rule.allowed then Redirect(HomeOf(role).GetOr(LoginPath))
    else Proceed
  }

  /** The loop over the protected rules: every rule whose prefix starts the
      path is consulted in order, and the first objection wins. */
  function CheckProtected(rules: seq<Rule>, path: string, token: Option<string>, role: Option<string>): Decision
    decreases |rules|
  {
    if rules == [] then Proceed
    else if StartsWith(path, rules[0].prefix) && Admits(rules[0], token, role).Redirect? then
      Admits(rules[0], token, role)
    else CheckProtected(rules[1..], path, token, role)
  }

  /** The middleware. */
  function Middleware(path: string, token: Option<string>, role: Option<string>): Decision {
    if path in PublicRoutes then
      if Truthy(token) && Truthy(role) && HomeOf(role).Some? then Redirect(HomeOf(role).value)
      else Proceed
    else CheckProtected(ProtectedRoutes, path, token, role)
  }

  /** The first protected rule whose prefix starts the path, if any. */
  function FirstMatch(rules: seq<Rule>, path: string): (r: Option<Rule>)
    ensures r.Some? ==> r.value in rules && StartsWith(path, r.value.prefix)
    ensures r.None? <==> forall i :: 0 <= i < |rules| ==> !StartsWith(path, rules[i].prefix)
    decreases |rules|
  {
    if rules == [] then None
    else if StartsWith(path, rules[0].prefix) then Some(rules[0])
    else FirstMatch(rules[1..], path)
  }

  /** The three protected prefixes are pairwise non-overlapping: no path starts
      with two of them, because they differ at their second character. */
  lemma AtMostOneRule(path: string, i: int, j: int)
    requires 0 <= i < |ProtectedRoutes| && 0 <= j < |ProtectedRoutes|
    requires StartsWith(path, ProtectedRoutes[i].prefix)
    requires StartsWith(path, ProtectedRoutes[j].prefix)
    ensures i == j
  {
    assert path[1] == ProtectedRoutes[i].prefix[1];
    assert path[1] == ProtectedRoutes[j].prefix[1];
  }

  /** Because at most one rule matches, the loop's verdict is that one rule's
      verdict, and `Proceed` when no rule matches. */
  lemma {:induction false} CheckProtectedIsOneRule(path: string, token: Option<string>, role: Option<string>)
    ensures CheckProtected(ProtectedRoutes, path, token, role) ==
      match FirstMatch(ProtectedRoutes, path)
      case None => Proceed
      case Some(rule) => Admits(rule, token, role)
  {
    var rs := ProtectedRoutes;
    assert rs[1..][1..] == rs[2..];
    assert rs[2..][1..] == [];
    if StartsWith(path, rs[0].prefix) {
      if Admits(rs[0], token, role).Proceed? {
        if StartsWith(path, rs[1].prefix) { AtMostOneRule(path, 0, 1); }
        if StartsWith(path, rs[2].prefix) { AtMostOneRule(path, 0, 2); }
      }
    } else if StartsWith(path, rs[1].prefix) {
      if Admits(rs[1], token, role).Proceed? {
        if StartsWith(path, rs[2].prefix) { AtMostOneRule(path, 1, 2); }
      }
    }
  }

  /** Protected-path verdict, stated without the loop: the matching rule's
      decision, or `Proceed` when nothing matches. */
  lemma MiddlewareOnProtected(path: string, rule: Rule, token: Option<string>, role: Option<string>)
    requires rule in ProtectedRoutes && StartsWith(path, rule.prefix)
    ensures path !in PublicRoutes
    ensures Middleware(path, token, role) == Admits(rule, token, role)
  {
    assert path[1] == rule.prefix[1];
    CheckProtectedIsOneRule(path, token, role);
    var i :| 0 <= i < |ProtectedRoutes| && ProtectedRoutes[i] == rule;
    var m := FirstMatch(ProtectedRoutes, path).value;
    var j :| 0 <= j < |ProtectedRoutes| && ProtectedRoutes[j] == m;
    AtMostOneRule(path, i, j);
  }

  /** A path that is neither public nor under a protected prefix is let
      through, whatever the cookies say. */
  lemma UnmatchedProceeds(path: string, token: Option<string>, role: Option<string>)
    requires path !in PublicRoutes
    requires forall i :: 0 <= i < |ProtectedRoutes| ==> !StartsWith(path, ProtectedRoutes[i].prefix)
    ensures Middleware(path, token, role) == Proceed
  {
    CheckProtectedIsOneRule(path, token, role);
  }

  /** Visitors without a token reach the login and registration pages. */
  lemma PublicWithoutToken(path: string, token: Option<string>, role: Option<string>)
    requires path == LoginPath || path == RegisterPath
    requires !Truthy(token)
    ensures Middleware(path, token, role) == Proceed
  {
  }

  /** A signed-in visitor with a known role is sent from a public page to
      their dashboard; with a missing or unknown role they stay. */
  lemma PublicWithToken(path: string, token: Option<string>, role: Option<string>)
    requires path in PublicRoutes && Truthy(token)
    ensures role == Some("admin") ==> Middleware(path, token, role) == Redirect("/admin")
    ensures role == Some("driver") ==> Middleware(path, token, role) == Redirect("/driver")
    ensures role == Some("user") ==> Middleware(path, token, role) == Redirect("/user/book")
    ensures HomeOf(role).None? ==> Middleware(path, token, role) == Proceed
  {
  }

  /** Public matching is exact: a trailing slash leaves the public table, and
      since `/login/` starts with no protected prefix it is simply let through. */
  lemma TrailingSlashIsNotPublic(token: Option<string>, role: Option<string>)
    ensures "/login/" !in PublicRoutes
    ensures Middleware("/login/", token, role) == Proceed
  {
    forall i | 0 <= i < |ProtectedRoutes|
      ensures !StartsWith("/login/", ProtectedRoutes[i].prefix)
    {
      assert "/login/"[1] != ProtectedRoutes[i].prefix[1];
    }
    UnmatchedProceeds("/login/", token, role);
  }

  /** Under a protected prefix (matched on raw characters, so `/users` and
      `/administrator` count), a visitor without a token goes to the login page. */
  lemma ProtectedWithoutToken(path: string, rule: Rule, token: Option<string>, role: Option<string>)
    requires rule in ProtectedRoutes && StartsWith(path, rule.prefix)
    requires !Truthy(token)
    ensures Middleware(path, token, role) == Redirect(LoginPath)
  {
    MiddlewareOnProtected(path, rule, token, role);
  }

  /** Under a protected prefix with a token: an allowed role is let through; a
      different known role is sent to its own home; a missing or unknown role is
      sent to the login page, so it never gains access. */
  lemma ProtectedWithToken(path: string, rule: Rule, token: Option<string>, role: Option<string>)
    requires rule in ProtectedRoutes && StartsWith(path, rule.prefix)
    requires Truthy(token)
    ensures Middleware(path, token, role) == Proceed <==> role.Some? && role.value in rule.allowed
    ensures role.Some? && KnownRole(role.value) && role.value !in rule.allowed ==>
      Middleware(path, token, role) == Redirect(HomeOf(role).value)
    ensures role.None? || !KnownRole(role.value) ==> Middleware(path, token, role) == Redirect(LoginPath)
  {
    MiddlewareOnProtected(path, rule, token, role);
  }

  /** No redirect loop: with the same cookies, the page a redirect points to is
      itself let through. */
  lemma NoRedirectLoop(path: string, token: Option<string>, role: Option<string>)
    requires Middleware(path, token, role).Redirect?
    ensures Middleware(Middleware(path, token, role).target, token, role) == Proceed
  {
    var target := Middleware(path, token, role).target;
    if target == "/admin" {
      assert role == Some("admin") by {
        if path !in PublicRoutes { CheckProtectedIsOneRule(path, token, role); }
      }
      MiddlewareOnProtected(target, ProtectedRoutes[0], token, role);
    } else if target == "/driver" {
      assert role == Some("driver") by {
        if path !in PublicRoutes { CheckProtectedIsOneRule(path, token, role); }
      }
      MiddlewareOnProtected(target, ProtectedRoutes[1], token, role);
    } else if target == "/user/book" {
      assert role == Some("user") by {
        if path !in PublicRoutes { CheckProtectedIsOneRule(path, token, role); }
      }
      MiddlewareOnProtected(target, ProtectedRoutes[2], token, role);
    } else {
      assert target == LoginPath && (!Truthy(token) || HomeOf(role).None?) by {
        if path !in PublicRoutes { CheckProtectedIsOneRule(path, token, role); }
      }
    }
  }
}

=== FILE: session.dfy ===
/** The client session store (the React auth provider): the in-memory user and
    token, a `loading` flag, and the browser's storage and navigation, with the
    operations restore (on mount), login, register and logout. */
module Session {
  import opened Common
  import opened Client
  import Text
  import ApiClient

  datatype AuthState = AuthState(user: Option<User>, token: Option<string>, loading: bool, browser: Browser)

  /** The provider's state before its restore effect has run. */
  function Mount(browser: Browser): AuthState {
    AuthState(None, None, true, browser)
  }

  /** The display name derived from the name parts:
      `` `${first_name || ''} ${last_name || ''}`.trim() ``. */
  function DerivedName(u: User): (name: string)
    ensures Text.NoEdgeSpace(name, Text.IsJsSpace)
    ensures exists i :: Text.IsCutOf(OrEmpty(u.firstName) + " " + OrEmpty(u.lastName), name, i, Text.IsJsSpace)
  {
    Text.JsTrim(OrEmpty(u.firstName) + " " + OrEmpty(u.lastName))
  }

  /** Fill in `name` when it is missing or empty; every other field is kept,
      and a non-empty `name` is kept as it is. */
  function WithDisplayName(u: User): (r: User)
    ensures r.(name := u.name) == u
    ensures r.name.Some?
    ensures Truthy(u.name) ==> r == u
    ensures !Truthy(u.name) ==> r.name.value == DerivedName(u)
  {
    if Truthy(u.name) then u else u.(name := Some(DerivedName(u)))
  }

  /** Deriving the name again changes nothing, even when the derived name is empty. */
  lemma WithDisplayNameIdempotent(u: User)
    ensures WithDisplayName(WithDisplayName(u)) == WithDisplayName(u)
  {
  }

  /** With clean name parts the derived name is "first last", or the one part
      that is there. */
  lemma DerivedNameOfParts(u: User, first: string, last: string)
    requires OrEmpty(u.firstName) == first && OrEmpty(u.lastName) == last
    requires Text.NoEdgeSpace(first, Text.IsJsSpace) && Text.NoEdgeSpace(last, Text.IsJsSpace)
    ensures first != "" && last != "" ==> DerivedName(u) == first + " " + last
    ensures first != "" && last == "" ==> DerivedName(u) == first
    ensures first == "" && last != "" ==> DerivedName(u) == last
    ensures first == "" && last == "" ==> DerivedName(u) == ""
  {
    var s := first + " " + last;
    if first != "" && last != "" {
      assert s[0] == first[0] && s[|s| - 1] == last[|last| - 1];
      Text.TrimNoEdge(s, Text.IsJsSpace);
    } else if first != "" {
      assert s == [] + first + " ";
      Text.TrimPadded([], first, " ", Text.IsJsSpace);
    } else if last != "" {
      assert s == " " + last + [];
      Text.TrimPadded(" ", last, [], Text.IsJsSpace);
    } else {
      assert s == " ";
      Text.TrimAllSpace(s, Text.IsJsSpace);
    }
  }

  /** The restore effect: when both storage keys are present, adopt the stored
      token and the stored user (with a display name filled in; a stored JSON
      `null` is adopted as no user); otherwise leave the session as it is.
      Either way loading ends and storage is not touched. */
  function Restore(s: AuthState): (r: AuthState)
    ensures !r.loading && r.browser == s.browser
    ensures Truthy(s.browser.storage.token) && s.browser.storage.user.Some? ==>
      && r.token == s.browser.storage.token
      && r.user == match s.browser.storage.user.value
                   case JsonNull => None
                   case JsonUser(u) => Some(WithDisplayName(u))
    ensures !(Truthy(s.browser.storage.token) && s.browser.storage.user.Some?) ==>
      r.user == s.user && r.token == s.token
  {
    var st := s.browser.storage;
    if Truthy(st.token) && st.user.Some? then
      var user := match st.user.value
        case JsonNull => None
        case JsonUser(u) => Some(WithDisplayName(u));
      s.(token := st.token, user := user, loading := false)
    else s.(loading := false)
  }

  /** What the back end sends on a successful login or registration. */
  datatype AuthResponse = AuthResponse(access: string, refresh: string, user: User)

  /** The outcome of an awaited call: the new state, and the error rethrown to
      the caller, if any. */
  datatype Step = Step(state: AuthState, thrown: Option<ApiClient.HttpError>)

  /** Where the provider sends a freshly authenticated user: `admin` to
      `/admin`, `driver` to `/driver`, any other role to `/user/book`. */
  function HomeAfterAuth(role: string): (path: string)
    ensures path == "/admin" <==> role == "admin"
    ensures path == "/driver" <==> role == "driver"
    ensures path != "/admin" && path != "/driver" ==> path == "/user/book"
  {
    if role == "admin" then "/admin"
    else if role == "driver" then "/driver"
    else "/user/book"
  }

  /** Shared body of login and register once the awaited call has returned:
      the in-memory and the durable session are set together. */
  function Adopt(s: AuthState, resp: AuthResponse): (r: AuthState)
    ensures r.loading == s.loading
  {
    var u := WithDisplayName(resp.user);
    AuthState(Some(u), Some(resp.access), s.loading,
      Browser(Storage(Some(resp.access), Some(JsonUser(u))), Some(HomeAfterAuth(u.role))))
  }

  /** Shared failure path: the error has already passed through the response
      interceptor (which clears storage on a 401); the provider writes nothing
      and rethrows. */
  function Fail(s: AuthState, e: ApiClient.HttpError): (r: Step)
    ensures r.thrown == Some(e)
    ensures r.state.user == s.user && r.state.token == s.token && r.state.loading == s.loading
  {
    var rej := ApiClient.OnResponseError(s.browser, e);
    Step(s.(browser := rej.browser), Some(rej.error))
  }

  /** `login(credentials)`, given what the back end answered. */
  function Login(s: AuthState, reply: Result<AuthResponse, ApiClient.HttpError>): (r: Step)
    ensures reply.Ok? ==> r.thrown.None? && r.state == Adopt(s, reply.value)
    ensures reply.Err? ==> r == Fail(s, reply.error)
  {
    match reply
    case Ok(resp) => Step(Adopt(s, resp), None)
    case Err(e) => Fail(s, e)
  }

  /** `register(userData)`, given what the back end answered. */
  function Register(s: AuthState, reply: Result<AuthResponse, ApiClient.HttpError>): (r: Step)
    ensures reply.Ok? ==> r.thrown.None? && r.state == Adopt(s, reply.value)
    ensures reply.Err? ==> r == Fail(s, reply.error)
  {
    match reply
    case Ok(resp) => Step(Adopt(s, resp), None)
    case Err(e) => Fail(s, e)
  }

  /** `logout()`: forget the user and the token, in memory and in storage, and go to the login page. */
  function Logout(s: AuthState): (r: AuthState)
    ensures r.user.None? && r.token.None? && r.loading == s.loading
    ensures r.browser.storage.token.None? && r.browser.storage.user.None?
    ensures r.browser.navigation == Some("/login")
  {
    AuthState(None, None, s.loading, Browser(EmptyStorage, Some("/login")))
  }

  /** The token and the user are held together or not at all. */
  predicate Consistent(s: AuthState) {
    s.token.Some? <==> s.user.Some?
  }

  /** Memory and storage say the same thing about who is signed in. */
  predicate Persisted(s: AuthState) {
    && s.browser.storage.token == s.token
    && s.browser.storage.user == (if s.user.Some? then Some(JsonUser(s.user.value)) else None)
  }

  /** A successful login or registration: token and user are set together from
      the response, persisted under both keys, and the browser goes to the
      role's home. */
  lemma AuthSuccess(s: AuthState, resp: AuthResponse)
    ensures var r := Login(s, Ok(resp));
      && r.thrown.None?
      && r.state.token == Some(resp.access)
      && r.state.user == Some(WithDisplayName(resp.user))
      && Consistent(r.state) && Persisted(r.state)
      && r.state.browser.navigation == Some(HomeAfterAuth(resp.user.role))
    ensures Register(s, Ok(resp)) == Login(s, Ok(resp))
  {
  }

  /** A failed login or registration rethrows and leaves the in-memory session
      alone. Storage and navigation are left alone too unless the failure was a
      401, which the response interceptor answers by clearing both storage keys
      and going to the login page. */
  lemma AuthFailure(s: AuthState, e: ApiClient.HttpError)
    ensures var r := Login(s, Err(e));
      && r.thrown == Some(e)
      && r.state.user == s.user && r.state.token == s.token && r.state.loading == s.loading
      && (e.status != Some(401) ==> r.state == s)
      && (e.status == Some(401) ==> r.state.browser == Browser(EmptyStorage, Some("/login")))
    ensures Register(s, Err(e)) == Login(s, Err(e))
  {
  }

  /** Logging out twice is logging out once. */
  lemma LogoutIdempotent(s: AuthState)
    ensures Logout(Logout(s)) == Logout(s)
  {
  }

  /** Restoring on mount yields a session only when both keys are stored; the
      session is consistent unless the stored user is the JSON `null`, in which
      case the token is adopted without a user. */
  lemma RestoreOnMount(b: Browser)
    ensures var r := Restore(Mount(b));
      && !r.loading
      && (!(Truthy(b.storage.token) && b.storage.user.Some?) ==> r.user.None? && r.token.None?)
      && (Truthy(b.storage.token) && b.storage.user.Some? && b.storage.user.value.JsonUser? ==>
            Consistent(r) && Persisted(Restore(Mount(b.(storage := b.storage.(user := Some(JsonUser(r.user.value))))))))
      && (Truthy(b.storage.token) && b.storage.user == Some(JsonNull) ==> r.token.Some? && r.user.None?)
  {
  }

  /** A reload after a successful login or registration restores exactly the
      session that was signed in, provided the access token is not empty. */
  lemma ReloadKeepsSession(s: AuthState, resp: AuthResponse)
    requires resp.access != ""
    ensures var signedIn := Login(s, Ok(resp)).state;
      var reloaded := Restore(Mount(signedIn.browser));
      reloaded.user == signedIn.user && reloaded.token == signedIn.token
  {
    WithDisplayNameIdempotent(resp.user);
  }

  /** Nothing of a restored session leaks into a later login, registration or
      logout: apart from `loading`, the result is the same as on a fresh store. */
  lemma NoResidueFromRestore(s: AuthState, resp: AuthResponse)
    ensures Login(Restore(s), Ok(resp)).state == Login(s, Ok(resp)).state.(loading := false)
    ensures Logout(Restore(s)) == Logout(s).(loading := false)
  {
  }

  /** The value the provider exposes; `isLoading` is an alias of `loading`. */
  datatype ContextValue = ContextValue(user: Option<User>, token: Option<string>, loading: bool, isLoading: bool)

  function Provide(s: AuthState): (v: ContextValue)
    ensures v.loading == v.isLoading == s.loading
    ensures v.user == s.user && v.token == s.token
  {
    ContextValue(s.user, s.token, s.loading, s.loading)
  }

  const OutsideProvider: string := "useAuth must be used within an AuthProvider"

  /** `useAuth()`: the provider's value, or a thrown error outside any provider. */
  function UseAuth(ctx: Option<ContextValue>): (r: Result<ContextValue, string>)
    ensures ctx.None? <==> r == Err(OutsideProvider)
    ensures ctx.Some? ==> r == Ok(ctx.value)
  {
    match ctx
    case None => Err(OutsideProvider)
    case Some(v) => Ok(v)
  }
}

=== FILE: text.dfy ===
/** Whitespace trimming, parameterised by the language's idea of whitespace:
    JavaScript's `String.prototype.trim` and Python's `str.strip` remove
    different character sets from the same two ends. Also splitting a string
    at a separator character, as Python's `str.split(c)` does. */
module Text {

  /** Every character of `t` is whitespace. */
  predicate AllSpace(t: string, sp: char -> bool) {
    forall k :: 0 <= k < |t| ==> sp(t[k])
  }

  /** `t` neither starts nor ends with whitespace. */
  predicate NoEdgeSpace(t: string, sp: char -> bool) {
    t == [] || (!sp(t[0]) && !sp(t[|t| - 1]))
  }

  /** `r` is what is left of `s` after cutting a whitespace-only head of length
      `i` and a whitespace-only tail. */
  predicate IsCutOf(s: string, r: string, i: nat, sp: char -> bool) {
    && i + |r| <= |s|
    && r == s[i..i + |r|]
    && AllSpace(s[..i], sp)
    && AllSpace(s[i + |r|..], sp)
  }

  function TrimStart(s: string, sp: char -> bool): (r: string)
    ensures |r| <= |s| && r == s[|s| - |r|..]
    ensures AllSpace(s[..|s| - |r|], sp)
    ensures r == [] || !sp(r[0])
    decreases |s|
  {
    if |s| > 0 && sp(s[0]) then
      var r := TrimStart(s[1..], sp);
      assert s[1..][..|s[1..]| - |r|] == s[1..|s| - |r|];
      r
    else s
  }

  function TrimEnd(s: string, sp: char -> bool): (r: string)
    ensures |r| <= |s| && r == s[..|r|]
    ensures AllSpace(s[|r|..], sp)
    ensures r == [] || !sp(r[|r| - 1])
    decreases |s|
  {
    if |s| > 0 && sp(s[|s| - 1]) then
      var r := TrimEnd(s[..|s| - 1], sp);
      assert s[..|s| - 1][|r|..] == s[|r|..|s| - 1];
      assert s[|r|..] == s[|r|..|s| - 1] + [s[|s| - 1]];
      assert r == s[..|s| - 1][..|r|] == s[..|r|];
      r
    else s
  }

  /** Remove whitespace from both ends. */
  function Trim(s: string, sp: char -> bool): (r: string)
    ensures NoEdgeSpace(r, sp)
    ensures exists i :: IsCutOf(s, r, i, sp)
  {
    var t := TrimStart(s, sp);
    var r := TrimEnd(t, sp);
    CutWitness(s, t, r, sp);
    r
  }

  lemma CutWitness(s: string, t: string, r: string, sp: char -> bool)
    requires |t| <= |s| && t == s[|s| - |t|..] && AllSpace(s[..|s| - |t|], sp)
    requires |r| <= |t| && r == t[..|r|] && AllSpace(t[|r|..], sp)
    ensures IsCutOf(s, r, |s| - |t|, sp)
  {
    var i := |s| - |t|;
    assert s[i + |r|..] == t[|r|..];
  }

  /** A string that has no whitespace at either end is left as it is. */
  lemma TrimNoEdge(s: string, sp: char -> bool)
    requires NoEdgeSpace(s, sp)
    ensures Trim(s, sp) == s
  {
    var r := Trim(s, sp);
    var i: nat :| IsCutOf(s, r, i, sp);
    if i > 0 {
      assert false;
    } else if |r| < |s| {
      assert false;
    }
  }

  /** Trimming twice is trimming once. */
  lemma TrimIdempotent(s: string, sp: char -> bool)
    ensures Trim(Trim(s, sp), sp) == Trim(s, sp)
  {
    TrimNoEdge(Trim(s, sp), sp);
  }

  /** Padding a string without edge whitespace by whitespace on either side
      and trimming gives the string back. */
  lemma TrimPadded(a: string, t: string, b: string, sp: char -> bool)
    requires AllSpace(a, sp) && AllSpace(b, sp)
    requires t != [] && NoEdgeSpace(t, sp)
    ensures Trim(a + t + b, sp) == t
  {
    assert a + t + b == a + (t + b);
    assert (t + b)[0] == t[0];
    TrimStartPadded(a, t + b, sp);
    TrimEndPadded(t, b, sp);
  }

  lemma TrimStartPadded(a: string, u: string, sp: char -> bool)
    requires AllSpace(a, sp) && u != [] && !sp(u[0])
    ensures TrimStart(a + u, sp) == u
    decreases |a|
  {
    if a == [] {
      assert a + u == u;
    } else {
      assert (a + u)[0] == a[0];
      assert (a + u)[1..] == a[1..] + u;
      TrimStartPadded(a[1..], u, sp);
    }
  }

  lemma TrimEndPadded(u: string, b: string, sp: char -> bool)
    requires AllSpace(b, sp) && u != [] && !sp(u[|u| - 1])
    ensures TrimEnd(u + b, sp) == u
    decreases |b|
  {
    if b == [] {
      assert u + b == u;
    } else {
      var n := |u + b|;
      assert (u + b)[n - 1] == b[|b| - 1];
      assert (u + b)[..n - 1] == u + b[..|b| - 1];
      TrimEndPadded(u, b[..|b| - 1], sp);
    }
  }

  /** A string made of whitespace only trims to the empty string. */
  lemma TrimAllSpace(s: string, sp: char -> bool)
    requires AllSpace(s, sp)
    ensures Trim(s, sp) == []
  {
    var r := Trim(s, sp);
    var i: nat :| IsCutOf(s, r, i, sp);
    if r != [] {
      assert false;
    }
  }

  /** The whitespace characters `String.prototype.trim` removes: the
      ECMAScript WhiteSpace and LineTerminator productions (tab, vertical tab,
      form feed, space, no-break space, byte order mark, the space separators
      of category Zs, line feed, carriage return, line and paragraph separators). */
  predicate IsJsSpace(c: char) {
    || c == '\t' || c == '\n' || c == '\U{B}' || c == '\U{C}' || c == '\r'
    || c == ' ' || c == '\U{A0}' || c == '\U{1680}'
    || ('\U{2000}' <= c <= '\U{200A}')
    || c == '\U{2028}' || c == '\U{2029}' || c == '\U{202F}' || c == '\U{205F}'
    || c == '\U{3000}' || c == '\U{FEFF}'
  }

  /** The characters Python's `str.isspace` accepts, which `str.strip()` removes:
      unlike JavaScript it includes the information separators U+001C..U+001F
      and U+0085, and excludes the byte order mark. */
  predicate IsPySpace(c: char) {
    || ('\t' <= c <= '\r') || ('\U{1C}' <= c <= '\U{1F}')
    || c == ' ' || c == '\U{85}' || c == '\U{A0}' || c == '\U{1680}'
    || ('\U{2000}' <= c <= '\U{200A}')
    || c == '\U{2028}' || c == '\U{2029}' || c == '\U{202F}' || c == '\U{205F}'
    || c == '\U{3000}'
  }

  /** JavaScript's `s.trim()`. */
  function JsTrim(s: string): (r: string)
    ensures NoEdgeSpace(r, IsJsSpace)
    ensures exists i :: IsCutOf(s, r, i, IsJsSpace)
  {
    Trim(s, IsJsSpace)
  }

  /** Python's `s.strip()`. */
  function PyStrip(s: string): (r: string)
    ensures NoEdgeSpace(r, IsPySpace)
    ensures exists i :: IsCutOf(s, r, i, IsPySpace)
  {
    Trim(s, IsPySpace)
  }

  /** A cut drops only characters `sp` holds of, so any other character of
      `s` survives it. */
  lemma CutKeeps(s: string, r: string, i: nat, sp: char -> bool, c: char)
    requires IsCutOf(s, r, i, sp) && c in s && !sp(c)
    ensures c in r
  {
    var k :| 0 <= k < |s| && s[k] == c;
    assert forall j | 0 <= j < i :: s[j] == s[..i][j];
    assert forall j | i + |r| <= j < |s| :: s[j] == s[i + |r|..][j - i - |r|];
    assert r[k - i] == c;
  }

  /** NUL is not whitespace, so stripping keeps it. */
  lemma PyStripKeepsNul(s: string)
    ensures '\0' in s ==> '\0' in PyStrip(s)
  {
    if '\0' in s {
      var r := PyStrip(s);
      var i :| IsCutOf(s, r, i, IsPySpace);
      assert !IsPySpace('\0');
      CutKeeps(s, r, i, IsPySpace, '\0');
    }
  }

  /** `s.split(c)`: the pieces between occurrences of `c`, empty pieces
      included, so there is always at least one. */
  function Split(s: string, c: char): (parts: seq<string>)
    ensures |parts| >= 1
    ensures forall i :: 0 <= i < |parts| ==> c !in parts[i]
    decreases |s|
  {
    if s == [] then [[]]
    else if s[0] == c then [[]] + Split(s[1..], c)
    else
      var rest := Split(s[1..], c);
      [[s[0]] + rest[0]] + rest[1..]
  }

  /** `c.join(parts)`. */
  function Join(parts: seq<string>, c: char): string
    requires |parts| >= 1
    decreases |parts|
  {
    if |parts| == 1 then parts[0] else parts[0] + [c] + Join(parts[1..], c)
  }

  /** Joining the pieces of a split gives the string back. */
  lemma {:induction false} JoinSplit(s: string, c: char)
    ensures Join(Split(s, c), c) == s
    decreases |s|
  {
    if s != [] {
      var rest := Split(s[1..], c);
      JoinSplit(s[1..], c);
      if s[0] != c {
        if |rest| == 1 {
          assert Split(s, c) == [[s[0]] + rest[0]];
        } else {
          assert Split(s, c)[1..] == rest[1..];
          assert Join(Split(s, c), c) == [s[0]] + rest[0] + [c] + Join(rest[1..], c);
        }
      }
    }
  }

  /** A string without the separator is one piece. */
  lemma {:induction false} SplitWhole(a: string, c: char)
    requires c !in a
    ensures Split(a, c) == [a]
    decreases |a|
  {
    if a != [] {
      SplitWhole(a[1..], c);
      assert [a[0]] + a[1..] == a;
    }
  }

  /** A separator-free prefix ending at the first separator is the first piece. */
  lemma {:induction false} SplitFirst(a: string, b: string, c: char)
    requires c !in a
    ensures Split(a + [c] + b, c) == [a] + Split(b, c)
    decreases |a|
  {
    var s := a + [c] + b;
    if a == [] {
      assert s[1..] == b;
    } else {
      SplitFirst(a[1..], b, c);
      assert s[1..] == a[1..] + [c] + b;
      assert [a[0]] + a[1..] == a;
    }
  }

  /** Splitting joined pieces that do not contain the separator gives the
      pieces back. */
  lemma {:induction false} SplitJoin(parts: seq<string>, c: char)
    requires |parts| >= 1 && forall i :: 0 <= i < |parts| ==> c !in parts[i]
    ensures Split(Join(parts, c), c) == parts
    decreases |parts|
  {
    if |parts| == 1 {
      SplitWhole(parts[0], c);
    } else {
      SplitJoin(parts[1..], c);
      SplitFirst(parts[0], Join(parts[1..], c), c);
    }
  }
}

=== FILE: users.dfy ===
/** The user endpoints of the ride API: who may see which accounts, the two
    serializers through which accounts are written (the full user serializer
    and the driver's car-details serializer), and the `create_driver` and
    `update_car_details` actions. */
module Users {
  import opened Common
  import opened Fields
  import opened Accounts
  import Text

  /** The `IsAdmin` permission. */
  predicate IsAdmin(who: Account) {
    who.role == "admin"
  }

  /** The `IsDriverOrAdmin` permission. */
  predicate IsDriverOrAdmin(who: Account) {
    who.role in ["driver", "admin"]
  }

  lemma AdminIsDriverOrAdmin(who: Account)
    ensures IsAdmin(who) ==> IsDriverOrAdmin(who)
    ensures IsDriverOrAdmin(who) <==> who.role == "driver" || who.role == "admin"
  {
  }

  /** The user listing: an administrator sees every account, anyone else only their own. */
  function VisibleAccounts(reg: Registry, who: Account): (r: seq<Account>)
    ensures IsAdmin(who) ==> r == reg.accounts
    ensures !IsAdmin(who) ==> forall a :: a in r <==> a in reg.accounts && a.id == who.id
  {
    if IsAdmin(who) then reg.accounts else Filter(reg.accounts, (a: Account) => a.id == who.id)
  }

  /** Drivers marked available. */
  function AvailableDrivers(reg: Registry): (r: seq<Account>)
    ensures IsSubsequence(r, reg.accounts)
    ensures forall a :: a in r <==> a in reg.accounts && a.role == "driver" && a.isAvailable
  {
    Filter(reg.accounts, (a: Account) => a.role == "driver" && a.isAvailable)
  }

  /** The position of the row with key `id`. */
  function FindId(accounts: seq<Account>, id: nat): (r: Option<nat>)
    ensures r.Some? ==> r.value < |accounts| && accounts[r.value].id == id
    ensures r.None? ==> forall i :: 0 <= i < |accounts| ==> accounts[i].id != id
  {
    IndexOf(accounts, (a: Account) => a.id == id)
  }

  /** `get_object` on the user endpoint: the row with key `pk`, if the
      requester's listing contains it. */
  function GetObject(reg: Registry, who: Account, pk: nat): (r: Option<nat>)
    ensures r.Some? ==> r.value < |reg.accounts| && reg.accounts[r.value].id == pk
    ensures r.Some? && !IsAdmin(who) ==> pk == who.id
  {
    match FindId(reg.accounts, pk)
    case None => None
    case Some(k) => if IsAdmin(who) || pk == who.id then Some(k) else None
  }

  // ---------------------------------------------------------------------------
  // Serializer fields
  // ---------------------------------------------------------------------------

  /** The writable fields of the two account serializers. */
  datatype Field =
    | Username | Email | FirstName | LastName | RoleField | Phone
    | CarType | CarColor | LicensePlate | IsAvailable | CurrentLocation | Address

  /** The body key of each field. */
  function FieldName(f: Field): (r: string)
    ensures r == "role" <==> f == RoleField
  {
    match f
    case Username => "username"
    case Email => "email"
    case FirstName => "first_name"
    case LastName => "last_name"
    case RoleField => "role"
    case Phone => "phone_number"
    case CarType => "car_type"
    case CarColor => "car_color"
    case LicensePlate => "license_plate"
    case IsAvailable => "is_available"
    case CurrentLocation => "current_location"
    case Address => "address"
  }

  /** The user serializer writes every listed field but `id`. */
  const UserFields: seq<Field> := [
    Username, Email, FirstName, LastName, RoleField, Phone,
    CarType, CarColor, LicensePlate, IsAvailable, CurrentLocation, Address]

  /** The car-details serializer. */
  const DriverFields: seq<Field> := [CarType, CarColor, LicensePlate, IsAvailable, CurrentLocation]

  predicate IsCarField(f: Field) {
    f.CarType? || f.CarColor? || f.LicensePlate? || f.IsAvailable? || f.CurrentLocation?
  }

  /** `b` is `a` with, at most, the car-details fields changed. */
  predicate SameOutsideCar(a: Account, b: Account) {
    b.(carType := a.carType, carColor := a.carColor, licensePlate := a.licensePlate,
       isAvailable := a.isAvailable, currentLocation := a.currentLocation) == a
  }

  /** `b` keeps what no serializer writes: key, password and active flag. */
  predicate SameIdentity(a: Account, b: Account) {
    b.id == a.id && b.password == a.password && b.isActive == a.isActive
  }

  const UniqueUsernameError: string := "A user with that username already exists."
  const UniquePhoneError: string := "user with this phone number already exists."
  const ChoiceError: string := "Not a valid choice."
  const BooleanError: string := "Must be a valid boolean."

  /** Another row than `self` has this username. */
  predicate UsernameTakenByOther(reg: Registry, self: Option<nat>, username: string) {
    exists i :: 0 <= i < |reg.accounts| && reg.accounts[i].username == username && Some(reg.accounts[i].id) != self
  }

  predicate PhoneTakenByOther(reg: Registry, self: Option<nat>, phone: string) {
    exists i :: 0 <= i < |reg.accounts| && reg.accounts[i].phoneNumber == Some(phone) && Some(reg.accounts[i].id) != self
  }

  /** A cleaned text value back in body form: `Null` for none. */
  function TextValue(t: Option<string>): (r: Value)
    ensures r.Null? <==> t.None?
    ensures r.Str? ==> t == Some(r.s)
  {
    match t
    case None => Null
    case Some(x) => Str(x)
  }

  // ---------------------------------------------------------------------------
  // Email addresses and booleans
  // ---------------------------------------------------------------------------

  const EmailError: string := "Enter a valid email address."

  /** Letters and digits, as the validator's case-insensitive `[A-Z0-9]` reads them. */
  predicate AlnumChar(c: char) {
    'a' <= c <= 'z' || 'A' <= c <= 'Z' || '0' <= c <= '9'
  }

  /** A character of a dot-atom: a letter, a digit or one of ``!#$%&'*+/=?^_`{|}~-``. */
  predicate AtomChar(c: char) {
    AlnumChar(c) || c in "!#$%&'*+/=?^_`{|}~-"
  }

  /** One or more atom characters. */
  predicate Atom(s: string) {
    |s| >= 1 && forall i :: 0 <= i < |s| ==> AtomChar(s[i])
  }

  /** The unquoted local part of an address: non-empty atoms joined by dots. */
  predicate DotAtom(s: string) {
    var parts := Text.Split(s, '.');
    forall i :: 0 <= i < |parts| ==> Atom(parts[i])
  }

  predicate LabelChar(c: char) {
    AlnumChar(c) || c == '-'
  }

  /** A domain label: 1 to 63 letters, digits and hyphens, beginning and
      ending with a letter or digit. */
  predicate Label(s: string) {
    && 1 <= |s| <= 63 && AlnumChar(s[0]) && AlnumChar(s[|s| - 1])
    && forall i :: 0 <= i < |s| ==> LabelChar(s[i])
  }

  /** The top-level label: 2 to 63 letters, digits and hyphens, not ending
      with a hyphen. */
  predicate TopLabel(s: string) {
    && 2 <= |s| <= 63 && s[|s| - 1] != '-'
    && forall i :: 0 <= i < |s| ==> LabelChar(s[i])
  }

  /** A host name: labels followed by a top-level label, dot-separated. */
  predicate Hostname(s: string) {
    var labels := Text.Split(s, '.');
    && |labels| >= 2 && TopLabel(labels[|labels| - 1])
    && forall i :: 0 <= i < |labels| - 1 ==> Label(labels[i])
  }

  /** Django's `EmailValidator` on a non-empty value: at most 320 characters;
      split at the last `@` into a dot-atom and a domain that is `localhost`
      or a host name. Quoted local parts, address literals and
      internationalised domains are not modelled, so they are refused. */
  predicate IsEmail(s: string) {
    && |s| <= 320
    && match LastIndexOf(s, '@')
       case None => false
       case Some(k) => DotAtom(s[..k]) && (s[k + 1..] == "localhost" || Hostname(s[k + 1..]))
  }

  /** A character that occurs in a string split at `c`, other than `c`, occurs
      in one of the pieces. */
  lemma {:induction false} InSomePiece(s: string, c: char, x: char)
    requires x in s && x != c
    ensures exists i :: 0 <= i < |Text.Split(s, c)| && x in Text.Split(s, c)[i]
    decreases |s|
  {
    var rest := Text.Split(s[1..], c);
    if s[0] == x {
      assert x in Text.Split(s, c)[0];
    } else {
      InSomePiece(s[1..], c, x);
      var i :| 0 <= i < |rest| && x in rest[i];
      if s[0] == c {
        assert Text.Split(s, c)[i + 1] == rest[i];
      } else if i == 0 {
        assert x in Text.Split(s, c)[0];
      } else {
        assert Text.Split(s, c)[i] == rest[i];
      }
    }
  }

  /** A host name has no `@`. */
  lemma NoAtInHostname(d: string)
    requires Hostname(d)
    ensures '@' !in d
  {
    if '@' in d {
      InSomePiece(d, '.', '@');
      var labels := Text.Split(d, '.');
    }
  }

  /** A dot-atom, an `@` and a host name (or `localhost`) make a valid
      address, up to the length limit. */
  lemma EmailOfParts(local: string, domain: string)
    requires DotAtom(local) && (domain == "localhost" || Hostname(domain))
    requires |local| + 1 + |domain| <= 320
    ensures IsEmail(local + "@" + domain)
  {
    var s := local + "@" + domain;
    if domain != "localhost" {
      NoAtInHostname(domain);
    }
    assert s[|local| + 1..] == domain;
    assert s[..|local|] == local;
    var r := LastIndexOf(s, '@');
    assert AtLastAt(s, |local|);
    LastAtUnique(s, r.value, |local|);
  }

  /** A value with no `@` is never an address. */
  lemma NoAtNoEmail(s: string)
    requires '@' !in s
    ensures !IsEmail(s)
  {
  }

  /** A dotted local part and a two-label host name, as in
      `rider.one@example.com`. */
  lemma SampleLocal()
    ensures DotAtom("rider.one")
  {
    var parts := ["rider", "one"];
    assert Atom(parts[0]) by { assert forall i :: 0 <= i < |parts[0]| ==> AlnumChar(parts[0][i]); }
    assert Atom(parts[1]) by { assert forall i :: 0 <= i < |parts[1]| ==> AlnumChar(parts[1][i]); }
    Text.SplitJoin(parts, '.');
    assert parts[1..] == ["one"];
    assert Text.Join(parts, '.') == "rider" + ['.'] + "one";
    assert "rider" + ['.'] + "one" == "rider.one";
  }

  lemma SampleHost()
    ensures Hostname("example.com")
  {
    var labels := ["example", "com"];
    assert Label(labels[0]) by { assert forall i :: 0 <= i < |labels[0]| ==> AlnumChar(labels[0][i]); }
    assert TopLabel(labels[1]) by { assert forall i :: 0 <= i < |labels[1]| ==> AlnumChar(labels[1][i]); }
    Text.SplitJoin(labels, '.');
    assert labels[1..] == ["com"];
    assert Text.Join(labels, '.') == "example" + ['.'] + "com";
    assert "example" + ['.'] + "com" == "example.com";
  }

  /** The spellings DRF's `BooleanField` reads as true and as false. */
  const TrueTexts: seq<string> := ["t", "T", "y", "Y", "yes", "Yes", "YES", "true", "True", "TRUE", "on", "On", "ON", "1"]
  const FalseTexts: seq<string> := ["f", "F", "n", "N", "no", "No", "NO", "false", "False", "FALSE", "off", "Off", "OFF", "0"]

  /** DRF's `BooleanField`: a JSON boolean, the numbers one and zero (in
      Python `1 == 1.0 == True`), or one of the listed spellings. */
  function ParseBool(v: Value): (r: Option<bool>)
    ensures v.Bool? ==> r == Some(v.b)
    ensures v.Null? || v.Json? ==> r.None?
    ensures v.Str? ==> (r == Some(true) <==> v.s in TrueTexts) && (r == Some(false) <==> v.s in FalseTexts)
    ensures v.Int? ==> (r.Some? <==> v.i == 0 || v.i == 1) && (r.Some? ==> r.value == (v.i == 1))
  {
    match v
    case Bool(b) => Some(b)
    case Int(i) => if i == 1 then Some(true) else if i == 0 then Some(false) else None
    case Number(digits, scale) =>
      if digits == Pow10(scale) then Some(true) else if digits == 0 then Some(false) else None
    case Str(s) => if s in TrueTexts then Some(true) else if s in FalseTexts then Some(false) else None
    case _ => None
  }

  /** No spelling is read both ways, and each JSON boolean, its Python name and
      its digit read back as itself. */
  lemma ParseBoolSpellings(b: bool)
    ensures forall i, j :: 0 <= i < |TrueTexts| && 0 <= j < |FalseTexts| ==> TrueTexts[i] != FalseTexts[j]
    ensures ParseBool(Bool(b)) == Some(b)
    ensures ParseBool(Str(if b then "True" else "False")) == Some(b)
    ensures ParseBool(Str(if b then "1" else "0")) == Some(b)
    ensures ParseBool(Number(if b then 10 else 0, 1)) == Some(b)
  {
  }

  // ---------------------------------------------------------------------------
  // Columns
  // ---------------------------------------------------------------------------

  /** Column `f` of a row, in body form: `null` for an empty nullable column. */
  function Col(a: Account, f: Field): Value {
    match f
    case Username => Str(a.username)
    case Email => Str(a.email)
    case FirstName => TextValue(a.firstName)
    case LastName => TextValue(a.lastName)
    case RoleField => Str(a.role)
    case Phone => TextValue(a.phoneNumber)
    case CarType => TextValue(a.carType)
    case CarColor => TextValue(a.carColor)
    case LicensePlate => TextValue(a.licensePlate)
    case IsAvailable => Bool(a.isAvailable)
    case CurrentLocation => a.currentLocation
    case Address => TextValue(a.address)
  }

  /** `v` has the shape column `f` holds: a string for a text column that is
      not nullable, a string or `null` for one that is, a boolean for the flag,
      anything for the JSON location. */
  predicate Stored(f: Field, v: Value) {
    match f
    case Username => v.Str?
    case Email => v.Str?
    case RoleField => v.Str?
    case IsAvailable => v.Bool?
    case CurrentLocation => true
    case _ => v.Str? || v.Null?
  }

  /** The columns and the fields no serializer writes determine a row. */
  lemma ColumnsDetermineRow(a: Account, b: Account)
    requires SameIdentity(a, b) && forall g :: Col(a, g) == Col(b, g)
    ensures a == b
  {
    assert Col(a, FirstName) == Col(b, FirstName) && Col(a, LastName) == Col(b, LastName);
    assert Col(a, Phone) == Col(b, Phone) && Col(a, Address) == Col(b, Address);
    assert Col(a, CarType) == Col(b, CarType) && Col(a, CarColor) == Col(b, CarColor);
    assert Col(a, LicensePlate) == Col(b, LicensePlate);
    assert Col(a, Username) == Col(b, Username) && Col(a, Email) == Col(b, Email) && Col(a, RoleField) == Col(b, RoleField);
    assert Col(a, IsAvailable) == Col(b, IsAvailable) && Col(a, CurrentLocation) == Col(b, CurrentLocation);
  }

  /** Field-level validation of one body value. Text is stripped; unique
      fields are checked against the rows other than `self`; an empty value
      skips every validator, so an empty email or phone number is accepted. */
  function Clean(reg: Registry, self: Option<nat>, f: Field, v: Value): (r: Result<Value, string>)
    ensures r.Ok? ==> Stored(f, r.value)
    ensures r.Ok? && f.Username? ==> r.value.Str? && !UsernameTakenByOther(reg, self, r.value.s)
    ensures f.Email? ==>
      (r.Ok? <==>
        && v.Str? && |Text.PyStrip(v.s)| <= EmailMaxLength
        && (Text.PyStrip(v.s) == "" || IsEmail(Text.PyStrip(v.s)))
        && '\0' !in Text.PyStrip(v.s))
    ensures r.Ok? && f.Email? ==> r.value == Str(Text.PyStrip(v.s))
    ensures r.Ok? && f.RoleField? ==> r.value == v && v.Str? && ParseRole(v.s).Some?
    ensures f.IsAvailable? ==> (r.Ok? <==> ParseBool(v).Some?) && (r.Ok? ==> r.value == Bool(ParseBool(v).value))
    ensures f.IsAvailable? && v.Null? ==> r == Err(NullError)
    ensures f.CurrentLocation? ==> r == Ok(v)
  {
    match f
    case Username =>
      (match CleanString(v, TextRule(Some(UsernameMaxLength), false, false))
      case Err(e) => Err(e)
      case Ok(t) => if UsernameTakenByOther(reg, self, t) then Err(UniqueUsernameError) else Ok(Str(t)))
    case Email =>
      (match CleanString(v, TextRule(Some(EmailMaxLength), true, false))
      case Err(e) => Err(e)
      case Ok(t) => if t == "" || IsEmail(t) then Ok(Str(t)) else Err(EmailError))
    case FirstName =>
      (match CleanString(v, TextRule(Some(NameMaxLength), true, false))
      case Err(e) => Err(e)
      case Ok(t) => Ok(Str(t)))
    case LastName =>
      (match CleanString(v, TextRule(Some(NameMaxLength), true, false))
      case Err(e) => Err(e)
      case Ok(t) => Ok(Str(t)))
    case RoleField =>
      if v.Str? && ParseRole(v.s).Some? then Ok(v) else Err(ChoiceError)
    case Phone =>
      (match CleanText(v, TextRule(Some(PhoneMaxLength), true, true))
      case Err(e) => Err(e)
      case Ok(t) =>
        if t.Some? && t.value != "" && PhoneTakenByOther(reg, self, t.value) then Err(UniquePhoneError)
        else Ok(TextValue(t)))
    case CarType => CleanOptional(v, CarTypeMaxLength)
    case CarColor => CleanOptional(v, CarColorMaxLength)
    case LicensePlate => CleanOptional(v, LicensePlateMaxLength)
    case IsAvailable =>
      if v.Null? then Err(NullError)
      else
        (match ParseBool(v)
        case Some(b) => Ok(Bool(b))
        case None => Err(BooleanError))
    case CurrentLocation => Ok(v)
    case Address =>
      (match CleanText(v, TextRule(None, true, true))
      case Err(e) => Err(e)
      case Ok(t) => Ok(TextValue(t)))
  }

  /** A non-blank value with no `@` is refused as an email address. */
  lemma EmailNeedsAt(reg: Registry, self: Option<nat>, s: string)
    requires Text.PyStrip(s) != "" && '@' !in Text.PyStrip(s)
    ensures Clean(reg, self, Email, Str(s)).Err?
  {
    NoAtNoEmail(Text.PyStrip(s));
  }

  /** A nullable, blankable text column of bounded length. */
  function CleanOptional(v: Value, maxLength: nat): (r: Result<Value, string>)
    ensures r.Ok? ==> r.value.Null? || (r.value.Str? && |r.value.s| <= maxLength)
    ensures r.Ok? && r.value.Str? ==> v.Str? && r.value.s == Text.PyStrip(v.s)
    ensures r.Ok? && r.value.Null? <==> v.Null?
    ensures r.Ok? <==> v.Null? || (v.Str? && |Text.PyStrip(v.s)| <= maxLength && '\0' !in Text.PyStrip(v.s))
  {
    var c := CleanText(v, TextRule(Some(maxLength), true, true));
    if c.Err? then Err(c.error)
    else
      assert c.value.Some? ==> |c.value.value| <= maxLength;
      Ok(TextValue(c.value))
  }

  function AsText(v: Value): Option<string> {
    if v.Str? then Some(v.s) else None
  }

  /** Store a cleaned value in its column. */
  function Write(a: Account, f: Field, v: Value): (r: Account)
    ensures Stored(f, v) ==> Col(r, f) == v
    ensures forall g :: g != f ==> Col(r, g) == Col(a, g)
    ensures SameIdentity(a, r)
    ensures IsCarField(f) ==> SameOutsideCar(a, r)
    ensures !f.RoleField? ==> r.role == a.role
    ensures f.RoleField? && v.Str? ==> r == a.(role := v.s)
  {
    match f
    case Username => a.(username := if v.Str? then v.s else a.username)
    case Email => a.(email := if v.Str? then v.s else a.email)
    case FirstName => a.(firstName := AsText(v))
    case LastName => a.(lastName := AsText(v))
    case RoleField => a.(role := if v.Str? then v.s else a.role)
    case Phone => a.(phoneNumber := AsText(v))
    case CarType => a.(carType := AsText(v))
    case CarColor => a.(carColor := AsText(v))
    case LicensePlate => a.(licensePlate := AsText(v))
    case IsAvailable => a.(isAvailable := if v.Bool? then v.b else a.isAvailable)
    case CurrentLocation => a.(currentLocation := v)
    case Address => a.(address := AsText(v))
  }

  /** Validate one field of a body and write it into `a`. */
  function SetField(reg: Registry, self: Option<nat>, a: Account, f: Field, v: Value): (r: Result<Account, string>)
    ensures r.Ok? ==> SameIdentity(a, r.value)
    ensures r.Ok? && IsCarField(f) ==> SameOutsideCar(a, r.value)
    ensures r.Ok? && !f.RoleField? ==> r.value.role == a.role
    ensures r.Ok? && f.RoleField? ==> ParseRole(r.value.role).Some? && Some(r.value.role) == AsText(v)
    ensures r.Ok? <==> Clean(reg, self, f, v).Ok?
    ensures r.Ok? ==> Col(r.value, f) == Clean(reg, self, f, v).value
    ensures r.Ok? ==> forall g :: g != f ==> Col(r.value, g) == Col(a, g)
  {
    match Clean(reg, self, f, v)
    case Err(e) => Err(e)
    case Ok(cv) => Ok(Write(a, f, cv))
  }

  /** Validate and write every field of `fields` that the body carries; other
      keys are ignored. Any invalid field fails the whole body. */
  function ApplyFields(reg: Registry, self: Option<nat>, a: Account, p: Patch, fields: seq<Field>): (r: Result<Account, string>)
    ensures r.Ok? ==> SameIdentity(a, r.value)
    ensures r.Ok? && (forall i :: 0 <= i < |fields| ==> IsCarField(fields[i])) ==> SameOutsideCar(a, r.value)
    ensures r.Ok? && RoleField !in fields ==> r.value.role == a.role
    ensures (forall i :: 0 <= i < |fields| ==> FieldName(fields[i]) !in p) ==> r == Ok(a)
    decreases |fields|
  {
    if fields == [] then Ok(a)
    else
      var f := fields[0];
      var next := if FieldName(f) in p then SetField(reg, self, a, f, p[FieldName(f)]) else Ok(a);
      match next
      case Err(e) => Err(e)
      case Ok(b) => ApplyFields(reg, self, b, p, fields[1..])
  }

  /** Every field of `fields` that the body carries is valid. */
  predicate Sent(reg: Registry, self: Option<nat>, p: Patch, fields: seq<Field>) {
    forall g :: g in fields && FieldName(g) in p ==> Clean(reg, self, g, p[FieldName(g)]).Ok?
  }

  /** `b` holds, in every field of `fields` that the body carries, that
      field's cleaned value. */
  predicate Written(reg: Registry, self: Option<nat>, p: Patch, fields: seq<Field>, b: Account) {
    forall g :: g in fields && FieldName(g) in p ==> Clean(reg, self, g, p[FieldName(g)]) == Ok(Col(b, g))
  }

  /** `b` agrees with `a` in every column the body does not write. */
  predicate Kept(p: Patch, fields: seq<Field>, a: Account, b: Account) {
    forall g :: g !in fields || FieldName(g) !in p ==> Col(b, g) == Col(a, g)
  }

  /** A body passes exactly when every field it carries is valid, and then
      each such field holds its cleaned value and every other column is as
      before. */
  lemma {:induction false} ApplyFieldsWrites(reg: Registry, self: Option<nat>, a: Account, p: Patch, fields: seq<Field>)
    ensures ApplyFields(reg, self, a, p, fields).Ok? <==> Sent(reg, self, p, fields)
    ensures ApplyFields(reg, self, a, p, fields).Ok? ==>
      && Written(reg, self, p, fields, ApplyFields(reg, self, a, p, fields).value)
      && Kept(p, fields, a, ApplyFields(reg, self, a, p, fields).value)
    decreases |fields|
  {
    if fields != [] {
      var f := fields[0];
      var rest := fields[1..];
      assert forall g :: g in fields <==> g == f || g in rest;
      if FieldName(f) in p {
        var next := SetField(reg, self, a, f, p[FieldName(f)]);
        if next.Ok? {
          ApplyFieldsWrites(reg, self, next.value, p, rest);
        }
      } else {
        ApplyFieldsWrites(reg, self, a, p, rest);
      }
    }
  }

  /** A body whose `role` is a role name, applied through fields that include
      `role`, yields a row with that role. */
  lemma {:induction false} RoleAsSent(reg: Registry, self: Option<nat>, a: Account, p: Patch, fields: seq<Field>)
    requires RoleField in fields && "role" in p && p["role"].Str?
    requires ApplyFields(reg, self, a, p, fields).Ok?
    ensures ApplyFields(reg, self, a, p, fields).value.role == p["role"].s
    decreases |fields|
  {
    var f := fields[0];
    var next := if FieldName(f) in p then SetField(reg, self, a, f, p[FieldName(f)]) else Ok(a);
    if RoleField in fields[1..] {
      RoleAsSent(reg, self, next.value, p, fields[1..]);
    } else {
      assert f == RoleField;
    }
  }

  lemma DriverFieldsAreCar()
    ensures forall i :: 0 <= i < |DriverFields| ==> IsCarField(DriverFields[i])
  {
  }

  /** Which serializer a generic update uses: the car-details one for a driver. */
  function SerializerFields(who: Account): (fields: seq<Field>)
    ensures who.role == "driver" ==> fields == DriverFields
    ensures who.role != "driver" ==> fields == UserFields
  {
    if who.role == "driver" then DriverFields else UserFields
  }

  /** Writing `b` at row `k` (or appending it when `k` is past the end) would
      violate a unique constraint of the table. */
  predicate Clash(reg: Registry, k: nat, b: Account) {
    exists i :: 0 <= i < |reg.accounts| && i != k && Collides(reg.accounts[i], b)
  }

  predicate Collides(x: Account, b: Account) {
    x.username == b.username || (b.phoneNumber.Some? && x.phoneNumber == b.phoneNumber)
  }

  datatype Outcome = Outcome(code: int, registry: Registry)

  /** The result of a write to row `k` only: every other row, the row count
      and the key counter are as before. */
  predicate OnlyRowChanged(reg: Registry, reg': Registry, k: nat) {
    && k < |reg.accounts|
    && reg'.nextId == reg.nextId
    && |reg'.accounts| == |reg.accounts|
    && (forall i :: 0 <= i < |reg.accounts| && i != k ==> reg'.accounts[i] == reg.accounts[i])
  }

  /** Writing row `k` changes that row only. */
  lemma RowReplaced(reg: Registry, k: nat, b: Account)
    requires k < |reg.accounts|
    ensures OnlyRowChanged(reg, reg.(accounts := reg.accounts[k := b]), k)
  {
  }

  /** The user serializer's `create`: a password in the validated data is
      hashed into the row, otherwise the row keeps its unusable password. */
  function SerializerCreate(a: Account, password: Option<string>): (r: Account)
    ensures Truthy(password) ==> PasswordMatches(r, password.value)
    ensures r.(password := a.password) == a
    ensures !Truthy(password) ==> r == a
  {
    if Truthy(password) then a.(password := password) else a
  }

  /** `update` / `partial_update` on `/users/<pk>/`. A full update through the
      user serializer needs a username. */
  function UpdateUser(reg: Registry, who: Account, pk: nat, p: Patch, partial: bool): (r: Outcome)
    ensures r.code != 200 ==> r.registry == reg
    ensures GetObject(reg, who, pk).None? ==> r.code == 404
    ensures r.code == 200 ==>
      && GetObject(reg, who, pk).Some?
      && var k := GetObject(reg, who, pk).value;
         && OnlyRowChanged(reg, r.registry, k)
         && SameIdentity(reg.accounts[k], r.registry.accounts[k])
         && (who.role == "driver" ==> SameOutsideCar(reg.accounts[k], r.registry.accounts[k]))
         && !Clash(reg, k, r.registry.accounts[k])
  {
    var g := GetObject(reg, who, pk);
    if g.None? then Outcome(404, reg)
    else
      var k := g.value;
      if !partial && who.role != "driver" && "username" !in p then Outcome(400, reg)
      else
        var b := ApplyFields(reg, Some(pk), reg.accounts[k], p, SerializerFields(who));
        if b.Err? then Outcome(400, reg)
        else if Clash(reg, k, b.value) then Outcome(500, reg)
        else
          DriverFieldsAreCar();
          RowReplaced(reg, k, b.value);
          Outcome(200, reg.(accounts := reg.accounts[k := b.value]))
  }

  /** `create_driver`: administrators only; the submitted role is replaced by
      `driver`; the body goes through the user serializer (which has no
      password field), and a truthy `password` in the body is set afterwards. */
  function CreateDriver(reg: Registry, who: Account, data: Patch, password: Option<string>): (r: Outcome)
    ensures !IsAdmin(who) ==> r == Outcome(403, reg)
    ensures r.code != 201 ==> r.registry == reg
    ensures r.code == 201 ==>
      && |r.registry.accounts| == |reg.accounts| + 1
      && r.registry.accounts[..|reg.accounts|] == reg.accounts
      && r.registry.nextId == reg.nextId + 1
      && !Clash(reg, |reg.accounts|, r.registry.accounts[|reg.accounts|])
      && var a := r.registry.accounts[|reg.accounts|];
         && a.id == reg.nextId && a.role == "driver" && a.isActive
         && (Truthy(password) ==> PasswordMatches(a, password.value))
         && (!Truthy(password) ==> a.password.None?)
  {
    if !IsAdmin(who) then Outcome(403, reg)
    else
      var d := data["role" := Str("driver")];
      if "username" !in d then Outcome(400, reg)
      else
        match ApplyFields(reg, None, NewAccount(reg.nextId, ""), d, UserFields)
        case Err(_) => Outcome(400, reg)
        case Ok(b) =>
          if Clash(reg, |reg.accounts|, b) then Outcome(500, reg)
          else
            // the serializer never sees a password: it is not one of its fields
            var created := SerializerCreate(b, None);
            var withPassword := if Truthy(password) then created.(password := password) else created;
            assert withPassword.role == "driver" by {
              RoleAsSent(reg, None, NewAccount(reg.nextId, ""), d, UserFields);
            }
            Outcome(201, Registry(reg.accounts + [withPassword], reg.nextId + 1))
  }

  /** `update_car_details`: drivers only, and only through their own record;
      the body goes through the car-details serializer. The ownership check
      after `get_object` never fires: a driver's listing holds only their own
      record, so another key is answered 404 before it. */
  function UpdateCarDetails(reg: Registry, who: Account, pk: nat, p: Patch): (r: Outcome)
    ensures who.role != "driver" ==> r == Outcome(403, reg)
    ensures r.code != 200 ==> r.registry == reg
    ensures r.code == 200 ==>
      && pk == who.id
      && GetObject(reg, who, pk).Some?
      && var k := GetObject(reg, who, pk).value;
         && OnlyRowChanged(reg, r.registry, k)
         && SameOutsideCar(reg.accounts[k], r.registry.accounts[k])
  {
    if who.role != "driver" then Outcome(403, reg)
    else
      var g := GetObject(reg, who, pk);
      if g.None? then Outcome(404, reg)
      else
        var k := g.value;
        if reg.accounts[k].id != who.id then Outcome(403, reg)
        else
          var b := ApplyFields(reg, Some(pk), reg.accounts[k], p, DriverFields);
          if b.Err? then Outcome(400, reg)
          else
            DriverFieldsAreCar();
            RowReplaced(reg, k, b.value);
            Outcome(200, reg.(accounts := reg.accounts[k := b.value]))
  }

  /** A driver asking for another account's key gets 404, never the 403 of the
      ownership check; a non-driver always gets 403. */
  lemma CarDetailsOfOthers(reg: Registry, who: Account, pk: nat, p: Patch)
    ensures who.role == "driver" && pk != who.id ==> UpdateCarDetails(reg, who, pk, p).code == 404
    ensures who.role == "driver" ==> UpdateCarDetails(reg, who, pk, p).code != 403
    ensures who.role != "driver" ==> UpdateCarDetails(reg, who, pk, p).code == 403
  {
  }

  /** On success, every field the body carries and the user serializer (the
      car-details one, for a driver) writes holds its cleaned value, and the
      row's other columns are as before. */
  lemma UpdateUserWrites(reg: Registry, who: Account, pk: nat, p: Patch, partial: bool)
    ensures var r := UpdateUser(reg, who, pk, p, partial);
      r.code == 200 ==>
        var k := GetObject(reg, who, pk).value;
        && Written(reg, Some(pk), p, SerializerFields(who), r.registry.accounts[k])
        && Kept(p, SerializerFields(who), reg.accounts[k], r.registry.accounts[k])
  {
    var g := GetObject(reg, who, pk);
    if g.Some? {
      var k := g.value;
      var fields := SerializerFields(who);
      var b := ApplyFields(reg, Some(pk), reg.accounts[k], p, fields);
      var r := UpdateUser(reg, who, pk, p, partial);
      if r.code == 200 {
        assert b.Ok? && r.registry.accounts[k] == b.value;
        ApplyFieldsWrites(reg, Some(pk), reg.accounts[k], p, fields);
      }
    }
  }

  /** A body with an invalid field is answered 400. */
  lemma UpdateUserRefuses(reg: Registry, who: Account, pk: nat, p: Patch, partial: bool)
    ensures (GetObject(reg, who, pk).Some? && (partial || who.role == "driver" || "username" in p)
      && !Sent(reg, Some(pk), p, SerializerFields(who))) ==> UpdateUser(reg, who, pk, p, partial).code == 400
  {
    var g := GetObject(reg, who, pk);
    if g.Some? {
      ApplyFieldsWrites(reg, Some(pk), reg.accounts[g.value], p, SerializerFields(who));
    }
  }

  /** The new driver's row holds the cleaned value of every field the body
      carries, with `role` forced to `driver`, and the defaults elsewhere; a
      body with an invalid field is answered 400. */
  lemma CreateDriverWrites(reg: Registry, who: Account, data: Patch, password: Option<string>)
    ensures var r := CreateDriver(reg, who, data, password);
      var d := data["role" := Str("driver")];
      r.code == 201 ==>
        && Written(reg, None, d, UserFields, r.registry.accounts[|reg.accounts|])
        && Kept(d, UserFields, NewAccount(reg.nextId, ""), r.registry.accounts[|reg.accounts|])
    ensures (IsAdmin(who) && "username" in data && !Sent(reg, None, data["role" := Str("driver")], UserFields))
      ==> CreateDriver(reg, who, data, password).code == 400
  {
    var d := data["role" := Str("driver")];
    var base := NewAccount(reg.nextId, "");
    var b := ApplyFields(reg, None, base, d, UserFields);
    ApplyFieldsWrites(reg, None, base, d, UserFields);
    var r := CreateDriver(reg, who, data, password);
    if r.code == 201 {
      var a := r.registry.accounts[|reg.accounts|];
      assert a == b.value.(password := a.password);
      PasswordNotAColumn(b.value, a.password);
    }
  }

  /** No serializer column is the password. */
  lemma PasswordNotAColumn(a: Account, pw: Option<string>)
    ensures forall g :: Col(a.(password := pw), g) == Col(a, g)
  {
  }

  /** On success, every car-details field the body carries holds its cleaned
      value and the driver's other columns are as before. */
  lemma UpdateCarDetailsWrites(reg: Registry, who: Account, pk: nat, p: Patch)
    ensures var r := UpdateCarDetails(reg, who, pk, p);
      r.code == 200 ==>
        var k := GetObject(reg, who, pk).value;
        && Written(reg, Some(pk), p, DriverFields, r.registry.accounts[k])
        && Kept(p, DriverFields, reg.accounts[k], r.registry.accounts[k])
  {
    var g := GetObject(reg, who, pk);
    if g.Some? {
      var k := g.value;
      var b := ApplyFields(reg, Some(pk), reg.accounts[k], p, DriverFields);
      ApplyFieldsWrites(reg, Some(pk), reg.accounts[k], p, DriverFields);
      var r := UpdateCarDetails(reg, who, pk, p);
      if r.code == 200 {
        assert r.registry.accounts[k] == b.value;
      }
    }
  }

  /** A driver's body with an invalid car-details field is answered 400. */
  lemma UpdateCarDetailsRefuses(reg: Registry, who: Account, pk: nat, p: Patch)
    ensures (who.role == "driver" && pk == who.id && GetObject(reg, who, pk).Some?
      && !Sent(reg, Some(pk), p, DriverFields)) ==> UpdateCarDetails(reg, who, pk, p).code == 400
  {
    var g := GetObject(reg, who, pk);
    if g.Some? {
      ApplyFieldsWrites(reg, Some(pk), reg.accounts[g.value], p, DriverFields);
    }
  }

  /** Replacing row `k` with a row that keeps its key and collides with no
      other row keeps the registry valid. */
  lemma ReplaceKeepsValid(reg: Registry, k: nat, b: Account)
    requires Valid(reg) && k < |reg.accounts|
    requires b.id == reg.accounts[k].id && !Clash(reg, k, b)
    ensures Valid(reg.(accounts := reg.accounts[k := b]))
  {
    var accs := reg.accounts[k := b];
    forall i, j | 0 <= i < j < |accs|
      ensures accs[i].id != accs[j].id && accs[i].username != accs[j].username
      ensures accs[i].phoneNumber.Some? ==> accs[i].phoneNumber != accs[j].phoneNumber
    {
      if i == k {
        assert !Collides(reg.accounts[j], b);
      } else if j == k {
        assert !Collides(reg.accounts[i], b);
      }
    }
  }

  /** Appending a row with a fresh key that collides with no row keeps the
      registry valid. */
  lemma AppendKeepsValid(reg: Registry, a: Account)
    requires Valid(reg) && a.id == reg.nextId && !Clash(reg, |reg.accounts|, a)
    ensures Valid(Registry(reg.accounts + [a], reg.nextId + 1))
  {
    var n := |reg.accounts|;
    var accs := reg.accounts + [a];
    forall i, j | 0 <= i < j < |accs|
      ensures accs[i].id != accs[j].id && accs[i].username != accs[j].username
      ensures accs[i].phoneNumber.Some? ==> accs[i].phoneNumber != accs[j].phoneNumber
    {
      if j == n {
        assert !Collides(reg.accounts[i], a);
      }
    }
  }

  /** Every write through the user endpoints keeps keys, usernames and phone
      numbers unique. */
  lemma UpdateUserPreservesValid(reg: Registry, who: Account, pk: nat, p: Patch, partial: bool)
    requires Valid(reg)
    ensures Valid(UpdateUser(reg, who, pk, p, partial).registry)
  {
    var u := UpdateUser(reg, who, pk, p, partial);
    if u.code == 200 {
      var k := GetObject(reg, who, pk).value;
      assert u.registry == reg.(accounts := reg.accounts[k := u.registry.accounts[k]]);
      ReplaceKeepsValid(reg, k, u.registry.accounts[k]);
    }
  }

  lemma CreateDriverPreservesValid(reg: Registry, who: Account, data: Patch, password: Option<string>)
    requires Valid(reg)
    ensures Valid(CreateDriver(reg, who, data, password).registry)
  {
    var d := CreateDriver(reg, who, data, password);
    if d.code == 201 {
      var a := d.registry.accounts[|reg.accounts|];
      assert d.registry == Registry(reg.accounts + [a], reg.nextId + 1);
      AppendKeepsValid(reg, a);
    }
  }

  lemma UpdateCarDetailsPreservesValid(reg: Registry, who: Account, pk: nat, p: Patch)
    requires Valid(reg)
    ensures Valid(UpdateCarDetails(reg, who, pk, p).registry)
  {
    var c := UpdateCarDetails(reg, who, pk, p);
    if c.code == 200 {
      var k := GetObject(reg, who, pk).value;
      var b := c.registry.accounts[k];
      assert b.id == reg.accounts[k].id && b.username == reg.accounts[k].username && b.phoneNumber == reg.accounts[k].phoneNumber;
      assert !Clash(reg, k, b) by {
        forall i | 0 <= i < |reg.accounts| && i != k
          ensures !Collides(reg.accounts[i], b)
        {
          assert reg.accounts[i].username != reg.accounts[k].username;
        }
      }
      assert c.registry == reg.(accounts := reg.accounts[k := b]);
      ReplaceKeepsValid(reg, k, b);
    }
  }

  /** A body that carries only `role`, with a role name, changes only the role. */
  lemma {:induction false} OnlyRoleWritten(reg: Registry, self: Option<nat>, a: Account, x: string, fields: seq<Field>)
    requires ParseRole(x).Some? && RoleField in fields
    ensures ApplyFields(reg, self, a, map["role" := Str(x)], fields) == Ok(a.(role := x))
    decreases |fields|
  {
    var p := map["role" := Str(x)];
    var rest := fields[1..];
    if fields[0] == RoleField {
      var b := a.(role := x);
      assert SetField(reg, self, a, RoleField, Str(x)) == Ok(b);
      if RoleField in rest {
        OnlyRoleWritten(reg, self, b, x, rest);
        assert b.(role := x) == b;
      }
    } else {
      assert FieldName(fields[0]) !in p;
      OnlyRoleWritten(reg, self, a, x, rest);
    }
  }

  /** The user serializer leaves `role` writable: a rider can raise their own
      account to administrator with a partial update of their own record. */
  lemma RiderCanPromoteSelf(reg: Registry, k: nat)
    requires Valid(reg) && k < |reg.accounts| && reg.accounts[k].role == "user"
    ensures var who := reg.accounts[k];
      var r := UpdateUser(reg, who, who.id, map["role" := Str("admin")], true);
      r.code == 200 && r.registry.accounts[k].role == "admin"
  {
    var who := reg.accounts[k];
    var p := map["role" := Str("admin")];
    assert FindId(reg.accounts, who.id) == Some(k) by { FindIdUnique(reg, k); }
    assert GetObject(reg, who, who.id) == Some(k);
    assert SerializerFields(who) == UserFields;
    assert RoleField in UserFields;
    OnlyRoleWritten(reg, Some(who.id), who, "admin", UserFields);
    var b := who.(role := "admin");
    assert !Clash(reg, k, b) by {
      forall i | 0 <= i < |reg.accounts| && i != k
        ensures !Collides(reg.accounts[i], b)
      {
      }
    }
    assert UpdateUser(reg, who, who.id, p, true) == Outcome(200, reg.(accounts := reg.accounts[k := b]));
  }

  /** With unique keys, looking up a row's key finds that row. */
  lemma FindIdUnique(reg: Registry, k: nat)
    requires Valid(reg) && k < |reg.accounts|
    ensures FindId(reg.accounts, reg.accounts[k].id) == Some(k)
  {
    var r := FindId(reg.accounts, reg.accounts[k].id);
    if r.Some? && r.value != k {
      assert false;
    }
  }

  /** The converse of `GetObject`'s contract: with unique keys, a row the
      requester may see (any row for an administrator, their own otherwise)
      is found by its key. */
  lemma GetObjectFinds(reg: Registry, who: Account, k: nat)
    requires Valid(reg) && k < |reg.accounts|
    requires IsAdmin(who) || reg.accounts[k].id == who.id
    ensures GetObject(reg, who, reg.accounts[k].id) == Some(k)
  {
    FindIdUnique(reg, k);
  }
}
